=== FILE: README.md ===
# Rasberry.Cli in Dafny

A model of the command-line toolkit Rasberry.Cli, together with proofs of what
its parts promise. The toolkit has six pieces, and each is modelled here.

- **The argument engine, `ParseParams`.** It holds the list of tokens not yet
  consumed. It offers `Has`, the `Default` overloads (positional, one switch,
  several aliases, two values, two values with several aliases) and the
  `Expect` overloads. Every call reports one of four `Result`s and removes
  tokens only when the result is Good.
  - Module `ParseParams` writes each operation as a pure function from the
    token list before the call to its outcome and the token list after it.
  - Module `Cli` wraps those functions in a `Params` class. Its methods
    mutate the token list as the C# object does; `Has` there is the source's
    loop, proved equal to the function.
  - A value parser is a function from the token to a `Parsed` record. The
    record holds the success flag and the value the parser stored in its
    `out` parameter; the engine passes that value on even when parsing
    fails.
- **The result predicates, `ResultExtensions`.** Module `Results` holds
  `IsGood`, `IsBad`, `IsMissing`, `IsUnParsable`, `IsMissingArgument` and
  `IsInvalid`, and how they classify the four results.
- **The default conversion, `DefaultParser`.** It turns one token into a
  value of a target kind: nullable kinds, enums, `bool`, `char`, `string`,
  the eight integer kinds, and the floating kinds.
  - For integers, `ParseNumber` chooses among three notations: a `0x`
    prefix, a `0b` prefix, or a plain number.
  - Hexadecimal digits are read as a bit pattern of the kind's width, so
    `0xFF` is -1 as an `sbyte`.
  - Binary digits go through a signed 64-bit intermediate and a checked
    conversion.
  - Plain text is an optional sign followed by decimal digits, inside the
    kind's range.
  - Enum text is an `int` numeral, or a comma-separated list of names
    matched ignoring case, whose values are combined by bitwise OR.
- **The extra parsers, `ExtraParsers`.**
  - Enum resolution by first letter.
  - Splitting on delimiters with empty pieces dropped, then parsing each
    piece.
  - Hexadecimal colours: an optional `#`; 3, 4, 6 or 8 digits; one-digit
    channels doubled; alpha opaque when absent.
- **The help printer, `PrintHelper`.**
  - Fixed-width wrapping (`AppendWrap`).
  - The name and description row (`ND`) and indented text (`WT`).
  - The enum listing (`EnumAll`, `PrintEnum`).
  - The settings `DescriptionColumn` and `OutputWidth` are parameters.
- **The progress bar, `ProgressBar`.**
  - The redraw diff of `UpdateText`: backspaces to the first differing
    character, the new suffix, then blanks over the leftover characters.
  - `Dispose`, which redraws to the empty string.
  - The frame built on each timer tick.
  - The redraw is proved correct against a small model of a terminal line
    (`Screen`). On that line a backspace moves the cursor left and any
    other character overwrites or extends.

Modules `Text` (repetition, white space, trimming, case folding), `Digits`
(numerals in bases 2, 10 and 16, and their values) and `Enums` (members as
name and value, case-insensitive lookup) hold the vocabulary the others
share. `Wrappers` holds `Option`. The C# `Environment.NewLine` is `"\n"`
throughout.

Where the library's written description and its code differ, the model
follows the code:

- `Has` removes only the first occurrence of each alias, not every
  occurrence.
- An enum token that is an integer is accepted whether or not a member has
  that value. This applies to `Enum.Parse`, and therefore to
  `ParseEnumFirstLetter`.
- The multi-alias overloads return `default(T)`, not the caller's default,
  when every alias is missing. The model takes `default(T)` as an explicit
  `zero` argument.

## Model

| member | source | states |
|---|---|---|
| Results.ExactlyOneClass | src/ResultExtensions.cs:9-36 | exactly one of IsGood, IsMissing, IsUnParsable and IsMissingArgument holds of every result |
| Results.BadIsNotGood | src/ResultExtensions.cs:9-18 | IsBad holds exactly when IsGood does not |
| Results.InvalidClassification | src/ResultExtensions.cs:15-42 | IsInvalid is exactly MissingArgument or UnParsable; Invalid implies Bad; the one Bad result that is not Invalid is Missing |
| Tokens.IndexOf | src/ParseParams.cs:65 | `List.IndexOf` gives -1 exactly when the token is absent, else a position holding it with no earlier occurrence |
| Tokens.RemoveAtIndexOf | src/ParseParams.cs:65-67 | removing at the position `IndexOf` found removes the first occurrence of the token |
| Tokens.RemoveFirstCounts | src/ParseParams.cs:65-67 | removing the first occurrence lowers that token's count by one if present and changes no other token's count |
| Tokens.RemoveRun | src/ParseParams.cs:116-117 | the run of `RemoveAt` calls from the back of a block cuts exactly that block out of the list |
| ParseParams.HasFrom | src/ParseParams.cs:64-70 | the alias loop ends Good exactly when an earlier alias was found or a remaining alias occurs; on Missing nothing is removed |
| ParseParams.Has | src/ParseParams.cs:61-72 | Good exactly when some alias occurs, otherwise Missing with the list unchanged; Good removes at least one token |
| ParseParams.HasKeepsOtherTokens | src/ParseParams.cs:61-72 | a token that is not an alias keeps every occurrence |
| ParseParams.HasRemovesFirstOccurrences | src/ParseParams.cs:61-72 | with distinct aliases, exactly the first occurrence of each alias present is removed and everything else keeps its order |
| ParseParams.DefaultValue | src/ParseParams.cs:80-93 | Missing with the default exactly on an empty list; otherwise the head's parse decides Good or UnParsable and the value is the parser's; only Good removes the head |
| ParseParams.DefaultSwitch | src/ParseParams.cs:102-119 | Missing exactly when the switch is absent; MissingArgument exactly when its first occurrence is last; both keep the default; the value parsed is the token after the switch; Good removes those two tokens, and nothing else ever changes the list |
| ParseParams.DefaultAny | src/ParseParams.cs:128-139 | Missing, with the type default and the list unchanged, exactly when no alias occurs; otherwise the outcome is that of the first alias present |
| ParseParams.DefaultPair | src/ParseParams.cs:153-189 | Missing exactly when the switch is absent; Good parses the left token, then takes the right token and removes three tokens when a second is needed, or keeps the right default and removes two; non-Good keeps the list |
| ParseParams.DefaultPairAny | src/ParseParams.cs:203-217 | Missing with both type defaults exactly when no alias occurs; otherwise the outcome of the first alias present |
| ParseParams.ExpectValue | src/ParseParams.cs:225-233 | never Missing; MissingArgument exactly on an empty list; Good exactly when the head parses |
| ParseParams.ExpectFlag | src/ParseParams.cs:238-246 | Good, with the first occurrence removed, exactly when the switch occurs; otherwise MissingArgument with the list unchanged |
| ParseParams.ExpectSwitch | src/ParseParams.cs:254-262 | never Missing; MissingArgument exactly when the switch is absent or last; Good removes two tokens |
| ParseParams.ExpectPair | src/ParseParams.cs:273-282 | never Missing; non-Good keeps the list; Good removes three tokens because no condition is passed |
| ParseParams.ExpectMirrorsDefault | src/ParseParams.cs:225-282 | each Expect overload reports its counterpart's status with Missing turned into MissingArgument, with the same values and remaining tokens |
| ParseParams.ExpectBadIsInvalid | src/ParseParams.cs:225-282 | for every Expect result, IsBad holds exactly when IsInvalid does |
| ParseParams.GoodRemovesRun | src/ParseParams.cs:80-189 | on Good the list left is the one the source's `RemoveAt` calls leave: one, two or three tokens from the switch on |
| ParseParams.PairOutcomes | src/ParseParams.cs:163-189 | once switch and left token exist: a failed left parse is UnParsable; a false condition is Good with the right default; otherwise a missing right token is MissingArgument and a present one decides Good or UnParsable |
| ParseParams.ExpectPairNeedsSecond | src/ParseParams.cs:273-282 | with the left value parsed and no right token, Expect of two values is MissingArgument and removes nothing |
| DefaultParser.RangeIsWidth | src/DefaultParser.cs:102-121 | the bounds of each integer kind are those of two's complement or of plain binary at the kind's width |
| DefaultParser.Classify | src/DefaultParser.cs:132-149 | hexadecimal exactly on a `0x`/`0X` prefix, otherwise binary exactly on `0b`/`0B`; the digits are what follows the prefix |
| DefaultParser.FromBits | src/DefaultParser.cs:134-137 | a pattern fits exactly when it is below 2^width; the result is congruent to the pattern modulo 2^width, and one that differs from it is the negative two's complement reading of a signed kind |
| DefaultParser.HexNumber | src/DefaultParser.cs:134-137 | succeeds exactly when, without surrounding white space and trailing NULs, only hexadecimal digits are left and their value fits the kind's width; the result is in range and congruent to that value modulo 2^width |
| DefaultParser.Int64FromBinary | src/DefaultParser.cs:139-143 | a binary read is always a valid signed 64-bit value |
| DefaultParser.ChangeType | src/DefaultParser.cs:144 | the checked conversion succeeds exactly in range and keeps the value |
| DefaultParser.PlainInteger | src/DefaultParser.cs:147-149 | a plain read (surrounding white space, trailing NULs, a sign and decimal digits) is always within the kind's range |
| DefaultParser.ParseInteger | src/DefaultParser.cs:130-150 | every integer result lies within the target kind's range |
| DefaultParser.ParseFloating | src/DefaultParser.cs:95-112 | hexadecimal fails; a `double`/`float` result is never NaN; plain text gives the grammar's result unless that is a NaN of those two kinds |
| DefaultParser.ParseEnum | src/DefaultParser.cs:83-85 | a result is a defined member or an `int`; an undefined value comes only from text starting like a number or from a comma-separated list of names |
| DefaultParser.EnumByName | src/DefaultParser.cs:84 | name lookup fails exactly when no member name equals the text ignoring case, and otherwise yields a defined value |
| DefaultParser.OrInt32Identity | src/DefaultParser.cs:84 | combining a value with itself or with zero gives the value back |
| DefaultParser.EnumByNames | src/DefaultParser.cs:84 | text without a comma is the name lookup of the trimmed text; every result is a defined value or an `int` |
| DefaultParser.NameListStep | src/DefaultParser.cs:84 | a list is cut at its first comma: the trimmed first name's value ORed with the value of the rest, failing when either part fails |
| DefaultParser.TrailingCommaFails | src/DefaultParser.cs:84 | a list ending in a comma fails, whatever names come before it |
| DefaultParser.ParseBool | src/DefaultParser.cs:90 | true or false exactly when the trimmed text is that word in any letter case |
| DefaultParser.ParseChar | src/DefaultParser.cs:92 | succeeds exactly on text of one UTF-16 code unit (one character of the Basic Multilingual Plane), which it returns |
| DefaultParser.CharOutsideBmpFails | src/DefaultParser.cs:92 | a character beyond the Basic Multilingual Plane, such as an emoji, fails, as does the empty text |
| DefaultParser.ParseString | src/DefaultParser.cs:114-118 | succeeds exactly on non-blank text, which it returns unchanged |
| DefaultParser.Parse | src/DefaultParser.cs:77-125 | every value returned is of the requested kind and, for integers, within its range |
| DefaultParser.PrefixedHex | src/DefaultParser.cs:134-137 | `0x` and hexadecimal digits read as the digits' value at the kind's width |
| DefaultParser.PrefixedBinary | src/DefaultParser.cs:139-145 | `0b` and binary digits read as a signed 64-bit value, then checked against the kind |
| DefaultParser.DecimalRoundTrip | src/DefaultParser.cs:147-149 | every in-range integer written in decimal parses back to itself |
| DefaultParser.HexRoundTrip | src/DefaultParser.cs:134-137 | every non-negative value up to the kind's maximum written as `0x` and hexadecimal parses back to itself |
| DefaultParser.HexTwosComplement | src/DefaultParser.cs:134-137 | a pattern above a signed kind's maximum reads as its negative two's complement value |
| DefaultParser.BinaryRoundTrip | src/DefaultParser.cs:139-145 | every in-range value below 2^63 written as `0b` and binary parses back to itself |
| DefaultParser.BinaryNegativeInt64 | src/DefaultParser.cs:143 | 64 binary digits with the top bit set read as a negative `long` |
| DefaultParser.BinaryTopBitFailsForUInt64 | src/DefaultParser.cs:139-145 | a `ulong` of 2^63 or more fails in binary but reads back in hexadecimal |
| DefaultParser.LeadingZerosIgnored | src/DefaultParser.cs:134-145 | a leading zero after `0b` or `0x` does not change the result |
| DefaultParser.HexNonDigitFails | src/DefaultParser.cs:134-137 | a character after `0x` that is neither a hexadecimal digit nor white space fails the token whenever a character other than NUL follows at or after it |
| DefaultParser.HexTrailingNulls | src/DefaultParser.cs:134-137 | hexadecimal digits followed by white space and then NULs read as the digits alone |
| DefaultParser.BinaryNonDigitFails | src/DefaultParser.cs:139-145 | a non-binary character after `0b` fails the token |
| DefaultParser.SignedPrefixFails | src/DefaultParser.cs:132-149 | a sign before `0x` or `0b` makes the token plain, and it fails |
| DefaultParser.DecimalOutOfRange | src/DefaultParser.cs:102-105 | an out-of-range value written in decimal fails |
| DefaultParser.BoolPadded | src/DefaultParser.cs:90 | `true`/`false` in any case, surrounded by white space and NULs, parse to their value |
| DefaultParser.BoolRejectsBlank | src/DefaultParser.cs:90 | blank text is not a boolean |
| DefaultParser.BoolRejectsNumber | src/DefaultParser.cs:90 | no integer numeral is a boolean |
| DefaultParser.EnumNameResolves | src/DefaultParser.cs:83-85 | with names distinct ignoring case, every member is found by its name in any letter case |
| DefaultParser.FirstNameMatch | src/DefaultParser.cs:84 | with names distinct ignoring case, the lookup of a member's name in any letter case finds that member and no earlier one |
| DefaultParser.NamePairResolves | src/DefaultParser.cs:83-85 | two member names joined by a comma parse to the OR of the two members' values |
| DefaultParser.EnumNumberAccepted | src/DefaultParser.cs:83-85 | every `int` numeral is accepted as an enum value, defined or not, and a wider numeral fails |
| DefaultParser.FoodStuffByName | src/DefaultParser.cs:84 | `bread` resolves to Bread (4) |
| DefaultParser.FoodStuffNameList | src/DefaultParser.cs:84 | `Milk, Fish` resolves to 2 OR 3, which is 3 |
| DefaultParser.FoodStuffTrailingComma | src/DefaultParser.cs:84 | `Milk,` fails |
| DefaultParser.FoodStuffUndefinedNumber | src/DefaultParser.cs:84 | a number above every member, such as 999, is accepted though no member has it |
| DefaultParser.NullableIsUnwrapped | src/DefaultParser.cs:79-80 | a nullable target parses exactly as its underlying kind |
| ExtraParsers.IndexOfLetter | src/ExtraParsers.cs:50-58 | the first member, in order, whose name starts with the letter ignoring case and that is not a skipped zero, or none exactly when no member qualifies |
| ExtraParsers.ParseEnumFirstLetter | src/ExtraParsers.cs:44-66 | with ignoreZero nothing zero is returned; every result is the exact parse, the zero value, or a member answering for the first letter |
| ExtraParsers.FirstLetterExact | src/ExtraParsers.cs:46-65 | a successful exact parse is the result, unless it is the zero being ignored |
| ExtraParsers.FirstLetterEmpty | src/ExtraParsers.cs:49 | the empty argument has no first letter and fails |
| ExtraParsers.FoodStuffListFirstLetter | src/ExtraParsers.cs:46-65 | a list of names such as `Milk, Fish` is an exact parse, so it is the result |
| ExtraParsers.FirstLetterPicksFirst | src/ExtraParsers.cs:48-58 | when the exact parse fails, the first member answering for the first letter is the result |
| ExtraParsers.FirstLetterNoMatch | src/ExtraParsers.cs:59-65 | with no exact parse and no letter match the result is zero, or a failure when zero is ignored |
| ExtraParsers.FirstLetterNumber | src/ExtraParsers.cs:46-65 | an `int` numeral is taken as is, except zero when zero is ignored |
| ExtraParsers.FoodStuffLetterB | src/ExtraParsers.cs:48-58 | `b` or `B` gives Bread, the first member starting with b |
| ExtraParsers.FoodStuffLetterD | src/ExtraParsers.cs:48-58 | `d` gives Donut (0) |
| ExtraParsers.FoodStuffLetterDIgnoringZero | src/ExtraParsers.cs:52 | `d` gives Dumplings once the zero member is skipped |
| ExtraParsers.FoodStuffUnknownLetter | src/ExtraParsers.cs:59-65 | a letter no member starts with gives zero, or fails when zero is ignored |
| ExtraParsers.FoodStuffDonutIgnored | src/ExtraParsers.cs:61-63 | the zero member by name is rejected when zero is ignored |
| ExtraParsers.Split | src/ExtraParsers.cs:84 | every piece is non-empty and holds no delimiter |
| ExtraParsers.SplitKeepsText | src/ExtraParsers.cs:84 | the pieces hold exactly the non-delimiter characters, in order |
| ExtraParsers.SplitJoin | src/ExtraParsers.cs:84 | fragments joined by a delimiter split back into the same fragments |
| ExtraParsers.ParseAll | src/ExtraParsers.cs:86-90 | succeeds exactly when every piece parses, with one value per piece in order |
| ExtraParsers.ParseSequence | src/ExtraParsers.cs:73-91 | blank input fails; otherwise success exactly when every piece parses, with the i-th value the i-th piece's |
| ExtraParsers.SequenceOfJoined | src/ExtraParsers.cs:73-91 | values written as pieces joined by a delimiter are read back in order |
| ExtraParsers.ParseHex | src/ExtraParsers.cs:146-150 | on one or two characters: succeeds exactly when, without surrounding white space and trailing NULs, only hexadecimal digits are left, and reads their value, below 16 or 256 |
| ExtraParsers.ParseHexTrailingNul | src/ExtraParsers.cs:146-150 | a digit followed by a NUL reads as the digit, so `#FF00F\0` has a blue channel of 15 |
| ExtraParsers.Channel | src/ExtraParsers.cs:132-140 | a channel read is always within 0..255 |
| ExtraParsers.ChannelOfDigit | src/ExtraParsers.cs:130-140 | one digit counts 17 times its value |
| ExtraParsers.ChannelOfPair | src/ExtraParsers.cs:137-140 | two digits read as their value |
| ExtraParsers.OpaqueAlpha | src/ExtraParsers.cs:135-140 | the `F` or `FF` put in for a missing alpha reads as 255 |
| ExtraParsers.FromHex | src/ExtraParsers.cs:118-144 | empty text and any length other than 3, 4, 6 or 8 after the `#` fail; every colour has channels within 0..255; lengths 3 and 6 are opaque |
| ExtraParsers.HexDigitsColor | src/ExtraParsers.cs:123-143 | a colour only from 3, 4, 6 or 8 digits, with valid channels and opaque without alpha digits |
| ExtraParsers.ParseColor | src/ExtraParsers.cs:101-109 | a known name wins; otherwise the result is the hexadecimal reading, always a valid colour |
| ExtraParsers.ParseColorRoundTrip | src/ExtraParsers.cs:101-109 | any colour written as `#RRGGBBAA` that is not a colour name parses back to that colour |
| ExtraParsers.HexColorRoundTrip | src/ExtraParsers.cs:118-144 | `#RRGGBBAA` of any colour reads back as that colour |
| ExtraParsers.HexColorOpaque | src/ExtraParsers.cs:128-143 | `#RRGGBB` reads back as the colour with alpha 255 |
| ExtraParsers.RgbDigits | src/ExtraParsers.cs:128-143 | three digits give each channel as its digit times 17 and alpha 255 |
| ExtraParsers.RgbaDigits | src/ExtraParsers.cs:128-142 | four digits give every channel, alpha last, as its digit times 17 |
| ExtraParsers.DoubledRgb | src/ExtraParsers.cs:132-142 | six digits, each written twice, give the doubled channels and alpha 255 |
| ExtraParsers.DoubledRgba | src/ExtraParsers.cs:132-140 | eight digits, each written twice, give the doubled channels, alpha last |
| ExtraParsers.ShortFormDoubles | src/ExtraParsers.cs:130 | `F00` equals `FF0000` and `F00F` equals `FF0000FF`: one digit means that digit doubled |
| ExtraParsers.HexRejectsNonDigit | src/ExtraParsers.cs:146-150 | a character that is neither a hexadecimal digit, nor white space, nor NUL anywhere in the digits fails the colour |
| Digits.DigitCountIsLogWidth | src/PrintHelper.cs:122 | the digit count of a positive n is `1 + floor(log10 n)`: 10^(count-1) <= n < 10^count |
| PrintHelper.ChunksFrom | src/PrintHelper.cs:73-88 | every chunk has 1 to w characters, and all but the last have exactly w |
| PrintHelper.ChunksSpell | src/PrintHelper.cs:77-87 | the chunks concatenate back to the text from the starting position |
| PrintHelper.ChunkCount | src/PrintHelper.cs:73-88 | there are `ceil(len/w)` chunks: (n-1)*w < len <= n*w |
| PrintHelper.WrapRows | src/PrintHelper.cs:67-97 | one row for empty text, otherwise `ceil(len/w)` rows; the first is the first w characters; later rows are `offset` spaces and 1 to w characters; unindented, the rows concatenate back to the text |
| PrintHelper.AppendWrap | src/PrintHelper.cs:67-97 | the loop writes exactly the wrapped rows, each followed by a line end, and a lone line end for empty text at any width |
| PrintHelper.WrapLoop | src/PrintHelper.cs:73-88 | the loop writes a row per w-character step, indented after the first |
| PrintHelper.WrapFromIsWrapped | src/PrintHelper.cs:73-88 | the loop's output for non-empty text is the rows joined by line ends |
| PrintHelper.WrapFromIndented | src/PrintHelper.cs:75 | from the second step on, every row is the chunk indented by `offset` spaces |
| PrintHelper.NameDescription | src/PrintHelper.cs:28-46 | the level is clamped at 0; level spaces and the name come first; a blank description adds a line end; otherwise spaces pad to the description column when there is room, followed by the description wrapped at that column |
| PrintHelper.WrapText | src/PrintHelper.cs:53-65 | no text gives a single line end; text at a level gives that many spaces first; empty text gives those spaces and one line end at any width |
| PrintHelper.WrapTextIndentsEveryRow | src/PrintHelper.cs:59-62 | every row of the wrapped text, the first included, is indented by the level |
| PrintHelper.EnumAll | src/PrintHelper.cs:101-109 | the members listed are those of the enum, minus the zero member when excluded, and all of them without exclusion |
| PrintHelper.EnumAllAppend | src/PrintHelper.cs:104-108 | the listing of two parts is the two parts' listings one after the other, so the members keep their order |
| PrintHelper.EnumAllNoZero | src/PrintHelper.cs:104-108 | with no zero member every member is listed, in order |
| PrintHelper.EnumAllDropsZero | src/PrintHelper.cs:104-108 | with one zero member, excluding zero removes exactly that member and keeps the others in order |
| PrintHelper.EnumAllAscending | src/PrintHelper.cs:104-108 | a listing in `Enum.GetValues` order (ascending unsigned 32-bit pattern) stays in that order |
| PrintHelper.ZeroListed | src/PrintHelper.cs:106 | a zero member is listed exactly when it exists and zero is not excluded |
| PrintHelper.EnumLabel | src/PrintHelper.cs:124-130 | the label is the value right-aligned to the number width, then `. ` and the name |
| PrintHelper.LabelRows | src/PrintHelper.cs:123-131 | one label row per listed member, in order, indented by the clamped level |
| PrintHelper.PrintEnum | src/PrintHelper.cs:118-133 | without descriptions the listing is one labelled row per listed member, labels as wide as the digit count of the member count |
| PrintHelper.UndescribedRows | src/PrintHelper.cs:123-131 | `ND` rows with no description are exactly the label rows joined by line ends |
| ProgressBar.CommonPrefixFrom | src/ProgressBar.cs:89-92 | the scan stops at the first differing position or at the shorter end |
| ProgressBar.CommonPrefixLength | src/ProgressBar.cs:87-92 | the length of the longest common prefix of the shown and the new text |
| ProgressBar.Redraw | src/ProgressBar.cs:85-106 | nothing is written exactly when the new text equals the shown one |
| ProgressBar.RedrawWritesSuffix | src/ProgressBar.cs:94-99 | backspacing to the first difference and writing the suffix shows the new text over what was shown, with the cursor after it |
| ProgressBar.BlankRest | src/ProgressBar.cs:101-106 | spaces then backspaces over the leftover characters blank them and return the cursor |
| ProgressBar.RedrawReplay | src/ProgressBar.cs:85-110 | replaying the output from the end of the shown text leaves exactly the new text visible, blanks after it, and the cursor at its end |
| ProgressBar.UpdateText | src/ProgressBar.cs:85-110 | afterwards the new text is the text shown, and nothing is written exactly when it is unchanged |
| ProgressBar.Dispose | src/ProgressBar.cs:31-37 | the bar is disposed and shows nothing |
| ProgressBar.DisposeErases | src/ProgressBar.cs:31-35 | what `Dispose` writes blanks the whole line and returns the cursor to its start |
| ProgressBar.DisposedIsSilent | src/ProgressBar.cs:67-69 | after `Dispose`, a second `Dispose` and every tick write nothing |
| ProgressBar.Clamp | src/ProgressBar.cs:72 | the clamped progress is in [0, 1] and equals the progress when that already is |
| ProgressBar.Blocks | src/ProgressBar.cs:74 | at most ten blocks are filled |
| ProgressBar.Percent | src/ProgressBar.cs:75 | the percentage is the whole part of the clamped progress times 100: 0 at or below 0, 100 at or above 1 |
| ProgressBar.BlocksFollowPercent | src/ProgressBar.cs:74-75 | the filled blocks are the percentage's tens |
| ProgressBar.PercentField | src/ProgressBar.cs:80 | the percentage is right-aligned in a field of three characters |
| ProgressBar.Frame | src/ProgressBar.cs:74-80 | the label, `[`, filled `#` blocks then `-`, `]`, a space, the three-character percentage, `% `, and the spinner character at the animation index |
| ProgressBar.Tick | src/ProgressBar.cs:67-83 | a disposed bar writes nothing; otherwise the bar stays live, the frame becomes the shown text through the redraw of `UpdateText`, and the animation index advances by one |
| ProgressBar.FrameHasNoBackspace | src/ProgressBar.cs:74-80 | a frame holds no backspace beyond those of its label |
| ProgressBar.TickDrawsFrame | src/ProgressBar.cs:67-110 | for a label without backspaces, replaying a live tick's output from the end of the shown text leaves the frame on the line, blanks over the rest of the old text, and the cursor after the frame |

## Left out

- Console access: the `OutputWidth` initialiser reads the console, so the output width is a parameter, as is `DescriptionColumn` (default 30).
- Timer, `Interlocked`, `ResetTimer`, `Report` and the `Writer` property of the progress bar are left out. Concurrency and timing are not modelled; a step returns the text written instead of writing it.
- Floating point: `float`, `double` and `decimal` are abstract. Their grammar, the conversion from a 64-bit integer and the NaN test are parameters (`FloatingSupport`).
- `ParseNumberPercent` is left out, because it is floating-point parsing only.
- ProgressBar.Blocks: the `(int)(value * 10)` of a `double` is written as `Floor` of an exact real. Rounding of the binary product is not modelled; neither is a NaN progress, which `Math.Clamp` passes through.
- ProgressBar.Percent: the same holds for `(int)(value * 100)`. The `double` product can round up to a whole number where the exact one lies just below it: a progress of 0.7 shows 70 in .NET and 69 in the model, and 0.3 shows 30 and 29.
- ProgressBar.Frame: the percentage and blocks it shows are those of `ProgressBar.Percent` and `ProgressBar.Blocks`, with the rounding difference above.
- ProgressBar.Tick: `animationIndex` is an unbounded `nat`; the wrap-around of the C# `int` after 2^31 ticks is not modelled.
- DefaultParser.PlainInteger: `NumberStyles.Any` also allows thousands separators, exponents, currency symbols, parentheses and trailing signs. Only surrounding white space, trailing NULs, a leading sign and decimal digits are modelled.
- Text.EqualsIgnoreCase: the enum-name comparison of `Enum.Parse` with `ignoreCase` and the first-letter comparison with `StringComparison.OrdinalIgnoreCase` also fold non-ASCII letters (`é` matches `É`). The model folds ASCII letters only. `DefaultParser.ParseBool` is exact, as `bool.Parse` matches `true` and `false` by ASCII letters.
- DefaultParser.Parse: the culture (`IFormatProvider`) is fixed to the invariant culture.
- DefaultParser.Parse: the exception types (`FormatException`, `OverflowException`, `ArgumentException`, `NotSupportedException`) are all one failure, `None`.
- ExtraParsers.ParseColor: the colour-name table of `System.Drawing` is a parameter.
- ParseParams.HasRemovesFirstOccurrences: the exact removal result is stated only for distinct aliases. A repeated alias removes one more occurrence per repetition, which `ParseParams.Has` still covers.
- PrintHelper.PrintEnum: the layout is stated only when there is no description map. With descriptions, each row is a `NameDescription` of the label, and its shape is stated there.
- PrintHelper.PrintEnum: the label width is the digit count of the number of members listed, as the source computes it; for an empty listing no row is printed, so the width does not matter.
- PrintHelper.NameDescription: a null name is not a separate input. `Append((string)null)` appends nothing, so with a blank description a null name prints like the empty name, which is modelled. With a non-blank description, `name.Length` throws a `NullReferenceException`; that path is not modelled. A null description is blank, and a negative `DescriptionColumn` cannot be passed because the column is a `nat`.
- PrintHelper.WrapText: a negative level, where `Append(' ', level)` throws, is `None`.
- PrintHelper.AppendWrap: non-empty text needs a row width `OutputWidth - 1 - offset` above zero. In the source a width of 0 makes the loop append empty lines forever, and a negative width throws in `Substring`; so `ND` with the default `DescriptionColumn` of 30 never returns on a 31-column console. Those paths are not modelled.
- Strings are sequences of Unicode scalar values, not of UTF-16 code units. A character beyond the Basic Multilingual Plane counts once in the model and twice in .NET, so `Length`, `Substring` and the counts in `AppendWrap`, `EnumLabel` and `UpdateText` differ for such text, and a surrogate pair split by `Substring` cannot arise. `DefaultParser.ParseChar` does reject such a character, as `char.Parse` does.
- Enums.Member: the listing order of an enum is an input, not computed. `Enum.GetValues` sorts by the unsigned 32-bit pattern of the value and lists a value once per name that carries it; `PrintHelper.EnumAllAscending` takes that order as its hypothesis.
- PrintHelper.EnumLabel: the value is written with `'-'` for a negative sign. `eValue.ToString()` uses the current culture's `NegativeSign`, which some cultures make another character (U+2212 under sv-SE with ICU).
- PrintHelper.PrintEnum: each listed entry is labelled with its own name. For a value with several names, `e.ToString()` gives the same name on every one of its rows.
- ExtraParsers.ParseEnumFirstLetter: the letter is compared with each listed member's own name. The source compares it with `item.ToString()`, which for a value carrying several names gives one of them for every such entry. So with `Apple = 1, Banana = 1` and the argument `b`, .NET may match nothing and return 0 where the model returns 1. The result is the same for enums whose values are distinct.
- ExtraParsers.IndexOfLetter: for the same reason it finds the first member by its own name. For a value with aliases, that name is not necessarily what `ToString()` prints.
- ExtraParsers.FirstLetterPicksFirst: it names the member by its own name, so for an enum with aliased values its conclusion is about the model and can differ from .NET as described above.
- DefaultParser.EnumByNames: only enums with an `int` underlying type are modelled; the values of a name list are combined as 32-bit patterns.
- ProgressBar.Frame: a null `Label` is the empty caption.
- `Remaining` and the `Params` object in module `Cli` carry `modifies` contracts over the token list; the properties are stated on the engine functions they call.
- `IParamsParser`, `IProgressWithLabel` and `ParseResult` are interfaces or plain records with no behaviour. `ScanMany`, the `When*` combinators, the `p.ExpectValue<T>()` called by the tests (for example `ExpectValue<double>()`) and the `TryParse*` methods have no source in this repository and are not modelled. The source's `Expect<T>(out T val)` is modelled, as `ParseParams.ExpectValue`.

=== FILE: cli.dfy ===
/** The mutable `ParseParams` object: it owns the token list and every call
    replaces the list by what the corresponding engine function leaves.
    The instance's own value parser is generic in the source; here the
    caller passes the parser for the requested type, which is the instance
    parser whenever the source call passes none. */
module Cli {
  import opened Wrappers
  import opened Results
  import opened Tokens
  import E = ParseParams

  class Params {
    /** The remaining, not yet consumed tokens. */
    var args: seq<string>

    constructor(tokens: seq<string>)
      ensures args == tokens
    {
      args := tokens;
    }

    /** `Remaining()`: a copy of the tokens not consumed so far. */
    method Remaining() returns (r: seq<string>)
      ensures r == args
    {
      r := args;
    }

    /** `Has(params string[])`, written as the source's loop: each alias in
        turn is looked up and its first occurrence removed. */
    method Has(aliases: seq<string>) returns (r: Result)
      modifies this
      ensures r == E.Has(old(args), aliases).result
      ensures args == E.Has(old(args), aliases).rest
      ensures r == Good <==> exists a :: a in aliases && a in old(args)
    {
      var ii := -1;
      var k := 0;
      while k < |aliases|
        invariant 0 <= k <= |aliases|
        invariant E.HasFrom(args, aliases[k..], ii != -1) == E.HasFrom(old(args), aliases, false)
      {
        var i := IndexOf(args, aliases[k]);
        if i != -1 {
          args := RemoveAt(args, i);
          ii := i;
        }
        k := k + 1;
      }
      assert aliases[k..] == [];
      r := if ii == -1 then Missing else Good;
    }

    /** Positional `Default<T>(out val, def, par)`. */
    method DefaultValue<T>(def: T, par: E.Parser<T>) returns (r: Result, val: T)
      modifies this
      ensures var s := E.DefaultValue(old(args), def, par);
        r == s.result && val == s.value && args == s.rest
    {
      var s := E.DefaultValue(args, def, par);
      r, val, args := s.result, s.value, s.rest;
    }

    /** `Default<T>(switch, out val, def, par)`. */
    method DefaultSwitch<T>(sw: string, def: T, par: E.Parser<T>) returns (r: Result, val: T)
      modifies this
      ensures var s := E.DefaultSwitch(old(args), sw, def, par);
        r == s.result && val == s.value && args == s.rest
    {
      var s := E.DefaultSwitch(args, sw, def, par);
      r, val, args := s.result, s.value, s.rest;
    }

    /** `Default<T>(switch[], out val, def, par)`; `zero` is `default(T)`. */
    method DefaultAny<T>(aliases: seq<string>, def: T, zero: T, par: E.Parser<T>) returns (r: Result, val: T)
      modifies this
      ensures var s := E.DefaultAny(old(args), aliases, def, zero, par);
        r == s.result && val == s.value && args == s.rest
    {
      var s := E.DefaultAny(args, aliases, def, zero, par);
      r, val, args := s.result, s.value, s.rest;
    }

    /** `Default<T,U>(switch, out leftVal, out rightVal, ...)`. */
    method DefaultPair<T, U>(sw: string, leftDef: T, rightDef: U, condition: Option<T -> bool>,
                             lp: E.Parser<T>, rp: E.Parser<U>) returns (r: Result, left: T, right: U)
      modifies this
      ensures var s := E.DefaultPair(old(args), sw, leftDef, rightDef, condition, lp, rp);
        r == s.result && left == s.left && right == s.right && args == s.rest
    {
      var s := E.DefaultPair(args, sw, leftDef, rightDef, condition, lp, rp);
      r, left, right, args := s.result, s.left, s.right, s.rest;
    }

    /** `Default<T,U>(switch[], out leftVal, out rightVal, ...)`. */
    method DefaultPairAny<T, U>(aliases: seq<string>, leftDef: T, rightDef: U, leftZero: T, rightZero: U,
                                condition: Option<T -> bool>, lp: E.Parser<T>, rp: E.Parser<U>)
      returns (r: Result, left: T, right: U)
      modifies this
      ensures var s := E.DefaultPairAny(old(args), aliases, leftDef, rightDef, leftZero, rightZero, condition, lp, rp);
        r == s.result && left == s.left && right == s.right && args == s.rest
    {
      var s := E.DefaultPairAny(args, aliases, leftDef, rightDef, leftZero, rightZero, condition, lp, rp);
      r, left, right, args := s.result, s.left, s.right, s.rest;
    }

    /** `Expect<T>(out val)`. */
    method ExpectValue<T>(zero: T, par: E.Parser<T>) returns (r: Result, val: T)
      modifies this
      ensures var s := E.ExpectValue(old(args), zero, par);
        r == s.result && val == s.value && args == s.rest
    {
      var s := E.ExpectValue(args, zero, par);
      r, val, args := s.result, s.value, s.rest;
    }

    /** `Expect(switch)`. */
    method ExpectFlag(sw: string) returns (r: Result)
      modifies this
      ensures var p := E.ExpectFlag(old(args), sw);
        r == p.result && args == p.rest
    {
      var p := E.ExpectFlag(args, sw);
      r, args := p.result, p.rest;
    }

    /** `Expect<T>(switch, out val, par)`. */
    method ExpectSwitch<T>(sw: string, zero: T, par: E.Parser<T>) returns (r: Result, val: T)
      modifies this
      ensures var s := E.ExpectSwitch(old(args), sw, zero, par);
        r == s.result && val == s.value && args == s.rest
    {
      var s := E.ExpectSwitch(args, sw, zero, par);
      r, val, args := s.result, s.value, s.rest;
    }

    /** `Expect<T,U>(switch, out leftVal, out rightVal, ...)`. */
    method ExpectPair<T, U>(sw: string, leftZero: T, rightZero: U, lp: E.Parser<T>, rp: E.Parser<U>)
      returns (r: Result, left: T, right: U)
      modifies this
      ensures var s := E.ExpectPair(old(args), sw, leftZero, rightZero, lp, rp);
        r == s.result && left == s.left && right == s.right && args == s.rest
    {
      var s := E.ExpectPair(args, sw, leftZero, rightZero, lp, rp);
      r, left, right, args := s.result, s.left, s.right, s.rest;
    }
  }
}

=== FILE: default_parser.dfy ===
/** `DefaultParser.Parse(Type, string)`: the conversion of one token into a
    value of a target kind, and `ParseNumber`'s choice between hexadecimal,
    binary and plain notation. A failure of any kind (the source throws
    one of several exception types) is `None`. Floating-point grammar and
    arithmetic are parameters (`FloatingSupport`). */
module DefaultParser {
  import opened Wrappers
  import opened Text
  import opened Digits
  import opened Enums
  import Tokens

  // ---------------------------------------------------------------- integer kinds

  datatype IntegerKind = SByte | Byte | Int16 | UInt16 | Int32 | UInt32 | Int64 | UInt64

  function Bits(k: IntegerKind): nat {
    match k
    case SByte | Byte => 8
    case Int16 | UInt16 => 16
    case Int32 | UInt32 => 32
    case Int64 | UInt64 => 64
  }

  predicate Signed(k: IntegerKind) {
    k.SByte? || k.Int16? || k.Int32? || k.Int64?
  }

  /** `MinValue` of the .NET type. */
  function MinValue(k: IntegerKind): int {
    match k
    case SByte => -128
    case Int16 => -32768
    case Int32 => -2147483648
    case Int64 => -9223372036854775808
    case Byte | UInt16 | UInt32 | UInt64 => 0
  }

  /** `MaxValue` of the .NET type. */
  function MaxValue(k: IntegerKind): int {
    match k
    case SByte => 127
    case Byte => 255
    case Int16 => 32767
    case UInt16 => 65535
    case Int32 => 2147483647
    case UInt32 => 4294967295
    case Int64 => 9223372036854775807
    case UInt64 => 18446744073709551615
  }

  /** The number of bit patterns of the kind: 2 to the power `Bits(k)`. */
  function Modulus(k: IntegerKind): nat {
    match k
    case SByte | Byte => 0x100
    case Int16 | UInt16 => 0x1_0000
    case Int32 | UInt32 => 0x1_0000_0000
    case Int64 | UInt64 => 0x1_0000_0000_0000_0000
  }

  predicate InRange(k: IntegerKind, n: int) {
    MinValue(k) <= n <= MaxValue(k)
  }

  /** The literal bounds are those of two's complement (signed kinds) and
      of plain binary (unsigned kinds) of the kind's width. */
  lemma RangeIsWidth(k: IntegerKind)
    ensures Bits(k) >= 8
    ensures Signed(k) ==> MinValue(k) == -(Pow2(Bits(k) - 1) as int) && MaxValue(k) == Pow2(Bits(k) - 1) - 1
    ensures !Signed(k) ==> MinValue(k) == 0 && MaxValue(k) == Pow2(Bits(k)) - 1
    ensures MaxValue(k) < Pow2(Bits(k)) && MaxValue(k) - MinValue(k) + 1 == Pow2(Bits(k))
    ensures Modulus(k) == Pow2(Bits(k))
  {
    Pow2Widths();
  }

  // ---------------------------------------------------------------- notation

  /** The notation `ParseNumber` chooses from the raw token: a `0x` or `0X`
      prefix selects hexadecimal, otherwise a `0b` or `0B` prefix selects
      binary, otherwise the token is read as a plain number. */
  datatype Notation = Hex(digits: string) | Binary(digits: string) | Plain

  /** The token starts with `0` and then `letter` in either case (the
      source's `StartsWith(.., InvariantCultureIgnoreCase)`). */
  predicate HasPrefix(s: string, letter: char) {
    |s| >= 2 && s[0] == '0' && FoldCase(s[1]) == letter
  }

  function Classify(s: string): (n: Notation)
    ensures n.Hex? <==> HasPrefix(s, 'x')
    ensures n.Binary? <==> HasPrefix(s, 'b')
    ensures !n.Plain? ==> |s| >= 2 && n.digits == s[2..]
  {
    if HasPrefix(s, 'x') then Hex(s[2..])
    else if HasPrefix(s, 'b') then Binary(s[2..])
    else Plain
  }

  // ---------------------------------------------------------------- integer parsing

  /** An optional sign followed by at least one decimal digit. */
  function SignedDecimal(t: string): (r: Option<int>)
    ensures r.Some? ==> |t| > 0 && (IsDecimalDigit(t[0]) || t[0] == '+' || t[0] == '-')
    ensures r.Some? && r.value < 0 ==> t[0] == '-'
  {
    if |t| > 0 && (t[0] == '+' || t[0] == '-') then
      var d := t[1..];
      if |d| > 0 && AllDigits(d, 10) then
        Some(if t[0] == '-' then -(ValueOf(d, 10) as int) else ValueOf(d, 10))
      else None
    else if |t| > 0 && AllDigits(t, 10) then Some(ValueOf(t, 10))
    else None
  }

  /** An unsigned number of a kind's width read as a value of the kind: a
      signed kind takes the two's complement reading; a number that needs
      more bits than the kind has overflows. */
  function FromBits(k: IntegerKind, v: nat): (r: Option<int>)
    ensures r.Some? ==> InRange(k, r.value)
    ensures r.Some? <==> v < Modulus(k)
    ensures r.Some? && r.value != v ==> Signed(k) && r.value < 0 && r.value == v - Modulus(k)
    ensures r.Some? ==> r.value % Modulus(k) == v
  {
    if v >= Modulus(k) then None
    else if v > MaxValue(k) then
      WrapsBack(v, Modulus(k));
      Some(v - Modulus(k))
    else
      WrapsBack(v, Modulus(k));
      Some(v)
  }

  /** Below the modulus, a number and its negative reading are congruent
      to it. */
  lemma WrapsBack(v: int, m: int)
    requires 0 <= v < m
    ensures v % m == v && (v - m) % m == v
  {
  }

  /** `NumberStyles.HexNumber` for an integer kind: surrounding white space
      and trailing NUL characters are skipped, and the hexadecimal digits
      are read as an unsigned number of the kind's width. */
  function HexNumber(k: IntegerKind, s: string): (r: Option<int>)
    ensures r.Some? ==> InRange(k, r.value)
    ensures r.Some? <==> var t := NumberTrim(s);
      |t| > 0 && AllDigits(t, 16) && ValueOf(t, 16) < Modulus(k)
    ensures r.Some? ==> r.value % Modulus(k) == ValueOf(NumberTrim(s), 16)
  {
    var t := NumberTrim(s);
    if |t| == 0 || !AllDigits(t, 16) then None
    else FromBits(k, ValueOf(t, 16))
  }

  /** `Convert.ToInt64(s, 2)`: an optional `+`, then binary digits read as
      an unsigned 64-bit number, which is reinterpreted as a signed one. */
  function Int64FromBinary(s: string): (r: Option<int>)
    ensures r.Some? ==> InRange(Int64, r.value)
  {
    var d := if |s| > 0 && s[0] == '+' then s[1..] else s;
    if |d| == 0 || !AllDigits(d, 2) then None
    else FromBits(Int64, ValueOf(d, 2))
  }

  /** `Convert.ChangeType(long, T)` for an integer kind: a checked
      conversion. */
  function ChangeType(k: IntegerKind, n: int): (r: Option<int>)
    ensures r.Some? <==> InRange(k, n)
    ensures r.Some? ==> r.value == n
  {
    if InRange(k, n) then Some(n) else None
  }

  /** The plain branch, `T.Parse(s, NumberStyles.Any)`, restricted to
      surrounding white space, trailing NUL characters, an optional leading
      sign and decimal digits. */
  function PlainInteger(k: IntegerKind, s: string): (r: Option<int>)
    ensures r.Some? ==> InRange(k, r.value)
  {
    match SignedDecimal(NumberTrim(s))
    case Some(v) => if InRange(k, v) then Some(v) else None
    case None => None
  }

  /** `ParseNumber` for an integer kind. */
  function ParseInteger(k: IntegerKind, s: string): (r: Option<int>)
    ensures r.Some? ==> InRange(k, r.value)
  {
    match Classify(s)
    case Hex(d) => HexNumber(k, d)
    case Binary(d) =>
      (match Int64FromBinary(d)
       case Some(n) => ChangeType(k, n)
       case None => None)
    case Plain => PlainInteger(k, s)
  }

  // ---------------------------------------------------------------- floating kinds

  datatype FloatingKind = Single | Double | Decimal

  /** What the model does not spell out about `float`, `double` and
      `decimal`: the number grammar of `NumberStyles.Any` in the invariant
      culture, the conversion of a 64-bit integer, and the NaN test. */
  datatype FloatingSupport<!F> = FloatingSupport(
    grammar: (FloatingKind, string) -> Option<F>,
    fromInt64: (FloatingKind, int) -> F,
    isNaN: F -> bool)

  /** `ParseNumber` for a floating kind, followed by the NaN rejection of
      `double` and `float`. Hexadecimal notation is not supported by these
      types' parsers and always fails. */
  function ParseFloating<F>(fs: FloatingSupport<F>, k: FloatingKind, s: string): (r: Option<F>)
    ensures Classify(s).Hex? ==> r.None?
    ensures r.Some? && k != Decimal ==> !fs.isNaN(r.value)
    ensures Classify(s).Plain? && (k == Decimal || fs.grammar(k, s).None? || !fs.isNaN(fs.grammar(k, s).value))
            ==> r == fs.grammar(k, s)
  {
    var n :=
      match Classify(s)
      case Hex(_) => None
      case Binary(d) =>
        (match Int64FromBinary(d)
         case Some(v) => Some(fs.fromInt64(k, v))
         case None => None)
      case Plain => fs.grammar(k, s);
    if n.Some? && k != Decimal && fs.isNaN(n.value) then None else n
  }

  // ---------------------------------------------------------------- enum, bool, char, string

  predicate StartsNumber(c: char) {
    IsDecimalDigit(c) || c == '-' || c == '+'
  }

  /** `Enum.Parse(type, s, ignoreCase: true)` for an `int`-based enum.
      Leading white space is skipped; text that starts like a number is read
      as an `int` (trailing white space and NULs allowed) and taken as is,
      defined member or not; a number that does not fit an `int` fails; any
      other text is a comma-separated list of names (`EnumByNames`). */
  function ParseEnum(members: seq<Member>, s: string): (r: Option<int>)
    ensures r.Some? ==> IsDefined(members, r.value) || InRange(Int32, r.value)
    ensures r.Some? && !IsDefined(members, r.value) ==>
      var t := TrimStart(s, White); |t| > 0 && (StartsNumber(t[0]) || ',' in t)
  {
    var t := TrimStart(s, White);
    if |t| > 0 && StartsNumber(t[0]) && SignedDecimal(NumberTrimEnd(t)).Some? then
      var v := SignedDecimal(NumberTrimEnd(t)).value;
      if InRange(Int32, v) then Some(v) else None
    else
      EnumByNames(members, t)
  }

  /** The value of the first member whose name equals `name` ignoring case. */
  function EnumByName(members: seq<Member>, name: string): (r: Option<int>)
    ensures r.Some? ==> IsDefined(members, r.value)
    ensures r.None? <==> forall i :: 0 <= i < |members| ==> !EqualsIgnoreCase(members[i].name, name)
  {
    var k := IndexOfName(members, name);
    if k == -1 then None else Some(members[k].value)
  }

  /** Bitwise OR of the low `width` bits of two naturals. */
  function OrBits(x: nat, y: nat, width: nat): (r: nat)
    ensures r < Pow2(width)
  {
    if width == 0 then 0
    else (if x % 2 == 1 || y % 2 == 1 then 1 else 0) + 2 * OrBits(x / 2, y / 2, width - 1)
  }

  /** Bitwise OR on the 32-bit patterns of two `int` values, read back as
      an `int`: how the members of a name list are combined. */
  function OrInt32(a: int, b: int): (r: int)
    ensures InRange(Int32, r)
  {
    Pow2Widths();
    FromBits(Int32, OrBits(a % 0x1_0000_0000, b % 0x1_0000_0000, 32)).value
  }

  /** OR with itself or with zero keeps a pattern. */
  lemma {:induction false} OrBitsIdentity(x: nat, width: nat)
    requires x < Pow2(width)
    ensures OrBits(x, x, width) == x && OrBits(x, 0, width) == x && OrBits(0, x, width) == x
  {
    if width > 0 {
      OrBitsIdentity(x / 2, width - 1);
    }
  }

  /** Patterns that fit in `k` bits OR the same in any wider width. */
  lemma {:induction false} OrBitsNarrow(x: nat, y: nat, k: nat, width: nat)
    requires x < Pow2(k) && y < Pow2(k) && k <= width
    ensures OrBits(x, y, width) == OrBits(x, y, k)
  {
    if k == 0 {
      OrBitsIdentity(0, width);
    } else {
      OrBitsNarrow(x / 2, y / 2, k - 1, width - 1);
    }
  }

  /** Naming a member twice, or together with a zero member, changes
      nothing. */
  lemma OrInt32Identity(a: int)
    requires InRange(Int32, a)
    ensures OrInt32(a, a) == a && OrInt32(a, 0) == a && OrInt32(0, a) == a
  {
    var n := a % 0x1_0000_0000;
    Pow2Widths();
    OrBitsIdentity(n, 32);
    assert 0 % 0x1_0000_0000 == 0;
    Int32Pattern(a);
  }

  /** An `int` read back from its 32-bit pattern is itself. */
  lemma Int32Pattern(a: int)
    requires InRange(Int32, a)
    ensures FromBits(Int32, a % 0x1_0000_0000) == Some(a)
  {
    if a < 0 {
      assert a % 0x1_0000_0000 == a + 0x1_0000_0000;
    } else {
      assert a % 0x1_0000_0000 == a;
    }
  }

  /** The name reading of `Enum.Parse`: the text is cut at each comma,
      every piece is trimmed and must name a member ignoring case, and the
      pieces' values are combined with `OrInt32`; a comma at the very end
      fails. */
  function EnumByNames(members: seq<Member>, t: string): (r: Option<int>)
    ensures r.Some? ==> IsDefined(members, r.value) || InRange(Int32, r.value)
    ensures ',' !in t ==> r == EnumByName(members, Trim(t, White))
    decreases |t|
  {
    var e := Tokens.IndexOf(t, ',');
    if e == -1 then EnumByName(members, Trim(t, White))
    else if e == |t| - 1 then None
    else
      match EnumByName(members, Trim(t[..e], White))
      case None => None
      case Some(v) =>
        match EnumByNames(members, t[e + 1..])
        case None => None
        case Some(w) => Some(OrInt32(v, w))
  }

  /** `bool.Parse`: `true` or `false` in any letter case, surrounded by any
      white space and NUL characters. */
  function ParseBool(s: string): (r: Option<bool>)
    ensures r == Some(true) <==> EqualsIgnoreCase(Trim(s, WhiteOrNull), "true")
    ensures r == Some(false) <==> EqualsIgnoreCase(Trim(s, WhiteOrNull), "false")
  {
    var t := Trim(s, WhiteOrNull);
    if EqualsIgnoreCase(t, "true") then Some(true)
    else if EqualsIgnoreCase(t, "false") then Some(false)
    else None
  }

  /** A character that is one UTF-16 code unit: one from the Basic
      Multilingual Plane. Any other character is a surrogate pair in .NET,
      a string of length 2. */
  predicate IsSingleUnit(c: char) {
    c as int < 0x1_0000
  }

  /** `char.Parse`: exactly one UTF-16 code unit. */
  function ParseChar(s: string): (r: Option<char>)
    ensures r.Some? <==> |s| == 1 && IsSingleUnit(s[0])
    ensures r.Some? ==> s == [r.value]
  {
    if |s| == 1 && IsSingleUnit(s[0]) then Some(s[0]) else None
  }

  /** A character beyond the Basic Multilingual Plane, such as an emoji,
      is not a `char`, and neither is the empty string. */
  lemma CharOutsideBmpFails(c: char)
    requires c as int >= 0x1_0000
    ensures ParseChar([c]).None? && ParseChar("").None?
    ensures ParseChar(['x']) == Some('x')
  {
  }

  /** The string kind passes the token through unless it is blank. */
  function ParseString(s: string): (r: Option<string>)
    ensures r.Some? <==> !IsBlank(s)
    ensures r.Some? ==> r.value == s
  {
    if IsBlank(s) then None else Some(s)
  }

  // ---------------------------------------------------------------- dispatch

  /** The target kinds `Parse` dispatches on; everything else is not
      supported and fails. */
  datatype Kind =
    | EnumType(members: seq<Member>)
    | BoolType
    | CharType
    | StringType
    | IntegerType(ik: IntegerKind)
    | FloatingType(fk: FloatingKind)
    | OtherType

  /** A target type, possibly `Nullable<>` of a kind. */
  datatype Target = Target(nullable: bool, kind: Kind)

  datatype Value<F> =
    | EnumValue(member: int)
    | BoolValue(b: bool)
    | CharValue(c: char)
    | StringValue(str: string)
    | IntegerValue(n: int)
    | FloatingValue(f: F)

  /** A value of the kind: the matching variant, and within range for an
      integer kind. */
  predicate Fits<F>(k: Kind, v: Value<F>) {
    match k
    case EnumType(_) => v.EnumValue?
    case BoolType => v.BoolValue?
    case CharType => v.CharValue?
    case StringType => v.StringValue?
    case IntegerType(ik) => v.IntegerValue? && InRange(ik, v.n)
    case FloatingType(_) => v.FloatingValue?
    case OtherType => false
  }

  /** `Parse(Type, string)`: a nullable target is parsed as its underlying
      kind; enums are checked first. */
  function Parse<F>(fs: FloatingSupport<F>, t: Target, s: string): (r: Option<Value<F>>)
    ensures r.Some? ==> Fits(t.kind, r.value)
  {
    match t.kind
    case EnumType(members) => Map(ParseEnum(members, s), v => EnumValue(v))
    case BoolType => Map(ParseBool(s), b => BoolValue(b))
    case CharType => Map(ParseChar(s), c => CharValue(c))
    case StringType => Map(ParseString(s), str => StringValue(str))
    case IntegerType(ik) => Map(ParseInteger(ik, s), n => IntegerValue(n))
    case FloatingType(fk) => Map(ParseFloating(fs, fk, s), f => FloatingValue(f))
    case OtherType => None
  }

  function Map<A, B>(o: Option<A>, f: A -> B): (r: Option<B>)
    ensures r.Some? <==> o.Some?
    ensures r.Some? ==> r.value == f(o.value)
  {
    match o
    case Some(a) => Some(f(a))
    case None => None
  }

  // ---------------------------------------------------------------- properties

  /** `int.ToString()` output is read back by the plain branch: it has no
      prefix, no white space to trim, and its sign and digits give `n`. */
  lemma ShowIntIsPlain(n: int)
    ensures Classify(ShowInt(n)).Plain?
    ensures NumberTrim(ShowInt(n)) == ShowInt(n)
    ensures TrimStart(ShowInt(n), White) == ShowInt(n)
    ensures NumberTrimEnd(ShowInt(n)) == ShowInt(n)
    ensures SignedDecimal(ShowInt(n)) == Some(n)
  {
    ShowIntEnds(n);
    ShowIntValue(n);
    PlainNumeral(ShowInt(n));
  }

  lemma PlainNumeral(s: string)
    requires |s| > 0 && (s[0] == '-' || IsDecimalDigit(s[0])) && IsDecimalDigit(s[|s| - 1])
    requires !HasPrefix(s, 'x') && !HasPrefix(s, 'b')
    ensures Classify(s).Plain?
    ensures NumberTrim(s) == s && NumberTrimEnd(s) == s
    ensures TrimStart(s, White) == s
  {
    NothingToTrim(s);
    NoNumberPadding(s);
  }

  /** A text that neither starts nor ends with number white space and does
      not end with NUL is read by the integer parsers as it stands. */
  lemma NoNumberPadding(s: string)
    requires |s| > 0 && !IsNumberWhite(s[0]) && !IsNumberWhite(s[|s| - 1]) && s[|s| - 1] != '\0'
    ensures NumberTrim(s) == s && NumberTrimEnd(s) == s
  {
    assert s + [] + [] == s && s + [] == s;
    NumberTrimPadded(s, [], []);
    TrimEndPadded(s, [], Null);
    TrimEndPadded(s, [], NumberWhite);
  }

  /** A text with no white space at either end is left alone by the
      white-space trims. */
  lemma NothingToTrim(s: string)
    requires |s| > 0 && !IsWhiteSpace(s[0]) && !IsWhiteSpace(s[|s| - 1])
    ensures Trim(s, White) == s
    ensures TrimStart(s, White) == s
  {
    assert !Drops(White, s[0]) && !Drops(White, s[|s| - 1]);
  }

  lemma ShowIntEnds(n: int)
    ensures var s := ShowInt(n);
      && !HasPrefix(s, 'x') && !HasPrefix(s, 'b')
      && (s[0] == '-' || IsDecimalDigit(s[0])) && IsDecimalDigit(s[|s| - 1])
  {
    var s := ShowInt(n);
    if n < 0 {
      assert s[|s| - 1] == Show(-n, 10)[|Show(-n, 10)| - 1];
      assert IsDigit(s[|s| - 1], 10);
    } else {
      assert IsDigit(s[0], 10) && IsDigit(s[|s| - 1], 10);
    }
  }

  lemma ShowIntValue(n: int)
    ensures SignedDecimal(ShowInt(n)) == Some(n)
  {
    var s := ShowInt(n);
    if n < 0 {
      ValueOfShow(-n, 10);
      assert s[1..] == Show(-n, 10);
    } else {
      ValueOfShow(n, 10);
      assert IsDigit(s[0], 10);
    }
  }

  /** A digit string has nothing to trim. */
  lemma DigitsAreNotWhite(d: string, base: nat)
    requires |d| > 0 && AllDigits(d, base)
    ensures NumberTrim(d) == d
  {
    assert IsDigit(d[0], base) && IsDigit(d[|d| - 1], base);
    NoNumberPadding(d);
  }

  /** `0x` followed by hexadecimal digits takes the hexadecimal branch and
      reads the digits' value. */
  lemma PrefixedHex(k: IntegerKind, d: string)
    requires |d| > 0 && AllDigits(d, 16)
    ensures ParseInteger(k, "0x" + d) == FromBits(k, ValueOf(d, 16))
  {
    var s := "0x" + d;
    assert s[2..] == d;
    assert Classify(s) == Hex(d);
    DigitsAreNotWhite(d, 16);
  }

  /** `0b` followed by binary digits takes the binary branch and reads the
      digits' value as a signed 64-bit number. */
  lemma PrefixedBinary(k: IntegerKind, d: string)
    requires |d| > 0 && AllDigits(d, 2)
    ensures ParseInteger(k, "0b" + d) ==
      match FromBits(Int64, ValueOf(d, 2))
      case Some(n) => ChangeType(k, n)
      case None => None
  {
    var s := "0b" + d;
    assert s[2..] == d;
    assert Classify(s) == Binary(d);
    assert IsDigit(d[0], 2);
  }

  /** Every in-range integer written in decimal parses back to itself. */
  lemma DecimalRoundTrip(k: IntegerKind, n: int)
    requires InRange(k, n)
    ensures ParseInteger(k, ShowInt(n)) == Some(n)
  {
    ShowIntIsPlain(n);
  }

  /** Every non-negative in-range integer written as `0x` and hexadecimal
      digits parses back to itself. */
  lemma HexRoundTrip(k: IntegerKind, n: nat)
    requires n <= MaxValue(k)
    ensures ParseInteger(k, "0x" + Show(n, 16)) == Some(n)
  {
    PrefixedHex(k, Show(n, 16));
    ValueOfShow(n, 16);
    RangeIsWidth(k);
  }

  /** A bit pattern above the signed maximum reads as its two's complement
      value, so every negative value of a signed kind has a hexadecimal
      form: `0xFF` is -1 as an `sbyte`. */
  lemma HexTwosComplement(k: IntegerKind, v: nat)
    requires Signed(k) && MaxValue(k) < v < Modulus(k)
    ensures MinValue(k) <= v - Modulus(k) < 0
    ensures ParseInteger(k, "0x" + Show(v, 16)) == Some(v - Modulus(k))
  {
    var d := Show(v, 16);
    ValueOfShow(v, 16);
    PrefixedHex(k, d);
    assert ValueOf(d, 16) == v;
    assert MinValue(k) <= v - Modulus(k) < 0;
    assert FromBits(k, v) == Some(v - Modulus(k));
  }

  /** Every in-range integer below 2^63 written as `0b` and binary digits
      parses back to itself. */
  lemma BinaryRoundTrip(k: IntegerKind, n: nat)
    requires InRange(k, n) && n < Pow2(63)
    ensures ParseInteger(k, "0b" + Show(n, 2)) == Some(n)
  {
    ValueOfShow(n, 2);
    BinaryDigitsRead(k, Show(n, 2), n);
  }

  lemma BinaryDigitsRead(k: IntegerKind, d: string, n: nat)
    requires |d| > 0 && AllDigits(d, 2) && ValueOf(d, 2) == n
    requires InRange(k, n) && n < Pow2(63)
    ensures ParseInteger(k, "0b" + d) == Some(n)
  {
    PrefixedBinary(k, d);
    Pow2Widths();
    assert FromBits(Int64, n) == Some(n);
  }

  /** The binary branch goes through a signed 64-bit intermediate: a
      pattern of 64 digits with the top bit set is a negative `long`. */
  lemma BinaryNegativeInt64(v: nat)
    requires Pow2(63) <= v < Pow2(64)
    ensures MinValue(Int64) <= v - Pow2(64) < 0
    ensures ParseInteger(Int64, "0b" + Show(v, 2)) == Some(v - Pow2(64))
  {
    ValueOfShow(v, 2);
    BinaryDigitsNegative(Show(v, 2), v);
  }

  lemma BinaryDigitsNegative(d: string, v: nat)
    requires |d| > 0 && AllDigits(d, 2) && ValueOf(d, 2) == v
    requires Pow2(63) <= v < Pow2(64)
    ensures MinValue(Int64) <= v - Pow2(64) < 0
    ensures ParseInteger(Int64, "0b" + d) == Some(v - Pow2(64))
  {
    PrefixedBinary(Int64, d);
    Pow2Widths();
  }

  /** ... so a `ulong` of 2^63 or more cannot be written in binary, although
      it can be written in hexadecimal. */
  lemma BinaryTopBitFailsForUInt64(n: nat)
    requires Pow2(63) <= n <= MaxValue(UInt64)
    ensures InRange(UInt64, n)
    ensures ParseInteger(UInt64, "0b" + Show(n, 2)).None?
    ensures ParseInteger(UInt64, "0x" + Show(n, 16)) == Some(n)
  {
    ValueOfShow(n, 2);
    BinaryDigitsTooWide(Show(n, 2), n);
    HexRoundTrip(UInt64, n);
    Pow2Widths();
  }

  lemma BinaryDigitsTooWide(d: string, n: nat)
    requires |d| > 0 && AllDigits(d, 2) && ValueOf(d, 2) == n
    requires Pow2(63) <= n <= MaxValue(UInt64)
    ensures ParseInteger(UInt64, "0b" + d).None?
  {
    PrefixedBinary(UInt64, d);
    Pow2Widths();
  }

  /** Leading zeros after the prefix do not change the value: `0b011` is
      `0b11`, `0x0A` is `0xA`. */
  lemma LeadingZerosIgnored(k: IntegerKind, d: string)
    requires |d| > 0
    ensures AllDigits(d, 2) ==> ParseInteger(k, "0b0" + d) == ParseInteger(k, "0b" + d)
    ensures AllDigits(d, 16) ==> ParseInteger(k, "0x0" + d) == ParseInteger(k, "0x" + d)
  {
    assert "0b0" + d == "0b" + ("0" + d) && "0x0" + d == "0x" + ("0" + d);
    if AllDigits(d, 2) {
      LeadingZero(d, 2);
      PrefixedBinary(k, d);
      PrefixedBinary(k, "0" + d);
    }
    if AllDigits(d, 16) {
      LeadingZero(d, 16);
      PrefixedHex(k, d);
      PrefixedHex(k, "0" + d);
    }
  }

  /** A character after `0x` that is neither a hexadecimal digit nor white
      space makes the token fail, unless it is a NUL with nothing but NULs
      after it: `0x0Q`, `0x\0F`. */
  lemma HexNonDigitFails(k: IntegerKind, d: string, i: int, j: int)
    requires 0 <= i <= j < |d| && d[j] != '\0'
    requires !IsDigit(d[i], 16) && !IsNumberWhite(d[i])
    ensures ParseInteger(k, "0x" + d).None?
  {
    var s := "0x" + d;
    assert s[2..] == d;
    assert Classify(s) == Hex(d);
    NumberTrimKeeps(d, i, j);
  }

  /** ... while hexadecimal digits followed by white space and then NULs
      read as the digits alone: `0x1F\0` is 31. */
  lemma HexTrailingNulls(k: IntegerKind, d: string, w: string, z: string)
    requires |d| > 0 && AllDigits(d, 16)
    requires forall i :: 0 <= i < |w| ==> IsNumberWhite(w[i])
    requires forall i :: 0 <= i < |z| ==> z[i] == '\0'
    ensures ParseInteger(k, "0x" + (d + w + z)) == FromBits(k, ValueOf(d, 16))
  {
    PaddedDigits(d, w, z);
    HexDigitsOf(k, d + w + z, d);
    HexPrefixRead(k, d + w + z);
  }

  lemma PaddedDigits(d: string, w: string, z: string)
    requires |d| > 0 && AllDigits(d, 16)
    requires forall i :: 0 <= i < |w| ==> IsNumberWhite(w[i])
    requires forall i :: 0 <= i < |z| ==> z[i] == '\0'
    ensures NumberTrim(d + w + z) == d
  {
    assert IsDigit(d[0], 16) && IsDigit(d[|d| - 1], 16);
    NumberTrimPadded(d, w, z);
  }

  lemma HexDigitsOf(k: IntegerKind, u: string, d: string)
    requires NumberTrim(u) == d && |d| > 0 && AllDigits(d, 16)
    ensures HexNumber(k, u) == FromBits(k, ValueOf(d, 16))
  {
  }

  lemma HexPrefixRead(k: IntegerKind, u: string)
    ensures ParseInteger(k, "0x" + u) == HexNumber(k, u)
  {
    var s := "0x" + u;
    assert s[2..] == u;
    assert Classify(s) == Hex(u);
  }

  /** A character after `0b` (and its optional `+`) that is not a binary
      digit makes the token fail: `0b012`. */
  lemma BinaryNonDigitFails(k: IntegerKind, d: string, i: int)
    requires 0 < i < |d| && !IsDigit(d[i], 2)
    ensures ParseInteger(k, "0b" + d).None?
  {
    var s := "0b" + d;
    assert s[2..] == d;
    assert Classify(s) == Binary(d);
    if d[0] == '+' {
      assert d[1..][i - 1] == d[i];
    }
  }

  /** A sign in front of the prefix makes the token plain, and the plain
      reading fails on the `x` or `b`: `-0x0A`. */
  lemma SignedPrefixFails(k: IntegerKind, c: char, letter: char, d: string)
    requires c == '-' || c == '+'
    requires letter == 'x' || letter == 'b'
    ensures ParseInteger(k, [c, '0', letter] + d).None?
  {
    var s := [c, '0', letter] + d;
    assert Classify(s).Plain?;
    assert !IsNumberWhite(s[0]) && !IsNumberWhite(s[2]) && s[2] != '\0';
    var u := TrimEnd(s, Null);
    assert |u| > 2 && u[..3] == s[..3];
    var t := TrimEnd(u, NumberWhite);
    assert Trim(u, NumberWhite) == t;
    assert |t| > 2 && t[..3] == s[..3];
    assert t[1..][1] == letter && !IsDigit(letter, 10);
  }

  /** Out-of-range values written in decimal fail. */
  lemma DecimalOutOfRange(k: IntegerKind, n: int)
    requires !InRange(k, n)
    ensures ParseInteger(k, ShowInt(n)).None?
  {
    ShowIntIsPlain(n);
  }

  /** `true` and `false` in any letter case, surrounded by any white space
      and NUL characters, parse to their value. */
  lemma BoolPadded(p: string, w: string, q: string, b: bool)
    requires forall i :: 0 <= i < |p| ==> Drops(WhiteOrNull, p[i])
    requires forall i :: 0 <= i < |q| ==> Drops(WhiteOrNull, q[i])
    requires EqualsIgnoreCase(w, if b then "true" else "false")
    ensures ParseBool(p + w + q) == Some(b)
  {
    assert FoldCase(w[0]) == (if b then 't' else 'f');
    assert FoldCase(w[|w| - 1]) == 'e';
    TrimPadded(p, w, q, WhiteOrNull);
  }

  /** Blank text is not a boolean: `""` and `" "` fail. */
  lemma BoolRejectsBlank(s: string)
    requires IsBlank(s)
    ensures ParseBool(s).None?
  {
    TrimPadded(s, [], [], WhiteOrNull);
    assert s + [] + [] == s;
  }

  /** Numbers are not booleans: `0` and `1` fail. */
  lemma BoolRejectsNumber(n: int)
    ensures ParseBool(ShowInt(n)).None?
  {
    ShowIntEnds(n);
    NotAWord(ShowInt(n));
  }

  /** Text that starts with a sign or a digit is neither `true` nor `false`. */
  lemma NotAWord(t: string)
    requires |t| > 0 && (t[0] == '-' || IsDecimalDigit(t[0])) && IsDecimalDigit(t[|t| - 1])
    ensures ParseBool(t).None?
  {
    assert !Drops(WhiteOrNull, t[0]);
    assert !Drops(WhiteOrNull, t[|t| - 1]);
    assert TrimStart(t, WhiteOrNull) == t;
    assert TrimEnd(t, WhiteOrNull) == t;
    assert !EqualsIgnoreCase(t, "true") by {
      assert FoldCase(t[0]) != "true"[0];
    }
    assert !EqualsIgnoreCase(t, "false") by {
      assert FoldCase(t[0]) != "false"[0];
    }
  }

  /** Every member is found by its name in any letter case, when names
      differ ignoring case and the text has no surrounding white space. */
  lemma EnumNameResolves(members: seq<Member>, i: int, s: string)
    requires 0 <= i < |members| && DistinctNames(members)
    requires EqualsIgnoreCase(s, members[i].name)
    requires !IsWhiteSpace(s[0]) && !IsWhiteSpace(s[|s| - 1]) && !StartsNumber(s[0])
    ensures ParseEnum(members, s) == Some(members[i].value)
  {
    NothingToTrim(s);
    assert TrimStart(s, White) == s && Trim(s, White) == s;
    FoldKeepsComma(s, members[i].name);
    FirstNameMatch(members, i, s);
  }

  /** With names distinct ignoring case, a text equal to member `i`'s name
      matches no member before it. */
  lemma FirstNameMatch(members: seq<Member>, i: int, s: string)
    requires 0 <= i < |members| && DistinctNames(members)
    requires EqualsIgnoreCase(s, members[i].name)
    ensures IndexOfName(members, s) == i
  {
    EqualsIgnoreCaseEquivalence(s, members[i].name, s);
    forall j | 0 <= j < i
      ensures !EqualsIgnoreCase(members[j].name, s)
    {
      EqualsIgnoreCaseEquivalence(members[j].name, s, members[i].name);
    }
  }

  /** A list of names ends at its first comma: the first name's value is
      combined with the value of the rest. */
  lemma {:induction false} NameListStep(members: seq<Member>, a: string, b: string)
    requires ',' !in a && |b| > 0
    ensures EnumByNames(members, a + [','] + b) ==
      match (EnumByName(members, Trim(a, White)), EnumByNames(members, b))
      case (Some(v), Some(w)) => Some(OrInt32(v, w))
      case _ => None
  {
    var t := a + [','] + b;
    assert t[..|a|] == a && t[|a| + 1..] == b;
    assert Tokens.IndexOf(t, ',') == |a| by {
      assert t[|a|] == ',' && t[..|a|] == a;
    }
  }

  /** A list ending in a comma names nothing, wherever the names are. */
  lemma {:induction false} TrailingCommaFails(members: seq<Member>, t: string)
    ensures EnumByNames(members, t + [',']).None?
    decreases |t|
  {
    var u := t + [','];
    var e := Tokens.IndexOf(u, ',');
    if e < |u| - 1 {
      assert u[e + 1..] == t[e + 1..] + [','];
      TrailingCommaFails(members, t[e + 1..]);
    }
  }

  /** Every `int` written in decimal is accepted as an enum value, whether
      or not a member has that value. */
  lemma EnumNumberAccepted(members: seq<Member>, n: int)
    ensures InRange(Int32, n) ==> ParseEnum(members, ShowInt(n)) == Some(n)
    ensures !InRange(Int32, n) ==> ParseEnum(members, ShowInt(n)).None?
  {
    ShowIntNumeral(n);
    NumeralRead(members, ShowInt(n), n);
  }

  lemma ShowIntNumeral(n: int)
    ensures var s := ShowInt(n);
      && |s| > 0 && StartsNumber(s[0]) && TrimStart(s, White) == s
      && NumberTrimEnd(s) == s && SignedDecimal(s) == Some(n)
  {
    ShowIntIsPlain(n);
    ShowIntEnds(n);
  }

  lemma NumeralRead(members: seq<Member>, s: string, n: int)
    requires |s| > 0 && StartsNumber(s[0]) && TrimStart(s, White) == s
    requires NumberTrimEnd(s) == s && SignedDecimal(s) == Some(n)
    ensures ParseEnum(members, s) == if InRange(Int32, n) then Some(n) else None
  {
  }

  /** The enum of the source's tests. */
  function FoodStuff(): seq<Member> {
    [Member("Donut", 0), Member("Milk", 2), Member("Fish", 3),
     Member("Bread", 4), Member("BonBons", 5), Member("Dumplings", 6)]
  }

  lemma FoodStuffNamesDistinct()
    ensures DistinctNames(FoodStuff())
  {
    var f := FoodStuff();
    forall i, j | 0 <= i < j < |f|
      ensures !EqualsIgnoreCase(f[i].name, f[j].name)
    {
      if |f[i].name| == |f[j].name| {
        assert FoldCase(f[i].name[0]) != FoldCase(f[j].name[0]);
      }
    }
  }

  /** `bread` is Bread. */
  lemma FoodStuffByName()
    ensures ParseEnum(FoodStuff(), "bread") == Some(4)
  {
    var f := FoodStuff();
    FoodStuffNamesDistinct();
    assert f[3].name == "Bread" && f[3].value == 4;
    assert EqualsIgnoreCase("bread", "Bread");
    assert !IsWhiteSpace('b') && !IsWhiteSpace('d') && !StartsNumber('b');
    EnumNameResolves(f, 3, "bread");
  }

  /** Two names joined by a comma, the first written without surrounding
      white space, parse to the OR of the two members' values. */
  lemma NamePairResolves(members: seq<Member>, i: int, j: int, a: string, b: string)
    requires 0 <= i < |members| && 0 <= j < |members| && DistinctNames(members)
    requires EqualsIgnoreCase(a, members[i].name) && EqualsIgnoreCase(Trim(b, White), members[j].name)
    requires !IsWhiteSpace(a[0]) && !IsWhiteSpace(a[|a| - 1]) && !StartsNumber(a[0]) && ',' !in b
    ensures ParseEnum(members, a + [','] + b) == Some(OrInt32(members[i].value, members[j].value))
  {
    var t := a + [','] + b;
    assert t[0] == a[0] && !Drops(White, t[0]);
    assert TrimStart(t, White) == t;
    NothingToTrim(a);
    FoldKeepsComma(a, members[i].name);
    FirstNameMatch(members, i, a);
    FirstNameMatch(members, j, Trim(b, White));
    NameListStep(members, a, b);
  }

  /** `Milk, Fish` is Milk | Fish, which is Fish (2 | 3 = 3). */
  lemma FoodStuffNameList()
    ensures ParseEnum(FoodStuff(), "Milk, Fish") == Some(3)
  {
    var f := FoodStuff();
    FoodStuffNamesDistinct();
    assert "Milk" + [','] + " Fish" == "Milk, Fish";
    assert Trim(" Fish", White) == "Fish";
    NamePairResolves(f, 1, 2, "Milk", " Fish");
    OrInt32Small();
  }

  lemma OrInt32Small()
    ensures OrInt32(2, 3) == 3
  {
    Pow2Widths();
    OrBitsNarrow(2, 3, 2, 32);
    assert OrBits(2, 3, 2) == 3;
  }

  /** `Milk,` names nothing. */
  lemma FoodStuffTrailingComma()
    ensures ParseEnum(FoodStuff(), "Milk,").None?
  {
    assert TrimStart("Milk,", White) == "Milk,";
    assert "Milk," == "Milk" + [','];
    TrailingCommaFails(FoodStuff(), "Milk");
  }

  /** A number above every member's value, such as `999`, is accepted. */
  lemma FoodStuffUndefinedNumber(n: int)
    requires 6 < n <= MaxValue(Int32)
    ensures ParseEnum(FoodStuff(), ShowInt(n)) == Some(n)
    ensures !IsDefined(FoodStuff(), n)
  {
    EnumNumberAccepted(FoodStuff(), n);
    FoodStuffUndefined(n);
  }

  lemma FoodStuffUndefined(n: int)
    requires 6 < n
    ensures !IsDefined(FoodStuff(), n)
  {
    var f := FoodStuff();
    assert forall i :: 0 <= i < |f| ==> f[i].value <= 6;
  }

  /** A nullable target is parsed exactly as its underlying kind. */
  lemma NullableIsUnwrapped<F>(fs: FloatingSupport<F>, k: Kind, s: string)
    ensures Parse(fs, Target(true, k), s) == Parse(fs, Target(false, k), s)
  {
  }
}

=== FILE: digits.dfy ===
/** Positional numerals in base 2, 10 and 16: reading a digit string and
    writing a natural number, with the round trip between the two. */
module Digits {

  function Pow(base: nat, n: nat): (p: nat)
    ensures base > 0 ==> p > 0
  {
    if n == 0 then 1 else base * Pow(base, n - 1)
  }

  function Pow2(n: nat): nat { Pow(2, n) }

  lemma {:induction false} PowAdd(base: nat, m: nat, n: nat)
    ensures Pow(base, m + n) == Pow(base, m) * Pow(base, n)
    decreases m
  {
    if m > 0 {
      PowAdd(base, m - 1, n);
      calc {
        Pow(base, m + n);
        base * Pow(base, m - 1 + n);
        base * (Pow(base, m - 1) * Pow(base, n));
        (base * Pow(base, m - 1)) * Pow(base, n);
      }
    }
  }

  /** The powers of two behind the integer widths of the source. */
  lemma Pow2Widths()
    ensures Pow2(7) == 128 && Pow2(8) == 256
    ensures Pow2(15) == 32768 && Pow2(16) == 65536
    ensures Pow2(31) == 2147483648 && Pow2(32) == 4294967296
    ensures Pow2(63) == 9223372036854775808 && Pow2(64) == 18446744073709551616
  {
    assert Pow(2, 4) == 16;
    PowAdd(2, 4, 3);
    PowAdd(2, 4, 4);
    PowAdd(2, 8, 7);
    PowAdd(2, 8, 8);
    PowAdd(2, 16, 15);
    PowAdd(2, 16, 16);
    PowAdd(2, 32, 31);
    PowAdd(2, 32, 32);
  }

  predicate IsDecimalDigit(c: char) { '0' <= c <= '9' }

  /** A digit of `base`; hexadecimal digits may be written in either case. */
  predicate IsDigit(c: char, base: nat) {
    || (IsDecimalDigit(c) && (c as int - '0' as int) < base)
    || (base == 16 && ('a' <= c <= 'f' || 'A' <= c <= 'F'))
  }

  predicate AllDigits(s: string, base: nat) {
    forall i :: 0 <= i < |s| ==> IsDigit(s[i], base)
  }

  function DigitValue(c: char, base: nat): (d: nat)
    requires IsDigit(c, base)
    ensures d < base
  {
    if IsDecimalDigit(c) then c as int - '0' as int
    else if 'a' <= c <= 'f' then c as int - 'a' as int + 10
    else c as int - 'A' as int + 10
  }

  /** The value of a digit string, most significant digit first; leading
      zeros contribute nothing. */
  function ValueOf(s: string, base: nat): nat
    requires AllDigits(s, base)
  {
    if |s| == 0 then 0
    else ValueOf(s[..|s| - 1], base) * base + DigitValue(s[|s| - 1], base)
  }

  predicate ValidBase(base: nat) { base == 2 || base == 10 || base == 16 }

  /** The upper-case digit character for `d`. */
  function DigitChar(d: nat, base: nat): (c: char)
    requires ValidBase(base) && d < base
    ensures IsDigit(c, base) && DigitValue(c, base) == d
  {
    if d < 10 then ('0' as int + d) as char else ('A' as int + d - 10) as char
  }

  /** The shortest numeral of `n` in `base` (`"0"` for zero). */
  function Show(n: nat, base: nat): (s: string)
    requires ValidBase(base)
    ensures |s| >= 1 && AllDigits(s, base)
    ensures n > 0 ==> s[0] != '0'
    decreases n
  {
    if n < base then [DigitChar(n, base)]
    else Show(n / base, base) + [DigitChar(n % base, base)]
  }

  /** `int.ToString()` in the invariant culture. */
  function ShowInt(n: int): (s: string)
    ensures |s| >= 1
  {
    if n < 0 then "-" + Show(-n, 10) else Show(n, 10)
  }

  /** Number of decimal digits of `n`, the `1 + floor(log10 n)` of the source. */
  function DigitCount(n: nat): nat {
    |Show(n, 10)|
  }

  lemma {:induction false} ValueOfShow(n: nat, base: nat)
    requires ValidBase(base)
    ensures ValueOf(Show(n, base), base) == n
    decreases n
  {
    if n >= base {
      var s := Show(n, base);
      ValueOfShow(n / base, base);
      assert s[..|s| - 1] == Show(n / base, base);
    }
  }

  /** Leading zeros do not change the value: `0b011` reads as 3. */
  lemma {:induction false} LeadingZero(s: string, base: nat)
    requires AllDigits(s, base) && 0 < base
    ensures AllDigits("0" + s, base)
    ensures ValueOf("0" + s, base) == ValueOf(s, base)
    decreases |s|
  {
    if |s| > 0 {
      var t := "0" + s;
      assert t[..|t| - 1] == "0" + s[..|s| - 1];
      LeadingZero(s[..|s| - 1], base);
    }
  }

  /** A numeral of `k` digits is below `base^k`. */
  lemma {:induction false} ValueBound(s: string, base: nat)
    requires AllDigits(s, base) && 0 < base
    ensures ValueOf(s, base) < Pow(base, |s|)
    decreases |s|
  {
    if |s| > 0 {
      ValueBound(s[..|s| - 1], base);
      var v := ValueOf(s[..|s| - 1], base);
      var d := DigitValue(s[|s| - 1], base);
      var p := Pow(base, |s| - 1);
      assert ValueOf(s, base) == v * base + d;
      assert (v + 1) * base == v * base + base;
      MulMonotonic(v + 1, p, base);
      assert Pow(base, |s|) == p * base;
    }
  }

  lemma {:induction false} PowMonotonic(base: nat, m: nat, n: nat)
    requires 0 < base && m <= n
    ensures Pow(base, m) <= Pow(base, n)
    decreases n
  {
    if m < n {
      PowMonotonic(base, m, n - 1);
      MulMonotonic(1, base, Pow(base, n - 1));
    }
  }

  lemma MulMonotonic(a: nat, b: nat, c: nat)
    requires a <= b
    ensures a * c <= b * c
  {
  }

  /** `DigitCount(n)` is the width `1 + floor(log10 n)`:
      `10^(DigitCount(n)-1) <= n < 10^DigitCount(n)` for positive `n`. */
  lemma {:induction false} DigitCountIsLogWidth(n: nat)
    requires n > 0
    ensures Pow(10, DigitCount(n) - 1) <= n < Pow(10, DigitCount(n))
    decreases n
  {
    ValueOfShow(n, 10);
    ValueBound(Show(n, 10), 10);
    if n >= 10 {
      DigitCountIsLogWidth(n / 10);
      assert DigitCount(n) == DigitCount(n / 10) + 1;
    }
  }
}

=== FILE: enums.dfy ===
/** Enumerated types as the parsers and the help printer see them: a
    listing of members, each with its name and its underlying `int` value.
    The listing order is an input of the model; `Enum.GetValues` orders by
    the unsigned 32-bit pattern of the value (so negative values come last)
    and lists a value once per name that carries it. */
module Enums {
  import opened Text

  /** A member name is a C# identifier: never empty, never a comma. */
  type Name = s: string | |s| > 0 && ',' !in s witness "_"

  datatype Member = Member(name: Name, value: int)

  /** Some member has value `v`: `Enum.IsDefined`. */
  predicate IsDefined(members: seq<Member>, v: int) {
    exists i :: 0 <= i < |members| && members[i].value == v
  }

  /** Index of the first member whose name equals `name` ignoring case,
      or -1: the case-insensitive name lookup of `Enum.Parse`. */
  function IndexOfName(members: seq<Member>, name: string): (k: int)
    ensures -1 <= k < |members|
    ensures k == -1 <==> forall i :: 0 <= i < |members| ==> !EqualsIgnoreCase(members[i].name, name)
    ensures 0 <= k ==> EqualsIgnoreCase(members[k].name, name)
    ensures 0 <= k ==> forall i :: 0 <= i < k ==> !EqualsIgnoreCase(members[i].name, name)
  {
    if |members| == 0 then -1
    else if EqualsIgnoreCase(members[0].name, name) then 0
    else
      var k := IndexOfName(members[1..], name);
      if k == -1 then -1 else k + 1
  }

  /** Member names are told apart ignoring case, as a case-insensitive
      lookup needs. */
  predicate DistinctNames(members: seq<Member>) {
    forall i, j :: 0 <= i < j < |members| ==> !EqualsIgnoreCase(members[i].name, members[j].name)
  }
}

=== FILE: extra_parsers.dfy ===
/** The additional parsers: an enum by its first letter, a delimited
    sequence of values, and a colour written as a name or in hexadecimal. */
module ExtraParsers {
  import opened Wrappers
  import opened Text
  import opened Digits
  import opened Enums
  import opened DefaultParser

  // ---------------------------------------------------------------- enum by first letter

  /** Member `m` answers for the letter `c`: its name starts with `c`,
      ignoring case, and it is not the zero member being skipped. */
  predicate AnswersLetter(m: Member, c: char, ignoreZero: bool) {
    !(ignoreZero && m.value == 0) && FoldCase(m.name[0]) == FoldCase(c)
  }

  /** Index of the first member answering for `c`, or -1: the `foreach`
      over the members with its early `return`. Each member is named by its
      own name; `ToString()` of an aliased value may print another alias. */
  function IndexOfLetter(members: seq<Member>, c: char, ignoreZero: bool): (k: int)
    ensures -1 <= k < |members|
    ensures k == -1 <==> forall i :: 0 <= i < |members| ==> !AnswersLetter(members[i], c, ignoreZero)
    ensures 0 <= k ==> AnswersLetter(members[k], c, ignoreZero)
    ensures 0 <= k ==> forall i :: 0 <= i < k ==> !AnswersLetter(members[i], c, ignoreZero)
  {
    if |members| == 0 then -1
    else if AnswersLetter(members[0], c, ignoreZero) then 0
    else
      var k := IndexOfLetter(members[1..], c, ignoreZero);
      if k == -1 then -1 else k + 1
  }

  /** `ParseEnumFirstLetter<T>(arg, ignoreZero)`: the exact name or number
      first; when that fails, the first member in listing order whose name
      starts with the argument's first letter; when nothing matches, the
      zero value, which `ignoreZero` rejects like an exact zero. An empty
      argument has no first letter and fails. */
  function ParseEnumFirstLetter(members: seq<Member>, arg: string, ignoreZero: bool): (r: Option<int>)
    ensures ignoreZero && r.Some? ==> r.value != 0
    ensures r.Some? ==>
      || r == ParseEnum(members, arg)
      || r.value == 0
      || (|arg| > 0 && exists i :: 0 <= i < |members| && members[i].value == r.value && AnswersLetter(members[i], arg[0], ignoreZero))
  {
    var exact := ParseEnum(members, arg);
    if exact.None? then
      if |arg| == 0 then None
      else
        var k := IndexOfLetter(members, arg[0], ignoreZero);
        if k != -1 then Some(members[k].value)
        else if ignoreZero then None
        else Some(0)
    else if ignoreZero && exact.value == 0 then None
    else exact
  }

  /** An exact parse wins, unless it is the zero being ignored. */
  lemma FirstLetterExact(members: seq<Member>, arg: string, ignoreZero: bool)
    requires ParseEnum(members, arg).Some?
    ensures ParseEnumFirstLetter(members, arg, ignoreZero) ==
      if ignoreZero && ParseEnum(members, arg).value == 0 then None else ParseEnum(members, arg)
  {
  }

  /** The empty argument names no member and has no first letter. */
  lemma FirstLetterEmpty(members: seq<Member>, ignoreZero: bool)
    ensures ParseEnum(members, "").None?
    ensures ParseEnumFirstLetter(members, "", ignoreZero).None?
  {
    assert TrimStart("", White) == "";
    assert Trim("", White) == "";
    assert forall i :: 0 <= i < |members| ==> !EqualsIgnoreCase(members[i].name, "");
  }

  /** When the exact parse fails, the first member in order answering for
      the first letter is the result. */
  lemma FirstLetterPicksFirst(members: seq<Member>, arg: string, ignoreZero: bool, k: int)
    requires ParseEnum(members, arg).None? && |arg| > 0
    requires 0 <= k < |members| && AnswersLetter(members[k], arg[0], ignoreZero)
    requires forall i :: 0 <= i < k ==> !AnswersLetter(members[i], arg[0], ignoreZero)
    ensures ParseEnumFirstLetter(members, arg, ignoreZero) == Some(members[k].value)
  {
  }

  /** When nothing matches, the zero value comes back, or a failure when
      zero is ignored. */
  lemma FirstLetterNoMatch(members: seq<Member>, arg: string, ignoreZero: bool)
    requires ParseEnum(members, arg).None? && |arg| > 0
    requires forall i :: 0 <= i < |members| ==> !AnswersLetter(members[i], arg[0], ignoreZero)
    ensures ParseEnumFirstLetter(members, arg, ignoreZero) == if ignoreZero then None else Some(0)
  {
  }

  /** A single letter that is no member's full name, no white space and no
      start of a number is not an exact match. */
  lemma LetterIsNotExact(members: seq<Member>, c: char)
    requires !IsWhiteSpace(c) && !StartsNumber(c)
    requires forall i :: 0 <= i < |members| ==> |members[i].name| > 1
    ensures ParseEnum(members, [c]).None?
  {
    NothingToTrim([c]);
  }

  /** Every `int` in decimal is taken as is, except zero when ignored. */
  lemma FirstLetterNumber(members: seq<Member>, n: int, ignoreZero: bool)
    requires InRange(Int32, n)
    ensures ParseEnumFirstLetter(members, ShowInt(n), ignoreZero) == if ignoreZero && n == 0 then None else Some(n)
  {
    EnumNumberAccepted(members, n);
  }

  /** A list of names is an exact parse, so it wins over the first letter. */
  lemma FoodStuffListFirstLetter(ignoreZero: bool)
    ensures ParseEnumFirstLetter(FoodStuff(), "Milk, Fish", ignoreZero) == Some(3)
  {
    FoodStuffNameList();
    FirstLetterExact(FoodStuff(), "Milk, Fish", ignoreZero);
  }

  /** `b` or `B` is Bread: Bread is the first member starting with b. */
  lemma FoodStuffLetterB(c: char, ignoreZero: bool)
    requires FoldCase(c) == 'b'
    ensures ParseEnumFirstLetter(FoodStuff(), [c], ignoreZero) == Some(4)
  {
    BreadAnswersB(c, ignoreZero);
    FoodStuffNotExact(c);
    FirstLetterPicksFirst(FoodStuff(), [c], ignoreZero, 3);
  }

  lemma BreadAnswersB(c: char, ignoreZero: bool)
    requires FoldCase(c) == 'b'
    ensures !IsWhiteSpace(c) && !StartsNumber(c)
    ensures AnswersLetter(FoodStuff()[3], c, ignoreZero) && FoodStuff()[3].value == 4
    ensures forall i :: 0 <= i < 3 ==> !AnswersLetter(FoodStuff()[i], c, ignoreZero)
  {
    var f := FoodStuff();
    assert c == 'b' || c == 'B';
    assert !AnswersLetter(f[0], c, ignoreZero) && !AnswersLetter(f[1], c, ignoreZero) && !AnswersLetter(f[2], c, ignoreZero);
  }

  /** No FoodStuff name is a single letter. */
  lemma FoodStuffNotExact(c: char)
    requires !IsWhiteSpace(c) && !StartsNumber(c)
    ensures ParseEnum(FoodStuff(), [c]).None?
  {
    var f := FoodStuff();
    assert forall i :: 0 <= i < |f| ==> |f[i].name| > 1;
    LetterIsNotExact(f, c);
  }

  /** `d` is Donut, the first member starting with d. */
  lemma FoodStuffLetterD(c: char)
    requires FoldCase(c) == 'd'
    ensures ParseEnumFirstLetter(FoodStuff(), [c], false) == Some(0)
  {
    assert c == 'd' || c == 'D';
    assert AnswersLetter(FoodStuff()[0], c, false);
    FoodStuffNotExact(c);
    FirstLetterPicksFirst(FoodStuff(), [c], false, 0);
  }

  /** `d` is Dumplings once Donut (zero) is skipped. */
  lemma FoodStuffLetterDIgnoringZero(c: char)
    requires FoldCase(c) == 'd'
    ensures ParseEnumFirstLetter(FoodStuff(), [c], true) == Some(6)
  {
    DumplingsAnswersD(c);
    FoodStuffNotExact(c);
    FirstLetterPicksFirst(FoodStuff(), [c], true, 5);
  }

  lemma DumplingsAnswersD(c: char)
    requires FoldCase(c) == 'd'
    ensures !IsWhiteSpace(c) && !StartsNumber(c)
    ensures AnswersLetter(FoodStuff()[5], c, true) && FoodStuff()[5].value == 6
    ensures forall i :: 0 <= i < 5 ==> !AnswersLetter(FoodStuff()[i], c, true)
  {
    var f := FoodStuff();
    assert c == 'd' || c == 'D';
    assert !AnswersLetter(f[0], c, true) && !AnswersLetter(f[1], c, true) && !AnswersLetter(f[2], c, true);
    assert !AnswersLetter(f[3], c, true) && !AnswersLetter(f[4], c, true);
  }

  /** A letter no member starts with, such as `q`, yields the zero value
      (Donut), or a failure when zero is ignored. */
  lemma FoodStuffUnknownLetter(c: char, ignoreZero: bool)
    requires 'a' <= FoldCase(c) <= 'z'
    requires FoldCase(c) != 'd' && FoldCase(c) != 'm' && FoldCase(c) != 'f' && FoldCase(c) != 'b'
    ensures ParseEnumFirstLetter(FoodStuff(), [c], ignoreZero) == if ignoreZero then None else Some(0)
  {
    NoMemberAnswers(c, ignoreZero);
    FoodStuffNotExact(c);
    FirstLetterNoMatch(FoodStuff(), [c], ignoreZero);
  }

  lemma NoMemberAnswers(c: char, ignoreZero: bool)
    requires 'a' <= FoldCase(c) <= 'z'
    requires FoldCase(c) != 'd' && FoldCase(c) != 'm' && FoldCase(c) != 'f' && FoldCase(c) != 'b'
    ensures !IsWhiteSpace(c) && !StartsNumber(c)
    ensures forall i :: 0 <= i < |FoodStuff()| ==> !AnswersLetter(FoodStuff()[i], c, ignoreZero)
  {
    var f := FoodStuff();
    assert !AnswersLetter(f[0], c, ignoreZero) && !AnswersLetter(f[1], c, ignoreZero) && !AnswersLetter(f[2], c, ignoreZero);
    assert !AnswersLetter(f[3], c, ignoreZero) && !AnswersLetter(f[4], c, ignoreZero) && !AnswersLetter(f[5], c, ignoreZero);
  }

  /** Donut by name is rejected when zero is ignored. */
  lemma FoodStuffDonutIgnored(s: string)
    requires EqualsIgnoreCase(s, FoodStuff()[0].name)
    ensures ParseEnumFirstLetter(FoodStuff(), s, true).None?
  {
    var f := FoodStuff();
    FoodStuffNamesDistinct();
    assert FoldCase(s[0]) == 'd' && FoldCase(s[4]) == 't';
    EnumNameResolves(f, 0, s);
  }

  // ---------------------------------------------------------------- splitting

  /** A splitting character: one of `delims`, or white space when there are
      none, as `string.Split` treats an empty separator array. */
  predicate IsDelimiter(delims: set<char>, c: char) {
    if delims == {} then IsWhiteSpace(c) else c in delims
  }

  /** A non-empty piece with no delimiter in it. */
  predicate IsFragment(p: string, delims: set<char>) {
    |p| > 0 && forall j :: 0 <= j < |p| ==> !IsDelimiter(delims, p[j])
  }

  /** Length of the leading run of non-delimiters. */
  function RunLength(s: string, delims: set<char>): (n: nat)
    ensures n <= |s|
    ensures forall i :: 0 <= i < n ==> !IsDelimiter(delims, s[i])
    ensures n < |s| ==> IsDelimiter(delims, s[n])
  {
    if |s| == 0 || IsDelimiter(delims, s[0]) then 0 else 1 + RunLength(s[1..], delims)
  }

  /** `string.Split(delims, StringSplitOptions.RemoveEmptyEntries)`. */
  function Split(s: string, delims: set<char>): (parts: seq<string>)
    ensures forall i :: 0 <= i < |parts| ==> IsFragment(parts[i], delims)
    decreases |s|
  {
    if |s| == 0 then []
    else if IsDelimiter(delims, s[0]) then Split(s[1..], delims)
    else
      var n := RunLength(s, delims);
      [s[..n]] + Split(s[n..], delims)
  }

  /** The text with every delimiter removed. */
  function WithoutDelimiters(s: string, delims: set<char>): (t: string)
    ensures |t| <= |s|
  {
    if |s| == 0 then []
    else (if IsDelimiter(delims, s[0]) then [] else [s[0]]) + WithoutDelimiters(s[1..], delims)
  }

  /** The pieces joined by `c`: `string.Join(c, parts)`. */
  function Join(parts: seq<string>, c: char): (s: string)
    ensures |parts| > 0 ==> |parts[0]| <= |s| && s[..|parts[0]|] == parts[0]
  {
    if |parts| == 0 then []
    else if |parts| == 1 then parts[0]
    else parts[0] + [c] + Join(parts[1..], c)
  }

  lemma {:induction false} WithoutRun(s: string, delims: set<char>, n: nat)
    requires n <= |s| && forall i :: 0 <= i < n ==> !IsDelimiter(delims, s[i])
    ensures WithoutDelimiters(s, delims) == s[..n] + WithoutDelimiters(s[n..], delims)
    decreases n
  {
    if n > 0 {
      WithoutRun(s[1..], delims, n - 1);
      assert s[1..][..n - 1] == s[1..n];
      assert s[1..][n - 1..] == s[n..];
      assert s[..n] == [s[0]] + s[1..n];
    }
  }

  /** The pieces hold exactly the non-delimiter characters, in order. */
  lemma {:induction false} SplitKeepsText(s: string, delims: set<char>)
    ensures Concat(Split(s, delims)) == WithoutDelimiters(s, delims)
    decreases |s|
  {
    if |s| > 0 {
      if IsDelimiter(delims, s[0]) {
        SplitKeepsText(s[1..], delims);
      } else {
        var n := RunLength(s, delims);
        SplitKeepsText(s[n..], delims);
        WithoutRun(s, delims, n);
        var parts := Split(s, delims);
        assert parts == [s[..n]] + Split(s[n..], delims);
        assert parts[1..] == Split(s[n..], delims);
      }
    }
  }

  /** A fragment followed by a delimiter or by nothing is one whole run. */
  lemma {:induction false} RunOfFragment(p: string, x: string, delims: set<char>)
    requires forall j :: 0 <= j < |p| ==> !IsDelimiter(delims, p[j])
    requires |x| > 0 ==> IsDelimiter(delims, x[0])
    ensures RunLength(p + x, delims) == |p|
    decreases |p|
  {
    if |p| > 0 {
      assert (p + x)[1..] == p[1..] + x;
      RunOfFragment(p[1..], x, delims);
    } else {
      assert p + x == x;
    }
  }

  lemma SplitFragment(p: string, x: string, delims: set<char>)
    requires IsFragment(p, delims)
    requires |x| > 0 ==> IsDelimiter(delims, x[0])
    ensures Split(p + x, delims) == [p] + Split(x, delims)
  {
    RunOfFragment(p, x, delims);
    var s := p + x;
    assert s[..|p|] == p && s[|p|..] == x;
  }

  /** Splitting undoes joining: fragments joined by a delimiter split back
      into the same fragments. */
  lemma {:induction false} SplitJoin(parts: seq<string>, c: char, delims: set<char>)
    requires IsDelimiter(delims, c)
    requires forall i :: 0 <= i < |parts| ==> IsFragment(parts[i], delims)
    ensures Split(Join(parts, c), delims) == parts
    decreases |parts|
  {
    if |parts| == 1 {
      SplitFragment(parts[0], [], delims);
      assert parts[0] + [] == parts[0];
    } else if |parts| > 1 {
      var rest := Join(parts[1..], c);
      SplitJoin(parts[1..], c, delims);
      SplitAfterDelimiter(c, rest, delims);
      SplitFragment(parts[0], [c] + rest, delims);
      assert Join(parts, c) == parts[0] + ([c] + rest);
      assert parts == [parts[0]] + parts[1..];
    }
  }

  lemma SplitAfterDelimiter(c: char, rest: string, delims: set<char>)
    requires IsDelimiter(delims, c)
    ensures Split([c] + rest, delims) == Split(rest, delims)
  {
    assert ([c] + rest)[1..] == rest;
  }

  // ---------------------------------------------------------------- sequences

  /** Every piece parsed in order; the first failure fails the whole. */
  function ParseAll<T>(parts: seq<string>, parser: string -> Option<T>): (r: Option<seq<T>>)
    ensures r.Some? <==> forall i :: 0 <= i < |parts| ==> parser(parts[i]).Some?
    ensures r.Some? ==> |r.value| == |parts|
    ensures r.Some? ==> forall i :: 0 <= i < |parts| ==> parser(parts[i]) == Some(r.value[i])
  {
    if |parts| == 0 then Some([])
    else
      match parser(parts[0])
      case None => None
      case Some(v) =>
        match ParseAll(parts[1..], parser)
        case None => None
        case Some(vs) => Some([v] + vs)
  }

  /** `ParseSequence<T>(arg, delimiters, parser)`: blank input fails;
      otherwise the pieces between delimiters, empty ones dropped, are
      parsed one by one and any failure fails the whole. */
  function ParseSequence<T>(arg: string, delims: set<char>, parser: string -> Option<T>): (r: Option<seq<T>>)
    ensures IsBlank(arg) ==> r.None?
    ensures r.Some? ==> |r.value| == |Split(arg, delims)|
    ensures r.Some? ==> forall i :: 0 <= i < |r.value| ==> parser(Split(arg, delims)[i]) == Some(r.value[i])
    ensures !IsBlank(arg) && (forall i :: 0 <= i < |Split(arg, delims)| ==> parser(Split(arg, delims)[i]).Some?) ==> r.Some?
  {
    if IsBlank(arg) then None else ParseAll(Split(arg, delims), parser)
  }

  /** Values written as pieces joined by a delimiter are read back piece by
      piece, provided the first piece is not blank. */
  lemma SequenceOfJoined<T>(parts: seq<string>, c: char, delims: set<char>, parser: string -> Option<T>, values: seq<T>)
    requires IsDelimiter(delims, c) && |parts| > 0 && !IsBlank(parts[0])
    requires forall i :: 0 <= i < |parts| ==> IsFragment(parts[i], delims)
    requires |values| == |parts| && forall i :: 0 <= i < |parts| ==> parser(parts[i]) == Some(values[i])
    ensures ParseSequence(Join(parts, c), delims, parser) == Some(values)
  {
    SplitJoin(parts, c, delims);
    var s := Join(parts, c);
    var j :| 0 <= j < |parts[0]| && !IsWhiteSpace(parts[0][j]);
    assert s[j] == parts[0][j];
    var r := ParseSequence(s, delims, parser);
    assert r.Some?;
    assert forall i :: 0 <= i < |values| ==> r.value[i] == values[i];
    assert r.value == values;
  }

  // ---------------------------------------------------------------- colours

  /** A colour as its alpha, red, green and blue channels. */
  datatype Argb = Argb(a: int, r: int, g: int, b: int)

  predicate IsChannel(v: int) { 0 <= v <= 255 }

  predicate IsColor(c: Argb) {
    IsChannel(c.a) && IsChannel(c.r) && IsChannel(c.g) && IsChannel(c.b)
  }

  /** `int.Parse(h, NumberStyles.HexNumber)`. On a channel of one or two
      characters it succeeds exactly when, without surrounding white space
      and trailing NULs, only hexadecimal digits are left, and it reads
      their value. */
  function ParseHex(h: string): (r: Option<int>)
    ensures |h| <= 2 ==> (r.Some? <==> |NumberTrim(h)| > 0 && AllDigits(NumberTrim(h), 16))
    ensures |h| <= 2 && r.Some? ==> 0 <= r.value == ValueOf(NumberTrim(h), 16) < Pow(16, |h|)
  {
    ShortHex(h);
    HexNumber(Int32, h)
  }

  /** At most two hexadecimal digits never reach the sign bit of an `int`. */
  lemma ShortHex(h: string)
    ensures |h| <= 2 && HexNumber(Int32, h).Some? ==>
      var t := NumberTrim(h);
      AllDigits(t, 16) && HexNumber(Int32, h).value == ValueOf(t, 16) < Pow(16, |h|)
    ensures |h| <= 2 && |NumberTrim(h)| > 0 && AllDigits(NumberTrim(h), 16) ==> HexNumber(Int32, h).Some?
  {
    var t := NumberTrim(h);
    if |h| <= 2 && |t| > 0 && AllDigits(t, 16) {
      ValueBound(t, 16);
      PowMonotonic(16, |t|, |h|);
      assert Pow(16, 2) == 256;
      PowMonotonic(16, |h|, 2);
      Pow2Widths();
    }
  }

  /** Digits with nothing around them read as their value. */
  lemma ParseHexDigits(h: string)
    requires 0 < |h| <= 2 && AllDigits(h, 16)
    ensures ParseHex(h) == Some(ValueOf(h, 16))
  {
    DigitsAreNotWhite(h, 16);
    ValueBound(h, 16);
    assert Pow(16, 2) == 256;
    PowMonotonic(16, |h|, 2);
    Pow2Widths();
  }

  /** A digit followed by a NUL reads as the digit, as `int.Parse` ignores
      trailing NULs: the last channel of `#FF00F\0` is 15. */
  lemma ParseHexTrailingNul(x: char)
    requires IsDigit(x, 16)
    ensures ParseHex([x, '\0']) == Some(DigitValue(x, 16))
  {
    assert [x] + [] + ['\0'] == [x, '\0'];
    NumberTrimPadded([x], [], ['\0']);
    ValueOfOne(x);
    assert ValueOf([x], 16) < 16 by { ValueBound([x], 16); }
    Pow2Widths();
  }

  /** The text after an optional leading `#`. */
  function HexBody(s: string): (t: string)
    requires |s| > 0
  {
    if s[0] == '#' then s[1..] else s
  }

  predicate IsHexLength(n: int) {
    n == 3 || n == 4 || n == 6 || n == 8
  }

  /** The channel written by the `scale` digits of `t` from position `i`:
      one digit stands for itself repeated, so it counts 17 times. */
  function Channel(t: string, i: nat, scale: nat): (r: Option<int>)
    requires scale == 1 || scale == 2
    requires i + scale <= |t|
    ensures r.Some? ==> IsChannel(r.value)
  {
    var v := ParseHex(t[i..i + scale]);
    assert Pow(16, 1) == 16 && Pow(16, 2) == 256;
    if v.None? then None
    else if scale == 1 then Some(v.value * 17)
    else v
  }

  lemma ValueOfOne(x: char)
    requires IsDigit(x, 16)
    ensures AllDigits([x], 16) && ValueOf([x], 16) == DigitValue(x, 16)
  {
    assert [x][..0] == [];
  }

  lemma ValueOfTwo(x: char, y: char)
    requires IsDigit(x, 16) && IsDigit(y, 16)
    ensures AllDigits([x, y], 16) && ValueOf([x, y], 16) == DigitValue(x, 16) * 16 + DigitValue(y, 16)
  {
    ValueOfOne(x);
    assert [x, y][..1] == [x];
  }

  /** One hexadecimal digit read as a channel counts 17 times. */
  lemma ChannelOfDigit(t: string, i: nat)
    requires i < |t| && IsDigit(t[i], 16)
    ensures Channel(t, i, 1) == Some(DigitValue(t[i], 16) * 17)
  {
    var h := t[i..i + 1];
    assert h == [t[i]];
    ValueOfOne(t[i]);
    ParseHexDigits(h);
  }

  /** The channel two digits `x`, `y` write. */
  function PairValue(x: char, y: char): int
    requires IsDigit(x, 16) && IsDigit(y, 16)
  {
    DigitValue(x, 16) * 16 + DigitValue(y, 16)
  }

  /** A digit written twice is the digit times 17. */
  lemma PairOfSame(x: char)
    requires IsDigit(x, 16)
    ensures PairValue(x, x) == DigitValue(x, 16) * 17
  {
  }

  /** Two hexadecimal digits read as a channel are the channel. */
  lemma ChannelOfPair(t: string, i: nat)
    requires i + 2 <= |t| && IsDigit(t[i], 16) && IsDigit(t[i + 1], 16)
    ensures Channel(t, i, 2) == Some(PairValue(t[i], t[i + 1]))
  {
    var h := t[i..i + 2];
    assert h == [t[i], t[i + 1]];
    ValueOfTwo(t[i], t[i + 1]);
    ParseHexDigits(h);
  }

  /** The alpha text put in when the digits have none, `new string('F',
      scale)`, reads as fully opaque; the colour uses 255 directly. */
  lemma OpaqueAlpha(scale: nat)
    requires scale == 1 || scale == 2
    ensures Channel(Repeat('F', scale), 0, scale) == Some(255)
  {
    var h := Repeat('F', scale);
    assert DigitValue(h[0], 16) == 15;
    if scale == 1 {
      ChannelOfDigit(h, 0);
    } else {
      ChannelOfPair(h, 0);
    }
  }

  /** `FromHex(s)`: an optional `#`, then the digits. */
  function FromHex(s: string): (c: Option<Argb>)
    ensures |s| == 0 ==> c.None?
    ensures c.Some? ==> IsColor(c.value)
    ensures |s| > 0 && !IsHexLength(|HexBody(s)|) ==> c.None?
    ensures c.Some? && (|HexBody(s)| == 3 || |HexBody(s)| == 6) ==> c.value.a == 255
  {
    if |s| == 0 then None else HexDigitsColor(HexBody(s))
  }

  /** 3, 4, 6 or 8 hexadecimal digits read as RGB or RGBA, one or two
      digits per channel; alpha is opaque when absent. */
  function HexDigitsColor(t: string): (c: Option<Argb>)
    ensures c.Some? ==> IsColor(c.value) && IsHexLength(|t|)
    ensures c.Some? && (|t| == 3 || |t| == 6) ==> c.value.a == 255
  {
    var len := |t|;
    if !IsHexLength(len) then None
    else
      var scale := if len == 8 || len == 6 then 2 else 1;
      var hasAlpha := len == 8 || len == 4;
      var rr := Channel(t, 0, scale);
      var gg := Channel(t, scale, scale);
      var bb := Channel(t, 2 * scale, scale);
      var aa := if hasAlpha then Channel(t, 3 * scale, scale) else Some(255);
      if rr.None? || gg.None? || bb.None? || aa.None? then None
      else Some(Argb(aa.value, rr.value, gg.value, bb.value))
  }

  /** `ParseColor(sub)`: a known colour name, else hexadecimal. The name
      table is a parameter. */
  function ParseColor(names: string -> Option<Argb>, s: string): (c: Option<Argb>)
    ensures names(s).Some? ==> c == names(s)
    ensures names(s).None? ==> c == FromHex(s)
    ensures names(s).None? && c.Some? ==> IsColor(c.value)
  {
    if names(s).Some? then names(s) else FromHex(s)
  }

  // ---------------------------------------------------------------- colour properties

  /** The two upper-case hexadecimal digits of a channel. */
  function Hex2(v: int): (h: string)
    requires IsChannel(v)
    ensures |h| == 2 && AllDigits(h, 16)
    ensures DigitValue(h[0], 16) * 16 + DigitValue(h[1], 16) == v
  {
    [DigitChar(v / 16, 16), DigitChar(v % 16, 16)]
  }

  /** The pair of digits at `i` reads back as the channel `v` written there. */
  lemma Hex2At(t: string, i: nat, v: int)
    requires IsChannel(v) && i + 2 <= |t| && t[i..i + 2] == Hex2(v)
    ensures Channel(t, i, 2) == Some(v)
  {
    assert t[i] == Hex2(v)[0] && t[i + 1] == Hex2(v)[1];
    ChannelOfPair(t, i);
  }

  /** Two-digit channels read back exactly: `#RRGGBBAA` is the colour. */
  lemma HexColorRoundTrip(c: Argb)
    requires IsColor(c)
    ensures FromHex("#" + Hex2(c.r) + Hex2(c.g) + Hex2(c.b) + Hex2(c.a)) == Some(c)
  {
    var t := Hex2(c.r) + Hex2(c.g) + Hex2(c.b) + Hex2(c.a);
    assert "#" + Hex2(c.r) + Hex2(c.g) + Hex2(c.b) + Hex2(c.a) == "#" + t;
    Hex2At(t, 0, c.r);
    Hex2At(t, 2, c.g);
    Hex2At(t, 4, c.b);
    Hex2At(t, 6, c.a);
    RgbaOfChannels(t, 2, c.r, c.g, c.b, c.a);
    assert HexBody("#" + t) == t;
  }

  /** Without the alpha pair the colour is opaque: `#RRGGBB`. */
  lemma HexColorOpaque(c: Argb)
    requires IsColor(c)
    ensures FromHex("#" + Hex2(c.r) + Hex2(c.g) + Hex2(c.b)) == Some(c.(a := 255))
  {
    var t := Hex2(c.r) + Hex2(c.g) + Hex2(c.b);
    assert "#" + Hex2(c.r) + Hex2(c.g) + Hex2(c.b) == "#" + t;
    Hex2At(t, 0, c.r);
    Hex2At(t, 2, c.g);
    Hex2At(t, 4, c.b);
    RgbOfChannels(t, 2, c.r, c.g, c.b);
    assert HexBody("#" + t) == t;
  }

  /** Three channels of `scale` digits and no alpha make an opaque colour. */
  lemma RgbOfChannels(t: string, scale: nat, r: int, g: int, b: int)
    requires (scale == 1 || scale == 2) && |t| == 3 * scale
    requires Channel(t, 0, scale) == Some(r) && Channel(t, scale, scale) == Some(g) && Channel(t, 2 * scale, scale) == Some(b)
    ensures HexDigitsColor(t) == Some(Argb(255, r, g, b))
  {
    if scale == 1 {
      assert |t| == 3;
    } else {
      assert |t| == 6;
    }
  }

  /** Four channels of `scale` digits make a colour with alpha last. */
  lemma RgbaOfChannels(t: string, scale: nat, r: int, g: int, b: int, a: int)
    requires (scale == 1 || scale == 2) && |t| == 4 * scale
    requires Channel(t, 0, scale) == Some(r) && Channel(t, scale, scale) == Some(g) && Channel(t, 2 * scale, scale) == Some(b)
    requires Channel(t, 3 * scale, scale) == Some(a)
    ensures HexDigitsColor(t) == Some(Argb(a, r, g, b))
  {
    if scale == 1 {
      assert |t| == 4;
    } else {
      assert |t| == 8;
    }
  }

  /** Digits `RGB`: each channel is its digit times 17, alpha is 255. */
  lemma RgbDigits(t: string)
    requires |t| == 3 && AllDigits(t, 16)
    ensures HexDigitsColor(t) == Some(Argb(255, DigitValue(t[0], 16) * 17, DigitValue(t[1], 16) * 17, DigitValue(t[2], 16) * 17))
  {
    ChannelOfDigit(t, 0);
    ChannelOfDigit(t, 1);
    ChannelOfDigit(t, 2);
    RgbOfChannels(t, 1, DigitValue(t[0], 16) * 17, DigitValue(t[1], 16) * 17, DigitValue(t[2], 16) * 17);
  }

  /** Digits `RGBA`: each channel, alpha included, is its digit times 17. */
  lemma RgbaDigits(t: string)
    requires |t| == 4 && AllDigits(t, 16)
    ensures HexDigitsColor(t) == Some(Argb(DigitValue(t[3], 16) * 17,
      DigitValue(t[0], 16) * 17, DigitValue(t[1], 16) * 17, DigitValue(t[2], 16) * 17))
  {
    ChannelOfDigit(t, 0);
    ChannelOfDigit(t, 1);
    ChannelOfDigit(t, 2);
    ChannelOfDigit(t, 3);
    RgbaOfChannels(t, 1, DigitValue(t[0], 16) * 17, DigitValue(t[1], 16) * 17, DigitValue(t[2], 16) * 17, DigitValue(t[3], 16) * 17);
  }

  /** A colour written as `#RRGGBBAA` that is no colour name reads back as
      that colour. */
  lemma ParseColorRoundTrip(names: string -> Option<Argb>, c: Argb)
    requires IsColor(c)
    requires names("#" + Hex2(c.r) + Hex2(c.g) + Hex2(c.b) + Hex2(c.a)).None?
    ensures ParseColor(names, "#" + Hex2(c.r) + Hex2(c.g) + Hex2(c.b) + Hex2(c.a)) == Some(c)
  {
    HexColorRoundTrip(c);
  }

  /** `RRGGBB` with every digit written twice. */
  lemma DoubledRgb(x: char, y: char, z: char)
    requires IsDigit(x, 16) && IsDigit(y, 16) && IsDigit(z, 16)
    ensures FromHex([x, x, y, y, z, z]) == Some(Argb(255, DigitValue(x, 16) * 17, DigitValue(y, 16) * 17, DigitValue(z, 16) * 17))
  {
    var t := [x, x, y, y, z, z];
    PairedRgb(t, x, y, z);
    UnmarkedDigits(t);
  }

  lemma PairedRgb(t: string, x: char, y: char, z: char)
    requires IsDigit(x, 16) && IsDigit(y, 16) && IsDigit(z, 16)
    requires |t| == 6 && t[0] == t[1] == x && t[2] == t[3] == y && t[4] == t[5] == z
    ensures HexDigitsColor(t) == Some(Argb(255, DigitValue(x, 16) * 17, DigitValue(y, 16) * 17, DigitValue(z, 16) * 17))
  {
    ChannelOfPair(t, 0);
    ChannelOfPair(t, 2);
    ChannelOfPair(t, 4);
    PairOfSame(x);
    PairOfSame(y);
    PairOfSame(z);
    RgbOfChannels(t, 2, DigitValue(x, 16) * 17, DigitValue(y, 16) * 17, DigitValue(z, 16) * 17);
  }

  /** Digits without a `#` are the body themselves. */
  lemma UnmarkedDigits(t: string)
    requires |t| > 0 && IsDigit(t[0], 16)
    ensures FromHex(t) == HexDigitsColor(t)
  {
  }

  /** `RRGGBBAA` with every digit written twice. */
  lemma DoubledRgba(x: char, y: char, z: char, w: char)
    requires IsDigit(x, 16) && IsDigit(y, 16) && IsDigit(z, 16) && IsDigit(w, 16)
    ensures FromHex([x, x, y, y, z, z, w, w]) == Some(Argb(DigitValue(w, 16) * 17, DigitValue(x, 16) * 17, DigitValue(y, 16) * 17, DigitValue(z, 16) * 17))
  {
    var t := [x, x, y, y, z, z, w, w];
    PairedRgba(t, x, y, z, w);
    UnmarkedDigits(t);
  }

  lemma PairedRgba(t: string, x: char, y: char, z: char, w: char)
    requires IsDigit(x, 16) && IsDigit(y, 16) && IsDigit(z, 16) && IsDigit(w, 16)
    requires |t| == 8 && t[0] == t[1] == x && t[2] == t[3] == y && t[4] == t[5] == z && t[6] == t[7] == w
    ensures HexDigitsColor(t) == Some(Argb(DigitValue(w, 16) * 17, DigitValue(x, 16) * 17, DigitValue(y, 16) * 17, DigitValue(z, 16) * 17))
  {
    ChannelOfPair(t, 0);
    ChannelOfPair(t, 2);
    ChannelOfPair(t, 4);
    ChannelOfPair(t, 6);
    PairOfSame(x);
    PairOfSame(y);
    PairOfSame(z);
    PairOfSame(w);
    RgbaOfChannels(t, 2, DigitValue(x, 16) * 17, DigitValue(y, 16) * 17, DigitValue(z, 16) * 17, DigitValue(w, 16) * 17);
  }

  /** One digit per channel means that digit doubled: `F00` is `FF0000`,
      `F00F` is `FF0000FF`. */
  lemma ShortFormDoubles(x: char, y: char, z: char, w: char)
    requires IsDigit(x, 16) && IsDigit(y, 16) && IsDigit(z, 16) && IsDigit(w, 16)
    ensures FromHex([x, y, z]) == FromHex([x, x, y, y, z, z])
    ensures FromHex([x, y, z, w]) == FromHex([x, x, y, y, z, z, w, w])
  {
    RgbDigits([x, y, z]);
    RgbaDigits([x, y, z, w]);
    DoubledRgb(x, y, z);
    DoubledRgba(x, y, z, w);
  }

  /** A character that is neither a hexadecimal digit, nor number white
      space, nor NUL anywhere in the digits makes the colour fail: `-F0000`,
      `FF00.0`, `#FF00Z0`. */
  lemma HexRejectsNonDigit(s: string, i: int)
    requires |s| > 0 && 0 <= i < |HexBody(s)|
    requires !IsDigit(HexBody(s)[i], 16) && !IsNumberWhite(HexBody(s)[i]) && HexBody(s)[i] != '\0'
    ensures FromHex(s).None?
  {
    DigitsRejectNonDigit(HexBody(s), i);
  }

  lemma DigitsRejectNonDigit(t: string, i: int)
    requires 0 <= i < |t| && !IsDigit(t[i], 16) && !IsNumberWhite(t[i]) && t[i] != '\0'
    ensures HexDigitsColor(t).None?
  {
    var len := |t|;
    if IsHexLength(len) {
      var scale := if len == 8 || len == 6 then 2 else 1;
      if i < scale {
        ChannelRejects(t, 0, scale, i);
      } else if i < 2 * scale {
        ChannelRejects(t, scale, scale, i);
      } else if i < 3 * scale {
        ChannelRejects(t, 2 * scale, scale, i);
      } else {
        ChannelRejects(t, 3 * scale, scale, i);
      }
    }
  }

  lemma ChannelRejects(t: string, lo: nat, scale: nat, i: int)
    requires (scale == 1 || scale == 2) && lo + scale <= |t|
    requires lo <= i < lo + scale && !IsDigit(t[i], 16) && !IsNumberWhite(t[i]) && t[i] != '\0'
    ensures Channel(t, lo, scale).None?
  {
    NumberTrimKeeps(t[lo..lo + scale], i - lo, i - lo);
  }
}

=== FILE: parse_params.dfy ===
/** The argument-consumption engine of `ParseParams`: every operation looks
    at the remaining tokens, classifies the outcome as a `Result`, and removes
    the tokens it consumed only when the outcome is Good. The engine is
    written here as pure functions from the token list before the call to the
    outcome and the token list after it; module `Cli` wraps them in the
    mutable object of the source. */
module ParseParams {
  import opened Wrappers
  import opened Results
  import opened Tokens

  /** What a value parser reports: whether it succeeded, and the value it
      stored in its `out` parameter, which it stores even when it fails. */
  datatype Parsed<T> = Parsed(ok: bool, value: T)

  /** `ParseParams.Parser<T>`. The instance's own parser (`IParamsParser`),
      used when a call passes no parser, is just another value of this type. */
  type Parser<T> = string -> Parsed<T>

  /** Outcome of `Has`: the status and the tokens left afterwards. */
  datatype Presence = Presence(result: Result, rest: seq<string>)

  /** Outcome of a one-value operation: status, `out` value, tokens left. */
  datatype Step<T> = Step(result: Result, value: T, rest: seq<string>)

  /** Outcome of a two-value operation. */
  datatype Step2<T, U> = Step2(result: Result, left: T, right: U, rest: seq<string>)

  predicate Distinct(s: seq<string>) {
    forall i, j :: 0 <= i < j < |s| ==> s[i] != s[j]
  }

  // ---------------------------------------------------------------- Has

  /** The `foreach` of `Has` from some alias on; `found` records whether an
      earlier alias was removed (`ii != -1`). */
  function HasFrom(args: seq<string>, aliases: seq<string>, found: bool): (p: Presence)
    ensures p.result == Good || p.result == Missing
    ensures p.result == Good <==> found || exists a :: a in aliases && a in args
    ensures p.result == Missing ==> p.rest == args
    ensures |p.rest| <= |args|
    ensures !found && p.result == Good ==> |p.rest| < |args|
    decreases |aliases|
  {
    if |aliases| == 0 then Presence(if found then Good else Missing, args)
    else
      var i := IndexOf(args, aliases[0]);
      if i != -1 then HasFrom(RemoveAt(args, i), aliases[1..], true)
      else
        assert forall a :: a in aliases <==> a == aliases[0] || a in aliases[1..];
        HasFrom(args, aliases[1..], found)
  }

  /** `Has(params string[] switch)`: removes the first occurrence of each
      alias that occurs, and is Good iff one of them occurred. */
  function Has(args: seq<string>, aliases: seq<string>): (p: Presence)
    ensures p.result == Good || p.result == Missing
    ensures p.result == Good <==> exists a :: a in aliases && a in args
    ensures p.result == Missing ==> p.rest == args
    ensures p.result == Good ==> |p.rest| < |args|
  {
    HasFrom(args, aliases, false)
  }

  lemma {:induction false} HasFromKeepsOtherTokens(args: seq<string>, aliases: seq<string>, found: bool)
    ensures forall t :: t !in aliases ==> multiset(HasFrom(args, aliases, found).rest)[t] == multiset(args)[t]
    decreases |aliases|
  {
    if |aliases| > 0 {
      var i := IndexOf(args, aliases[0]);
      if i != -1 {
        var next := RemoveAt(args, i);
        RemoveAtIndexOf(args, aliases[0]);
        RemoveFirstCounts(args, aliases[0]);
        HasFromKeepsOtherTokens(next, aliases[1..], true);
      } else {
        HasFromKeepsOtherTokens(args, aliases[1..], found);
      }
    }
  }

  /** A token that is not one of the aliases keeps every one of its occurrences. */
  lemma HasKeepsOtherTokens(args: seq<string>, aliases: seq<string>, t: string)
    requires t !in aliases
    ensures multiset(Has(args, aliases).rest)[t] == multiset(args)[t]
  {
    HasFromKeepsOtherTokens(args, aliases, false);
  }

  lemma AliasSetSplit(aliases: seq<string>)
    requires |aliases| > 0
    ensures (set a | a in aliases) == {aliases[0]} + set a | a in aliases[1..]
  {
    assert forall a :: a in aliases <==> a == aliases[0] || a in aliases[1..];
  }

  lemma DistinctTail(aliases: seq<string>, done: set<string>)
    requires |aliases| > 0 && Distinct(aliases)
    requires forall a :: a in aliases ==> a !in done
    ensures Distinct(aliases[1..])
    ensures forall a :: a in aliases[1..] ==> a !in done + {aliases[0]}
  {
    var tail := aliases[1..];
    forall j, k | 0 <= j < k < |tail| ensures tail[j] != tail[k] {
      assert tail[j] == aliases[j + 1] && tail[k] == aliases[k + 1];
    }
    forall a | a in tail ensures a !in done + {aliases[0]} {
      var k :| 0 <= k < |tail| && tail[k] == a;
      assert aliases[k + 1] == a;
    }
  }

  /** One iteration of the `foreach` in `Has` removes the first occurrence of
      the alias, whether or not it occurs. */
  lemma HasFromStep(args: seq<string>, aliases: seq<string>, found: bool)
    requires |aliases| > 0
    ensures HasFrom(args, aliases, found)
         == HasFrom(RemoveFirst(args, aliases[0]), aliases[1..], found || aliases[0] in args)
  {
    if aliases[0] in args {
      RemoveAtIndexOf(args, aliases[0]);
    } else {
      RemoveFirstAbsent(args, aliases[0]);
    }
  }

  lemma {:induction false} HasFromRemovesFirsts(args0: seq<string>, done: set<string>, aliases: seq<string>, found: bool)
    requires Distinct(aliases)
    requires forall a :: a in aliases ==> a !in done
    ensures HasFrom(RemoveFirsts(args0, done), aliases, found).rest
         == RemoveFirsts(args0, done + set a | a in aliases)
    decreases |aliases|
  {
    var args := RemoveFirsts(args0, done);
    if |aliases| == 0 {
      assert done + (set a | a in aliases) == done;
    } else {
      var x := aliases[0];
      HasFromStep(args, aliases, found);
      RemoveFirstsStep(args0, done, x);
      DistinctTail(aliases, done);
      HasFromRemovesFirsts(args0, done + {x}, aliases[1..], found || x in args);
      AliasSetSplit(aliases);
      assert done + {x} + (set a | a in aliases[1..]) == done + set a | a in aliases;
    }
  }

  /** With distinct aliases, `Has` removes exactly the first occurrence of
      every alias that occurs, and every other token keeps its place in order. */
  lemma HasRemovesFirstOccurrences(args: seq<string>, aliases: seq<string>)
    requires Distinct(aliases)
    ensures Has(args, aliases).rest == RemoveFirsts(args, set a | a in aliases)
  {
    RemoveFirstsNone(args);
    HasFromRemovesFirsts(args, {}, aliases, false);
    assert {} + (set a | a in aliases) == set a | a in aliases;
  }

  // ---------------------------------------------------------------- Default

  /** Positional `Default<T>(out val, def, par)`: parses the head of the list. */
  function DefaultValue<T>(args: seq<string>, def: T, par: Parser<T>): (s: Step<T>)
    ensures s.result != MissingArgument
    ensures s.result == Missing <==> |args| == 0
    ensures s.result == Missing ==> s.value == def
    ensures |args| > 0 ==> s.value == par(args[0]).value && (s.result == Good <==> par(args[0]).ok)
    ensures s.result != Good ==> s.rest == args
    ensures s.result == Good ==> args == [args[0]] + s.rest
  {
    if |args| <= 0 then Step(Missing, def, args)
    else
      var curr := args[0];
      var p := par(curr);
      if !p.ok then Step(UnParsable, p.value, args)
      else Step(Good, p.value, args[1..])
  }

  /** Single-switch `Default<T>(switch, out val, def, par)`: the switch at its
      first position and the token after it. */
  function DefaultSwitch<T>(args: seq<string>, sw: string, def: T, par: Parser<T>): (s: Step<T>)
    ensures s.result == Missing <==> sw !in args
    ensures s.result == MissingArgument <==> sw in args && IndexOf(args, sw) == |args| - 1
    ensures s.result == Missing || s.result == MissingArgument ==> s.value == def
    ensures s.result != Good ==> s.rest == args
    ensures sw in args && IndexOf(args, sw) < |args| - 1 ==>
      var v := par(args[IndexOf(args, sw) + 1]);
      s.value == v.value && (s.result == Good <==> v.ok)
    ensures s.result == Good ==>
      var i := IndexOf(args, sw);
      0 <= i < |args| - 1 && s.rest == args[..i] + args[i + 2..]
  {
    var i := IndexOf(args, sw);
    if i == -1 then Step(Missing, def, args)
    else if i + 1 >= |args| then Step(MissingArgument, def, args)
    else
      var p := par(args[i + 1]);
      if !p.ok then Step(UnParsable, p.value, args)
      else
        Step(Good, p.value, args[..i] + args[i + 2..])
  }

  /** Index of the first alias, in the order given, that occurs in `args`. */
  function FirstPresent(args: seq<string>, aliases: seq<string>): (k: int)
    ensures -1 <= k < |aliases|
    ensures k == -1 <==> forall a :: a in aliases ==> a !in args
    ensures 0 <= k ==> aliases[k] in args && forall j :: 0 <= j < k ==> aliases[j] !in args
  {
    if |aliases| == 0 then -1
    else if aliases[0] in args then 0
    else
      var k := FirstPresent(args, aliases[1..]);
      assert forall a :: a in aliases <==> a == aliases[0] || a in aliases[1..];
      if k == -1 then -1 else k + 1
  }

  /** Multi-alias `Default<T>(switch[], out val, def, par)`: the first
      alias whose outcome is not Missing decides; when every alias is Missing
      the value is the type's default `zero`, not `def`. */
  function DefaultAny<T>(args: seq<string>, aliases: seq<string>, def: T, zero: T, par: Parser<T>): (s: Step<T>)
    ensures s.result == Missing <==> forall a :: a in aliases ==> a !in args
    ensures s.result == Missing ==> s.value == zero && s.rest == args
    ensures s.result != Missing ==> s == DefaultSwitch(args, aliases[FirstPresent(args, aliases)], def, par)
  {
    if |aliases| == 0 then Step(Missing, zero, args)
    else
      var r := DefaultSwitch(args, aliases[0], def, par);
      if r.result != Missing then r
      else
        assert forall a :: a in aliases <==> a == aliases[0] || a in aliases[1..];
        DefaultAny(args, aliases[1..], def, zero, par)
  }

  /** Whether the two-value operation requires its second token: always
      when no condition is given, otherwise when the condition holds of the
      first value. */
  predicate NeedsRight<T>(condition: Option<T -> bool>, left: T) {
    condition.None? || condition.value(left)
  }

  /** Two-value `Default<T,U>(switch, out leftVal, out rightVal, ...)`. */
  function DefaultPair<T, U>(args: seq<string>, sw: string, leftDef: T, rightDef: U,
                             condition: Option<T -> bool>, lp: Parser<T>, rp: Parser<U>): (s: Step2<T, U>)
    ensures s.result == Missing <==> sw !in args
    ensures s.result == MissingArgument ==> sw in args
    ensures s.result == Missing || IndexOf(args, sw) == |args| - 1 ==> s.left == leftDef && s.right == rightDef
    ensures s.result != Good ==> s.rest == args
    ensures s.result == Good ==>
      var i := IndexOf(args, sw);
      && 0 <= i < |args| - 1
      && lp(args[i + 1]).ok && s.left == lp(args[i + 1]).value
      && if NeedsRight(condition, s.left)
         then i + 2 < |args| && rp(args[i + 2]).ok && s.right == rp(args[i + 2]).value
              && s.rest == args[..i] + args[i + 3..]
         else s.right == rightDef && s.rest == args[..i] + args[i + 2..]
  {
    var i := IndexOf(args, sw);
    if i == -1 then Step2(Missing, leftDef, rightDef, args)
    else if i + 1 >= |args| then Step2(MissingArgument, leftDef, rightDef, args)
    else
      var l := lp(args[i + 1]);
      if !l.ok then Step2(UnParsable, l.value, rightDef, args)
      else if condition.Some? && !condition.value(l.value) then
        Step2(Good, l.value, rightDef, args[..i] + args[i + 2..])
      else if i + 2 >= |args| then Step2(MissingArgument, l.value, rightDef, args)
      else
        var r := rp(args[i + 2]);
        if !r.ok then Step2(UnParsable, l.value, r.value, args)
        else
          Step2(Good, l.value, r.value, args[..i] + args[i + 3..])
  }

  /** Multi-alias two-value `Default<T,U>(switch[], ...)`. */
  function DefaultPairAny<T, U>(args: seq<string>, aliases: seq<string>, leftDef: T, rightDef: U,
                                leftZero: T, rightZero: U, condition: Option<T -> bool>,
                                lp: Parser<T>, rp: Parser<U>): (s: Step2<T, U>)
    ensures s.result == Missing <==> forall a :: a in aliases ==> a !in args
    ensures s.result == Missing ==> s.left == leftZero && s.right == rightZero && s.rest == args
    ensures s.result != Missing ==>
      s == DefaultPair(args, aliases[FirstPresent(args, aliases)], leftDef, rightDef, condition, lp, rp)
  {
    if |aliases| == 0 then Step2(Missing, leftZero, rightZero, args)
    else
      var r := DefaultPair(args, aliases[0], leftDef, rightDef, condition, lp, rp);
      if r.result != Missing then r
      else
        assert forall a :: a in aliases <==> a == aliases[0] || a in aliases[1..];
        DefaultPairAny(args, aliases[1..], leftDef, rightDef, leftZero, rightZero, condition, lp, rp)
  }

  // ---------------------------------------------------------------- Expect

  /** The `Expect` remapping: a value the caller requires that is not there
      at all is reported as MissingArgument. */
  function AsExpected(r: Result): (e: Result)
    ensures e != Missing
    ensures r != Missing ==> e == r
  {
    if r == Missing then MissingArgument else r
  }

  /** Positional `Expect<T>(out val)`: the default is the type's `zero`. */
  function ExpectValue<T>(args: seq<string>, zero: T, par: Parser<T>): (s: Step<T>)
    ensures s.result != Missing
    ensures s.result == MissingArgument <==> |args| == 0
    ensures s.result == Good <==> |args| > 0 && par(args[0]).ok
    ensures s.result != Good ==> s.rest == args
  {
    var d := DefaultValue(args, zero, par);
    Step(AsExpected(d.result), d.value, d.rest)
  }

  /** `Expect(switch)`: `Has` for one switch, with Missing remapped. */
  function ExpectFlag(args: seq<string>, sw: string): (p: Presence)
    ensures p.result == Good || p.result == MissingArgument
    ensures p.result == Good <==> sw in args
    ensures p.result == Good ==> p.rest == RemoveFirst(args, sw)
    ensures p.result != Good ==> p.rest == args
  {
    var has := Has(args, [sw]);
    if sw in args then
      RemoveAtIndexOf(args, sw);
      assert [sw][1..] == [];
      assert has == HasFrom(RemoveAt(args, IndexOf(args, sw)), [], true);
      Presence(AsExpected(has.result), has.rest)
    else
      Presence(AsExpected(has.result), has.rest)
  }

  /** Single-switch `Expect<T>(switch, out val, par)`. */
  function ExpectSwitch<T>(args: seq<string>, sw: string, zero: T, par: Parser<T>): (s: Step<T>)
    ensures s.result != Missing
    ensures s.result == MissingArgument <==> sw !in args || IndexOf(args, sw) == |args| - 1
    ensures s.result != Good ==> s.rest == args
    ensures s.result == Good ==> |s.rest| == |args| - 2
  {
    var d := DefaultSwitch(args, sw, zero, par);
    Step(AsExpected(d.result), d.value, d.rest)
  }

  /** Two-value `Expect<T,U>(switch, ...)`: no condition is passed, so the
      second value is always required. */
  function ExpectPair<T, U>(args: seq<string>, sw: string, leftZero: T, rightZero: U,
                            lp: Parser<T>, rp: Parser<U>): (s: Step2<T, U>)
    ensures s.result != Missing
    ensures s.result != Good ==> s.rest == args
    ensures s.result == Good ==> |s.rest| == |args| - 3
  {
    var d := DefaultPair(args, sw, leftZero, rightZero, None, lp, rp);
    Step2(AsExpected(d.result), d.left, d.right, d.rest)
  }

  // ---------------------------------------------------------------- properties

  /** The token list left after Good is what the source's run of `RemoveAt`
      calls leaves: one, two or three tokens from the switch on are cut out. */
  lemma GoodRemovesRun<T, U>(args: seq<string>, sw: string, def: T, par: Parser<T>,
                             rightDef: U, condition: Option<T -> bool>, rp: Parser<U>)
    ensures DefaultValue(args, def, par).result == Good ==>
      DefaultValue(args, def, par).rest == RemoveRun(args, 0, 1)
    ensures DefaultSwitch(args, sw, def, par).result == Good ==>
      DefaultSwitch(args, sw, def, par).rest == RemoveRun(args, IndexOf(args, sw), 2)
    ensures var s := DefaultPair(args, sw, def, rightDef, condition, par, rp);
      s.result == Good ==>
        s.rest == RemoveRun(args, IndexOf(args, sw), if NeedsRight(condition, s.left) then 3 else 2)
  {
  }

  /** The outcome table of the two-value operation once the switch is found
      and followed by a token: the first value is parsed, and it decides,
      through the condition, whether a second token is required. */
  lemma PairOutcomes<T, U>(args: seq<string>, sw: string, leftDef: T, rightDef: U,
                           condition: Option<T -> bool>, lp: Parser<T>, rp: Parser<U>)
    requires sw in args && IndexOf(args, sw) + 1 < |args|
    ensures var s := DefaultPair(args, sw, leftDef, rightDef, condition, lp, rp);
      var i := IndexOf(args, sw);
      var l := lp(args[i + 1]);
      && s.left == l.value
      && (!l.ok ==> s.result == UnParsable && s.right == rightDef)
      && (l.ok && !NeedsRight(condition, l.value) ==> s.result == Good && s.right == rightDef)
      && (l.ok && NeedsRight(condition, l.value) && i + 2 >= |args| ==>
            s.result == MissingArgument && s.right == rightDef)
      && (l.ok && NeedsRight(condition, l.value) && i + 2 < |args| ==>
            s.right == rp(args[i + 2]).value && (s.result == Good <==> rp(args[i + 2]).ok)
            && (s.result == Good || s.result == UnParsable))
  {
  }

  /** `Expect<T,U>` passes no condition: once the first value parses, a
      missing second token is a MissingArgument and nothing is removed. */
  lemma ExpectPairNeedsSecond<T, U>(args: seq<string>, sw: string, leftZero: T, rightZero: U,
                                    lp: Parser<T>, rp: Parser<U>)
    requires sw in args && IndexOf(args, sw) + 1 == |args| - 1
    requires lp(args[|args| - 1]).ok
    ensures ExpectPair(args, sw, leftZero, rightZero, lp, rp).result == MissingArgument
    ensures ExpectPair(args, sw, leftZero, rightZero, lp, rp).rest == args
  {
  }

  /** Each `Expect` overload reports what its `Has`/`Default` counterpart
      reports, with Missing turned into MissingArgument, and leaves the same
      tokens. */
  lemma ExpectMirrorsDefault<T, U>(args: seq<string>, sw: string, zero: T, rightZero: U,
                                   par: Parser<T>, rp: Parser<U>)
    ensures var e := ExpectValue(args, zero, par); var d := DefaultValue(args, zero, par);
      e.result == AsExpected(d.result) && e.value == d.value && e.rest == d.rest
    ensures var e := ExpectFlag(args, sw); var d := Has(args, [sw]);
      e.result == AsExpected(d.result) && e.rest == d.rest
    ensures var e := ExpectSwitch(args, sw, zero, par); var d := DefaultSwitch(args, sw, zero, par);
      e.result == AsExpected(d.result) && e.value == d.value && e.rest == d.rest
    ensures var e := ExpectPair(args, sw, zero, rightZero, par, rp);
      var d := DefaultPair(args, sw, zero, rightZero, None, par, rp);
      e.result == AsExpected(d.result) && e.left == d.left && e.right == d.right && e.rest == d.rest
  {
  }

  /** An `Expect` result is Bad exactly when it is Invalid: Missing, the one
      Bad result that is not Invalid, never comes back. */
  lemma ExpectBadIsInvalid<T, U>(args: seq<string>, sw: string, zero: T, rightZero: U,
                                 par: Parser<T>, rp: Parser<U>)
    ensures IsBad(ExpectValue(args, zero, par).result) <==> IsInvalid(ExpectValue(args, zero, par).result)
    ensures IsBad(ExpectFlag(args, sw).result) <==> IsInvalid(ExpectFlag(args, sw).result)
    ensures IsBad(ExpectSwitch(args, sw, zero, par).result) <==> IsInvalid(ExpectSwitch(args, sw, zero, par).result)
    ensures var r := ExpectPair(args, sw, zero, rightZero, par, rp).result; IsBad(r) <==> IsInvalid(r)
  {
    InvalidClassification(ExpectValue(args, zero, par).result);
    InvalidClassification(ExpectFlag(args, sw).result);
    InvalidClassification(ExpectSwitch(args, sw, zero, par).result);
    InvalidClassification(ExpectPair(args, sw, zero, rightZero, par, rp).result);
  }
}

=== FILE: print_helper.dfy ===
/** The help-text printer: fixed-width wrapping, the name/description row,
    the wrapped paragraph and the enum listing. Every operation returns the
    text it appends to the `StringBuilder`. The static settings
    `DescriptionColumn` and `OutputWidth` are parameters (`column`, `width`). */
module PrintHelper {
  import opened Wrappers
  import opened Text
  import opened Digits
  import opened Enums

  /** The line end `AppendLine` writes; the model uses LF for `Environment.NewLine`. */
  const NewLine: string := "\n"

  /** The rows joined, each followed by a line end. */
  function Lines(rows: seq<string>): string {
    if |rows| == 0 then [] else rows[0] + NewLine + Lines(rows[1..])
  }

  /** The piece the wrapping loop prints at position `c`: `w` characters,
      or what is left when no more remain. */
  function Piece(m: string, w: nat, c: nat): string
    requires c < |m|
  {
    if c + w >= |m| then m[c..] else m[c..c + w]
  }

  /** The pieces the wrapping loop prints from position `c` on. */
  function ChunksFrom(m: string, w: nat, c: nat): (cs: seq<string>)
    requires w > 0
    ensures forall i :: 0 <= i < |cs| ==> 0 < |cs[i]| <= w
    ensures forall i :: 0 <= i < |cs| - 1 ==> |cs[i]| == w
    decreases |m| - c
  {
    if c >= |m| then [] else [Piece(m, w, c)] + ChunksFrom(m, w, c + w)
  }

  /** The pieces the wrapping loop cuts `m` into: `w` characters each,
      the last one possibly shorter. */
  function Chunks(m: string, w: nat): seq<string>
    requires w > 0
  {
    ChunksFrom(m, w, 0)
  }

  /** Every piece after `offset` blanks. */
  function IndentAll(cs: seq<string>, offset: nat): (rows: seq<string>)
    ensures |rows| == |cs|
    ensures forall i :: 0 <= i < |cs| ==> rows[i] == Spaces(offset) + cs[i]
  {
    if |cs| == 0 then [] else [Spaces(offset) + cs[0]] + IndentAll(cs[1..], offset)
  }

  /** The rows `AppendWrap(offset, m)` prints, without their line ends, for
      `w = OutputWidth - 1 - offset`; an empty text still gives one empty row,
      whatever the width. */
  function Rows(m: string, w: int, offset: nat): seq<string>
    requires |m| > 0 ==> w > 0
  {
    if |m| == 0 then [""]
    else
      var cs := Chunks(m, w);
      [cs[0]] + IndentAll(cs[1..], offset)
  }

  /** The text `AppendWrap` appends. */
  function Wrapped(m: string, w: int, offset: nat): (r: string)
    requires |m| > 0 ==> w > 0
    ensures |m| == 0 ==> r == NewLine
  {
    assert Lines([""]) == "" + NewLine + Lines([]);
    Lines(Rows(m, w, offset))
  }

  /** The rows with their indentation removed: what the reader of the help text reads. */
  function Unindent(rows: seq<string>, offset: nat): seq<string>
    requires forall i :: 0 < i < |rows| ==> offset <= |rows[i]|
  {
    seq(|rows|, i requires 0 <= i < |rows| => if i == 0 then rows[i] else rows[i][offset..])
  }

  /** The pieces spell the text again. */
  lemma {:induction false} ChunksSpell(m: string, w: nat, c: nat)
    requires w > 0 && c <= |m|
    ensures Concat(ChunksFrom(m, w, c)) == m[c..]
    decreases |m| - c
  {
    if c < |m| {
      if c + w < |m| {
        ChunksSpell(m, w, c + w);
        assert m[c..] == m[c..c + w] + m[c + w..];
      }
      var cs := ChunksFrom(m, w, c);
      assert cs[1..] == ChunksFrom(m, w, c + w);
    }
  }

  /** Number of pieces from position `c`: `(|m| - c) / w` rounded up, the
      `n` with `(n - 1) * w < |m| - c <= n * w`. */
  lemma {:induction false} ChunkCount(m: string, w: nat, c: nat)
    requires w > 0 && c <= |m|
    ensures c == |m| ==> |ChunksFrom(m, w, c)| == 0
    ensures c < |m| ==> (|ChunksFrom(m, w, c)| - 1) * w < |m| - c <= |ChunksFrom(m, w, c)| * w
    decreases |m| - c
  {
    if c + w < |m| {
      ChunkCount(m, w, c + w);
      var n := |ChunksFrom(m, w, c + w)|;
      assert |ChunksFrom(m, w, c)| == n + 1;
      assert (n + 1) * w == n * w + w;
      assert (n - 1) * w + w == n * w;
    }
  }

  /** The layout of the wrapped text: `|m| / w` rounded up rows (one for the
      empty text), the first holding the first `w` characters unindented,
      every later one `offset` blanks followed by at most `w` characters;
      without the indentation the rows spell `m` again. */
  lemma WrapRows(m: string, w: nat, offset: nat)
    requires w > 0
    ensures var rs := Rows(m, w, offset);
      && (|m| == 0 ==> |rs| == 1)
      && (|m| > 0 ==> (|rs| - 1) * w < |m| <= |rs| * w)
      && rs[0] == m[..if |m| <= w then |m| else w]
      && (forall i :: 0 < i < |rs| ==> offset < |rs[i]| <= offset + w && rs[i][..offset] == Spaces(offset))
      && Concat(Unindent(rs, offset)) == m
  {
    var rs := Rows(m, w, offset);
    ChunkCount(m, w, 0);
    ChunksSpell(m, w, 0);
    if |m| > 0 {
      var cs := Chunks(m, w);
      forall i | 0 < i < |rs|
        ensures offset < |rs[i]| <= offset + w && rs[i][..offset] == Spaces(offset)
      {
        assert rs[i] == Spaces(offset) + cs[i];
      }
      forall i | 0 <= i < |cs|
        ensures Unindent(rs, offset)[i] == cs[i]
      {
        if i > 0 {
          assert rs[i] == Spaces(offset) + cs[i];
          assert (Spaces(offset) + cs[i])[offset..] == cs[i];
        }
      }
      assert Unindent(rs, offset) == cs;
    }
  }

  /** What the wrapping loop prints from position `c` on. */
  function WrapFrom(m: string, w: nat, offset: nat, c: nat): string
    requires w > 0
    decreases |m| - c
  {
    if c >= |m| then []
    else (if c > 0 then Spaces(offset) else "") + Piece(m, w, c) + NewLine + WrapFrom(m, w, offset, c + w)
  }

  /** `AppendWrap`: the source's loop over the position `c`, then the line
      end an empty text still gets. The loop does not run for an empty
      text, so any width will do there. */
  method AppendWrap(width: int, offset: nat, m: string) returns (r: string)
    requires |m| > 0 ==> width - 1 - offset > 0
    ensures r == Wrapped(m, width - 1 - offset, offset)
    ensures |m| == 0 ==> r == NewLine
  {
    if |m| < 1 {
      r := NewLine;
      assert Lines([""]) == "" + NewLine + Lines([]);
    } else {
      var w: nat := width - 1 - offset;
      r := WrapLoop(w, offset, m);
      WrapFromIsWrapped(m, w, offset);
    }
  }

  /** The `while (c < l)` loop of `AppendWrap`. */
  method WrapLoop(w: nat, offset: nat, m: string) returns (r: string)
    requires w > 0
    ensures r == WrapFrom(m, w, offset, 0)
  {
    var c: nat := 0;
    var l := |m|;
    r := "";
    while c < l
      invariant r + WrapFrom(m, w, offset, c) == WrapFrom(m, w, offset, 0)
      decreases l - c
    {
      var o := if c > 0 then Spaces(offset) else "";
      var row := o + Piece(m, w, c) + NewLine;
      AppendAssoc(r, row, WrapFrom(m, w, offset, c + w));
      c := c + w;
      r := r + row;
    }
    assert r + [] == r;
  }

  lemma AppendAssoc<T>(a: seq<T>, b: seq<T>, c: seq<T>)
    ensures (a + b) + c == a + (b + c)
  {
  }

  lemma LinesCons(row: string, rows: seq<string>)
    ensures Lines([row] + rows) == row + NewLine + Lines(rows)
  {
    assert ([row] + rows)[1..] == rows;
  }

  /** From the start the loop prints the rows of the layout. */
  lemma WrapFromIsWrapped(m: string, w: nat, offset: nat)
    requires w > 0 && |m| > 0
    ensures WrapFrom(m, w, offset, 0) == Wrapped(m, w, offset)
  {
    var cs := Chunks(m, w);
    WrapFromIndented(m, w, offset, w);
    assert cs == [Piece(m, w, 0)] + ChunksFrom(m, w, w);
    assert cs[1..] == ChunksFrom(m, w, w);
    LinesCons(cs[0], IndentAll(cs[1..], offset));
    assert WrapFrom(m, w, offset, 0) == "" + Piece(m, w, 0) + NewLine + WrapFrom(m, w, offset, w);
    assert "" + Piece(m, w, 0) == cs[0];
  }

  /** Past the first row the loop prints every piece indented. */
  lemma {:induction false} WrapFromIndented(m: string, w: nat, offset: nat, c: nat)
    requires w > 0 && c > 0
    ensures WrapFrom(m, w, offset, c) == Lines(IndentAll(ChunksFrom(m, w, c), offset))
    decreases |m| - c
  {
    if c < |m| {
      WrapFromIndented(m, w, offset, c + w);
      var cs := ChunksFrom(m, w, c);
      assert cs[1..] == ChunksFrom(m, w, c + w);
    }
  }

  /** `ND(level, name, desc)`: a negative level counts as 0; a null or blank
      description ends the row after the name, any other is padded towards
      `column` and wrapped at offset `column`. */
  function NameDescription(level: int, name: string, desc: string, column: nat, width: int): (r: string)
    requires !IsBlank(desc) ==> width - 1 - column > 0
    ensures var lv := if level < 0 then 0 else level;
      && |r| > lv + |name|
      && r[..lv + |name|] == Spaces(lv) + name
      && (IsBlank(desc) ==> r[lv + |name|..] == NewLine)
      && (!IsBlank(desc) && lv + |name| <= column ==>
            |r| > column && r[lv + |name|..column] == Spaces(column - lv - |name|)
            && r[column..] == Wrapped(desc, width - 1 - column, column))
      && (!IsBlank(desc) && lv + |name| > column ==>
            r[lv + |name|..] == Wrapped(desc, width - 1 - column, column))
  {
    var lv := if level < 0 then 0 else level;
    var head := Spaces(lv) + name;
    if IsBlank(desc) then head + NewLine
    else
      var pad := column - |name| - lv;
      head + Spaces(if pad > 0 then pad else 0) + Wrapped(desc, width - 1 - column, column)
  }

  /** `WT(level, text)`: a null text prints one line end; otherwise `level`
      blanks then the text wrapped at offset `level`. A negative level makes
      `Append(' ', level)` throw, which is `None`. */
  function WrapText(level: int, text: Option<string>, width: int): (r: Option<string>)
    requires text.Some? && level >= 0 && |text.value| > 0 ==> width - 1 - level > 0
    ensures text.None? ==> r == Some(NewLine)
    ensures text == Some("") && level >= 0 ==> r == Some(Spaces(level) + NewLine)
    ensures r.None? <==> text.Some? && level < 0
    ensures text.Some? && level >= 0 ==>
      r.Some? && |r.value| > level && r.value[..level] == Spaces(level)
  {
    match text
    case None => Some(NewLine)
    case Some(t) =>
      if level < 0 then None
      else Some(Spaces(level) + Wrapped(t, width - 1 - level, level))
  }

  /** `WT` indents every row alike: each piece of the text is printed after
      `level` blanks, the first one included. */
  lemma WrapTextIndentsEveryRow(level: nat, t: string, width: int)
    requires width - 1 - level > 0 && |t| > 0
    ensures WrapText(level, Some(t), width) == Some(Lines(IndentAll(Chunks(t, width - 1 - level), level)))
  {
    var cs := Chunks(t, width - 1 - level);
    var rest := Lines(IndentAll(cs[1..], level));
    assert IndentAll(cs, level) == [Spaces(level) + cs[0]] + IndentAll(cs[1..], level);
    LinesCons(Spaces(level) + cs[0], IndentAll(cs[1..], level));
    LinesCons(cs[0], IndentAll(cs[1..], level));
    assert Spaces(level) + (cs[0] + NewLine + rest) == Spaces(level) + cs[0] + NewLine + rest;
  }

  /** `EnumAll(excludeZero)`: the members in the order the type lists them,
      leaving out the zero-valued ones when `excludeZero` is set. */
  function EnumAll(members: seq<Member>, excludeZero: bool): (r: seq<Member>)
    ensures |r| <= |members|
    ensures forall i :: 0 <= i < |r| ==> r[i] in members && !(excludeZero && r[i].value == 0)
    ensures forall x :: x in members && !(excludeZero && x.value == 0) ==> x in r
    ensures !excludeZero ==> r == members
  {
    if |members| == 0 then []
    else
      var rest := EnumAll(members[1..], excludeZero);
      if excludeZero && members[0].value == 0 then rest else [members[0]] + rest
  }

  /** `EnumAll` works member by member: the listing of two parts is the two
      parts' listings, one after the other, so the order is kept. */
  lemma {:induction false} EnumAllAppend(a: seq<Member>, b: seq<Member>, excludeZero: bool)
    ensures EnumAll(a + b, excludeZero) == EnumAll(a, excludeZero) + EnumAll(b, excludeZero)
    decreases |a|
  {
    if |a| == 0 {
      assert a + b == b;
    } else {
      assert (a + b)[0] == a[0] && (a + b)[1..] == a[1..] + b;
      EnumAllAppend(a[1..], b, excludeZero);
    }
  }

  /** Without a zero member nothing is left out. */
  lemma {:induction false} EnumAllNoZero(members: seq<Member>, excludeZero: bool)
    requires forall i :: 0 <= i < |members| ==> members[i].value != 0
    ensures EnumAll(members, excludeZero) == members
    decreases |members|
  {
    if |members| > 0 {
      EnumAllNoZero(members[1..], excludeZero);
      assert [members[0]] + members[1..] == members;
    }
  }

  /** With one zero member, at `k`, `excludeZero` removes exactly that
      member and keeps the others in place. */
  lemma EnumAllDropsZero(members: seq<Member>, k: int)
    requires 0 <= k < |members| && members[k].value == 0
    requires forall i :: 0 <= i < |members| && i != k ==> members[i].value != 0
    ensures EnumAll(members, true) == members[..k] + members[k + 1..]
  {
    var before, after := members[..k], members[k + 1..];
    SplitAround(members, k, before, after);
    EnumAllAppend(before, [members[k]] + after, true);
    EnumAllAppend([members[k]], after, true);
    assert EnumAll([members[k]], true) == [];
    EnumAllNoZero(before, true);
    EnumAllNoZero(after, true);
  }

  lemma SplitAround(members: seq<Member>, k: int, before: seq<Member>, after: seq<Member>)
    requires 0 <= k < |members| && before == members[..k] && after == members[k + 1..]
    requires forall i :: 0 <= i < |members| && i != k ==> members[i].value != 0
    ensures members == before + ([members[k]] + after)
    ensures forall i :: 0 <= i < |before| ==> before[i].value != 0
    ensures forall i :: 0 <= i < |after| ==> after[i].value != 0
  {
    assert forall i :: 0 <= i < |after| ==> after[i] == members[k + 1 + i];
  }


  /** The key `Enum.GetValues` sorts by: the value's unsigned 32-bit
      pattern, under which negative values come after the positive ones. */
  function Pattern(v: int): nat {
    v % 0x1_0000_0000
  }

  /** Listed as `Enum.GetValues` lists: ascending by `Pattern`, a value
      repeated once for each name that carries it. */
  predicate Ascending(members: seq<Member>) {
    forall i, j :: 0 <= i < j < |members| ==> Pattern(members[i].value) <= Pattern(members[j].value)
  }

  /** Leaving members out keeps the listing in `Enum.GetValues` order. */
  lemma {:induction false} EnumAllAscending(members: seq<Member>, excludeZero: bool)
    requires Ascending(members)
    ensures Ascending(EnumAll(members, excludeZero))
    decreases |members|
  {
    if |members| > 0 {
      var tail := members[1..];
      EnumAllAscending(tail, excludeZero);
      ListedAbove(tail, Pattern(members[0].value), excludeZero);
      if !(excludeZero && members[0].value == 0) {
        AscendingCons(members[0], EnumAll(tail, excludeZero));
      }
    }
  }

  lemma ListedAbove(members: seq<Member>, bound: int, excludeZero: bool)
    requires forall j :: 0 <= j < |members| ==> bound <= Pattern(members[j].value)
    ensures forall i :: 0 <= i < |EnumAll(members, excludeZero)| ==> bound <= Pattern(EnumAll(members, excludeZero)[i].value)
  {
    var r := EnumAll(members, excludeZero);
    forall i | 0 <= i < |r|
      ensures bound <= Pattern(r[i].value)
    {
      assert r[i] in members;
    }
  }

  lemma AscendingCons(x: Member, rest: seq<Member>)
    requires Ascending(rest)
    requires forall i :: 0 <= i < |rest| ==> Pattern(x.value) <= Pattern(rest[i].value)
    ensures Ascending([x] + rest)
  {
    var r := [x] + rest;
    forall i, j | 0 <= i < j < |r|
      ensures Pattern(r[i].value) <= Pattern(r[j].value)
    {
      assert r[j] == rest[j - 1];
      if i > 0 {
        assert r[i] == rest[i - 1];
      }
    }
  }


  /** A zero-valued member is listed exactly when one exists and
      `excludeZero` is not set. */
  lemma ZeroListed(members: seq<Member>, excludeZero: bool)
    ensures (exists i :: 0 <= i < |EnumAll(members, excludeZero)| && EnumAll(members, excludeZero)[i].value == 0)
        <==> !excludeZero && exists i :: 0 <= i < |members| && members[i].value == 0
  {
    var r := EnumAll(members, excludeZero);
    if !excludeZero && exists i :: 0 <= i < |members| && members[i].value == 0 {
      var i :| 0 <= i < |members| && members[i].value == 0;
      assert r[i].value == 0;
    }
  }

  /** The label of one `PrintEnum` row: the value right-aligned to `numLen`
      characters, a dot, a blank and the name. */
  function EnumLabel(value: int, numLen: nat, name: string): (s: string)
    ensures var width := if |ShowInt(value)| < numLen then numLen else |ShowInt(value)|;
      && |s| == width + 2 + |name|
      && s[width..] == ". " + name
      && TrimStart(s[..width], White) == ShowInt(value)
  {
    var sv := ShowInt(value);
    var padLength := if |sv| < numLen then numLen - |sv| else 0;
    var s := Spaces(padLength) + sv + ". " + name;
    assert s[..padLength + |sv|] == Spaces(padLength) + sv;
    assert s[padLength + |sv|..] == ". " + name;
    ShowIntLeads(value);
    TrimStartSkips(Spaces(padLength), sv);
    s
  }

  /** A numeral starts with a sign or a digit, never a blank. */
  lemma ShowIntLeads(n: int)
    ensures !IsWhiteSpace(ShowInt(n)[0])
  {
    if n >= 0 {
      assert IsDigit(Show(n, 10)[0], 10);
    } else {
      assert ShowInt(n)[0] == '-';
    }
  }

  lemma TrimStartSkips(p: string, t: string)
    requires forall i :: 0 <= i < |p| ==> IsWhiteSpace(p[i])
    requires |t| > 0 && !IsWhiteSpace(t[0])
    ensures TrimStart(p + t, White) == t
  {
    var s := p + t;
    forall j | 0 <= j < |p|
      ensures Drops(White, s[j])
    {
      assert s[j] == p[j];
    }
    assert s[|p|] == t[0];
    SkipStartAt(s, White, 0, |p|);
    assert s[|p|..] == t;
  }

  /** `e.ToString()` or the caller's name map. */
  function NameOf(nameMap: Option<Member -> string>, e: Member): string {
    match nameMap
    case None => e.name
    case Some(f) => f(e)
  }

  /** The caller's description map, or no description. */
  function DescriptionOf(descriptionMap: Option<Member -> string>, e: Member): string {
    match descriptionMap
    case None => ""
    case Some(f) => f(e)
  }

  /** The `ND` rows of `PrintEnum` for `entries`, labels `numLen` wide. */
  function EnumRows(level: int, entries: seq<Member>, numLen: nat, descriptionMap: Option<Member -> string>,
                    nameMap: Option<Member -> string>, column: nat, width: int): string
    requires width - 1 - column > 0 || forall e :: e in entries ==> IsBlank(DescriptionOf(descriptionMap, e))
  {
    if |entries| == 0 then []
    else
      var e := entries[0];
      NameDescription(level, EnumLabel(e.value, numLen, NameOf(nameMap, e)), DescriptionOf(descriptionMap, e), column, width)
      + EnumRows(level, entries[1..], numLen, descriptionMap, nameMap, column, width)
  }

  /** The labels of `entries`, each after `level` blanks (none when negative). */
  function LabelRows(level: int, entries: seq<Member>, numLen: nat, nameMap: Option<Member -> string>): (rows: seq<string>)
    ensures |rows| == |entries|
    ensures forall i :: 0 <= i < |entries| ==>
      rows[i] == Spaces(if level < 0 then 0 else level) + EnumLabel(entries[i].value, numLen, NameOf(nameMap, entries[i]))
  {
    if |entries| == 0 then []
    else
      [Spaces(if level < 0 then 0 else level) + EnumLabel(entries[0].value, numLen, NameOf(nameMap, entries[0]))]
      + LabelRows(level, entries[1..], numLen, nameMap)
  }

  /** `PrintEnum`: one `ND` row per listed member; the value column is as
      wide as the number of listed members has digits. Without a
      description map every row is the indented label alone. */
  function PrintEnum(level: int, members: seq<Member>, descriptionMap: Option<Member -> string>,
                     nameMap: Option<Member -> string>, excludeZero: bool, column: nat, width: int): (r: string)
    requires width - 1 - column > 0 || forall e :: e in members ==> IsBlank(DescriptionOf(descriptionMap, e))
    ensures descriptionMap.None? ==>
      var all := EnumAll(members, excludeZero);
      r == Lines(LabelRows(level, all, if |all| == 0 then 0 else DigitCount(|all|), nameMap))
  {
    var all := EnumAll(members, excludeZero);
    var numLen := if |all| == 0 then 0 else DigitCount(|all|);
    UndescribedRows(level, all, numLen, nameMap, column, width);
    EnumRows(level, all, numLen, descriptionMap, nameMap, column, width)
  }

  lemma {:induction false} UndescribedRows(level: int, entries: seq<Member>, numLen: nat,
                                           nameMap: Option<Member -> string>, column: nat, width: int)
    ensures EnumRows(level, entries, numLen, None, nameMap, column, width) == Lines(LabelRows(level, entries, numLen, nameMap))
    decreases |entries|
  {
    if |entries| > 0 {
      UndescribedRows(level, entries[1..], numLen, nameMap, column, width);
      var rows := LabelRows(level, entries, numLen, nameMap);
      assert rows[1..] == LabelRows(level, entries[1..], numLen, nameMap);
    }
  }
}

=== FILE: progress_bar.dfy ===
/** The console progress bar. A redraw replaces the text on the line by
    backing up over the part that changed, writing the new suffix and
    blanking what the new text no longer covers. The bar is a value here:
    every operation returns the next state and the text it writes, and the
    timer, the atomic progress field and the writer stay outside. */
module ProgressBar {
  import opened Text
  import opened Digits

  /** `'\b'`. */
  const Backspace: char := '\U{8}'

  function Backspaces(n: nat): string {
    Repeat(Backspace, n)
  }

  // ---------------------------------------------------------------- the redraw

  /** Length of the common prefix of `a` and `b`, searched from `i` on. */
  function CommonPrefixFrom(a: string, b: string, i: nat): (n: nat)
    requires i <= |a| && i <= |b|
    ensures i <= n <= |a| && n <= |b|
    ensures forall j :: i <= j < n ==> a[j] == b[j]
    ensures n < |a| && n < |b| ==> a[n] != b[n]
    decreases |a| - i
  {
    if i < |a| && i < |b| && a[i] == b[i] then CommonPrefixFrom(a, b, i + 1) else i
  }

  /** `commonPrefixLength` of `UpdateText`: the length of the longest common
      prefix of the shown text and the new one. */
  function CommonPrefixLength(a: string, b: string): (n: nat)
    ensures n <= |a| && n <= |b|
    ensures a[..n] == b[..n]
    ensures n < |a| && n < |b| ==> a[n] != b[n]
  {
    var n := CommonPrefixFrom(a, b, 0);
    assert forall j :: 0 <= j < n ==> a[..n][j] == b[..n][j];
    n
  }

  /** What `UpdateText(text)` writes while `current` is shown: backspaces
      to the first differing character, the new text from there, and when
      the new text is shorter by `k`, `k` blanks and `k` backspaces. It
      writes nothing exactly when the text does not change. */
  function Redraw(current: string, text: string): (out: string)
    ensures out == [] <==> current == text
  {
    var n := CommonPrefixLength(current, text);
    var overlap := |current| - |text|;
    var out := Backspaces(|current| - n) + text[n..] + (if overlap > 0 then Spaces(overlap) + Backspaces(overlap) else []);
    assert current == text ==> n == |text|;
    assert |out| == 0 ==> current[..n] == current && text[..n] == text;
    out
  }

  // ---------------------------------------------------------------- the console

  /** A console line: the characters shown and the cursor column. */
  datatype Screen = Screen(line: string, cursor: nat)

  predicate Valid(s: Screen) {
    s.cursor <= |s.line|
  }

  /** One character written to the console: a backspace moves the cursor one
      column left (not past the start); any other character replaces the one
      under the cursor, or extends the line at its end, and moves right. */
  function Put(s: Screen, c: char): (t: Screen)
    requires Valid(s)
    ensures Valid(t)
  {
    if c == Backspace then Screen(s.line, if s.cursor > 0 then s.cursor - 1 else 0)
    else if s.cursor < |s.line| then Screen(s.line[s.cursor := c], s.cursor + 1)
    else Screen(s.line + [c], s.cursor + 1)
  }

  /** The console after writing `out` character by character. */
  function Replay(s: Screen, out: string): (t: Screen)
    requires Valid(s)
    ensures Valid(t)
    decreases |out|
  {
    if |out| == 0 then s else Replay(Put(s, out[0]), out[1..])
  }

  lemma {:induction false} ReplayAppend(s: Screen, a: string, b: string)
    requires Valid(s)
    ensures Replay(s, a + b) == Replay(Replay(s, a), b)
    decreases |a|
  {
    if |a| == 0 {
      assert a + b == b;
    } else {
      assert (a + b)[0] == a[0];
      assert (a + b)[1..] == a[1..] + b;
      ReplayAppend(Put(s, a[0]), a[1..], b);
    }
  }

  /** `k` backspaces move the cursor `k` columns left and change nothing shown. */
  lemma {:induction false} ReplayBackspaces(line: string, c: nat, k: nat)
    requires k <= c <= |line|
    ensures Replay(Screen(line, c), Backspaces(k)) == Screen(line, c - k)
    decreases k
  {
    if k > 0 {
      ReplayBackspaces(line, c, k - 1);
      ReplayAppend(Screen(line, c), Backspaces(k - 1), [Backspace]);
      assert [Backspace][1..] == [];
    }
  }

  /** `line` with `t` written over it from column `c`. */
  function Overwrite(line: string, c: nat, t: string): (r: string)
    requires c <= |line|
    ensures |r| == if c + |t| > |line| then c + |t| else |line|
    ensures forall i :: 0 <= i < |r| ==> r[i] == if c <= i < c + |t| then t[i - c] else line[i]
  {
    line[..c] + t + (if c + |t| < |line| then line[c + |t|..] else [])
  }

  /** Text without backspaces is written over the line from the cursor on. */
  lemma {:induction false} ReplayWrite(line: string, c: nat, t: string)
    requires c <= |line|
    requires forall i :: 0 <= i < |t| ==> t[i] != Backspace
    ensures Replay(Screen(line, c), t) == Screen(Overwrite(line, c, t), c + |t|)
    decreases |t|
  {
    if |t| == 0 {
      assert Overwrite(line, c, t) == line;
    } else {
      var s1 := Put(Screen(line, c), t[0]);
      assert s1 == Screen(Overwrite(line, c, [t[0]]), c + 1);
      ReplayWrite(s1.line, c + 1, t[1..]);
      assert Overwrite(s1.line, c + 1, t[1..]) == Overwrite(line, c, t);
    }
  }

  /** Replaying the redraw on a line showing `current`, with the cursor at its
      end, shows the new text followed by blanks over the rest of the old
      one, with the cursor right after the new text. */
  lemma RedrawReplay(current: string, text: string)
    requires forall i :: 0 <= i < |text| ==> text[i] != Backspace
    ensures var k := if |current| > |text| then |current| - |text| else 0;
      Replay(Screen(current, |current|), Redraw(current, text)) == Screen(text + Spaces(k), |text|)
  {
    var n := CommonPrefixLength(current, text);
    var k := if |current| > |text| then |current| - |text| else 0;
    var head := Backspaces(|current| - n) + text[n..];
    var blank := if k > 0 then Spaces(k) + Backspaces(k) else [];
    var rest := if k > 0 then current[|text|..] else [];
    ReplayAppend(Screen(current, |current|), head, blank);
    RedrawWritesSuffix(current, text);
    if k > 0 {
      BlankRest(text, rest);
    } else {
      assert text + rest == text && text + Spaces(0) == text;
    }
  }

  /** Backing up to the first difference and writing the new suffix leaves
      the new text, followed by what is left of the old one. */
  lemma RedrawWritesSuffix(current: string, text: string)
    requires forall i :: 0 <= i < |text| ==> text[i] != Backspace
    ensures var n := CommonPrefixLength(current, text);
      var rest := if |current| > |text| then current[|text|..] else [];
      Replay(Screen(current, |current|), Backspaces(|current| - n) + text[n..]) == Screen(text + rest, |text|)
  {
    var n := CommonPrefixLength(current, text);
    var rest := if |current| > |text| then current[|text|..] else [];
    var suffix := text[n..];
    ReplayAppend(Screen(current, |current|), Backspaces(|current| - n), suffix);
    ReplayBackspaces(current, |current|, |current| - n);
    ReplayWrite(current, n, suffix);
    var line := Overwrite(current, n, suffix);
    forall i | 0 <= i < |line|
      ensures line[i] == (text + rest)[i]
    {
      if i < n {
        assert current[..n][i] == text[..n][i];
      }
    }
  }

  /** Blanks written over the rest of the old text, then backed over. */
  lemma BlankRest(text: string, rest: string)
    requires |rest| > 0
    ensures Replay(Screen(text + rest, |text|), Spaces(|rest|) + Backspaces(|rest|))
         == Screen(text + Spaces(|rest|), |text|)
  {
    var k := |rest|;
    ReplayAppend(Screen(text + rest, |text|), Spaces(k), Backspaces(k));
    ReplayWrite(text + rest, |text|, Spaces(k));
    assert Overwrite(text + rest, |text|, Spaces(k)) == text + Spaces(k);
    ReplayBackspaces(text + Spaces(k), |text| + k, k);
  }

  // ---------------------------------------------------------------- the bar

  /** The redraw state of a bar: the text shown, whether it was disposed,
      and the animation counter. */
  datatype Bar = Bar(currentText: string, disposed: bool, animationIndex: nat)

  /** A new bar shows nothing. */
  const Fresh: Bar := Bar("", false, 0)

  /** The next state and the text written to the console. */
  datatype Step = Step(bar: Bar, written: string)

  /** `UpdateText(text)`: the redraw, after which `text` is the text shown. */
  function UpdateText(bar: Bar, text: string): (r: Step)
    ensures r.bar == bar.(currentText := text)
    ensures r.written == [] <==> bar.currentText == text
  {
    Step(bar.(currentText := text), Redraw(bar.currentText, text))
  }

  /** `Dispose()`: mark the bar disposed and redraw to the empty text. */
  function Dispose(bar: Bar): (r: Step)
    ensures r.bar.disposed && r.bar.currentText == []
  {
    UpdateText(bar.(disposed := true), [])
  }

  /** Disposing erases the bar: the line shows only blanks and the cursor is
      back at its start. */
  lemma DisposeErases(bar: Bar)
    ensures Replay(Screen(bar.currentText, |bar.currentText|), Dispose(bar).written)
         == Screen(Spaces(|bar.currentText|), 0)
  {
    RedrawReplay(bar.currentText, []);
    assert [] + Spaces(|bar.currentText|) == Spaces(|bar.currentText|);
  }

  /** Once disposed, a bar writes nothing more: neither a second `Dispose`
      nor a timer tick. */
  lemma DisposedIsSilent(bar: Bar, caption: string, value: real)
    ensures Dispose(Dispose(bar).bar).written == []
    ensures Tick(Dispose(bar).bar, caption, value) == Step(Dispose(bar).bar, [])
  {
  }

  // ---------------------------------------------------------------- the frame

  /** `blockCount`. */
  const BlockCount: nat := 10

  /** `animation`: the spinner's four characters. */
  const Animation: string := "|/-\\"

  /** `Math.Clamp(value, 0, 1)`. */
  function Clamp(v: real): (c: real)
    ensures 0.0 <= c <= 1.0
    ensures 0.0 <= v <= 1.0 ==> c == v
  {
    if v < 0.0 then 0.0 else if v > 1.0 then 1.0 else v
  }

  /** `(int)(value * blockCount)`: the filled blocks. */
  function Blocks(v: real): (k: nat)
    ensures k <= BlockCount
  {
    (Clamp(v) * 10.0).Floor
  }

  /** `(int)(value * 100)`: the percentage shown. */
  function Percent(v: real): (p: nat)
    ensures p <= 100
    ensures v <= 0.0 ==> p == 0
    ensures v >= 1.0 ==> p == 100
    ensures 0.0 <= v <= 1.0 ==> p as real <= v * 100.0 < (p + 1) as real
  {
    (Clamp(v) * 100.0).Floor
  }

  /** The bar fills one block per full ten percent shown. */
  lemma BlocksFollowPercent(v: real)
    ensures Blocks(v) == Percent(v) / 10
  {
    var x := Clamp(v) * 10.0;
    var k := Blocks(v);
    var p := Percent(v);
    assert (10 * k) as real <= x * 10.0;
    assert 10 * k <= p;
    assert p as real <= x * 10.0 < (10 * k + 10) as real;
  }

  /** `{percent,3}`: right-aligned in three columns. */
  function PercentField(p: nat): (s: string)
    requires p <= 100
    ensures |s| == 3
    ensures TrimStart(s, White) == Show(p, 10)
    ensures forall i :: 0 <= i < 3 ==> s[i] == ' ' || IsDigit(s[i], 10)
  {
    var d := Show(p, 10);
    ShortNumeral(p);
    var s := Spaces(3 - |d|) + d;
    PadLeftTrims(3 - |d|, d);
    s
  }

  lemma ShortNumeral(p: nat)
    requires p <= 100
    ensures |Show(p, 10)| <= 3
  {
    if p > 0 {
      DigitCountIsLogWidth(p);
      if |Show(p, 10)| > 3 {
        PowMonotonic(10, 3, |Show(p, 10)| - 1);
        assert false;
      }
    }
  }

  lemma PadLeftTrims(k: nat, d: string)
    requires |d| > 0 && IsDigit(d[0], 10)
    ensures TrimStart(Spaces(k) + d, White) == d
  {
    var s := Spaces(k) + d;
    forall j | 0 <= j < k
      ensures Drops(White, s[j])
    {
      assert s[j] == ' ';
    }
    assert s[k] == d[0];
    SkipStartAt(s, White, 0, k);
    assert s[k..] == d;
  }

  /** The frame `TimerHandler` draws: the label, `[`, the filled and the
      empty blocks, `]`, the percentage right-aligned in three columns, `%`
      and the spinner character. A null label prints as nothing. */
  function Frame(caption: string, value: real, animationIndex: nat): (f: string)
    ensures |f| == |caption| + 19
    ensures f[..|caption|] == caption
    ensures var g := f[|caption|..];
      && g[0] == '[' && g[11] == ']' && g[12] == ' '
      && (forall i :: 0 < i <= BlockCount ==> g[i] == if i <= Blocks(value) then '#' else '-')
      && TrimStart(g[13..16], White) == Show(Percent(value), 10)
      && g[16..18] == "% " && g[18] == Animation[animationIndex % 4]
  {
    var g := BarText(Blocks(value), Percent(value), Animation[animationIndex % 4]);
    assert (caption + g)[|caption|..] == g;
    caption + g
  }

  /** The frame after the label. */
  function BarText(k: nat, p: nat, spin: char): (g: string)
    requires k <= BlockCount && p <= 100
    ensures |g| == 19
    ensures g[0] == '[' && g[11] == ']' && g[12] == ' '
    ensures forall i :: 0 < i <= BlockCount ==> g[i] == if i <= k then '#' else '-'
    ensures TrimStart(g[13..16], White) == Show(p, 10)
    ensures forall i :: 13 <= i < 16 ==> g[i] == ' ' || IsDigit(g[i], 10)
    ensures g[16..18] == "% " && g[18] == spin
  {
    var blocks := Repeat('#', k) + Repeat('-', BlockCount - k);
    var pct := PercentField(p);
    var g := "[" + blocks + "] " + pct + "% " + [spin];
    assert g[13..16] == pct;
    assert forall i :: 0 < i <= BlockCount ==> g[i] == blocks[i - 1];
    g
  }

  /** A timer tick: nothing once disposed; otherwise the frame for the
      current progress is drawn and the spinner advances. */
  function Tick(bar: Bar, caption: string, value: real): (r: Step)
    ensures bar.disposed ==> r == Step(bar, [])
    ensures !bar.disposed ==>
      r.bar.currentText == Frame(caption, value, bar.animationIndex) && r.bar.animationIndex == bar.animationIndex + 1
    ensures !bar.disposed ==>
      !r.bar.disposed && r.written == Redraw(bar.currentText, Frame(caption, value, bar.animationIndex))
  {
    if bar.disposed then Step(bar, [])
    else UpdateText(bar.(animationIndex := bar.animationIndex + 1), Frame(caption, value, bar.animationIndex))
  }

  /** A frame holds no backspace beyond those of its label. */
  lemma FrameHasNoBackspace(caption: string, value: real, animationIndex: nat)
    requires forall i :: 0 <= i < |caption| ==> caption[i] != Backspace
    ensures var f := Frame(caption, value, animationIndex);
      forall i :: 0 <= i < |f| ==> f[i] != Backspace
  {
    var spin := Animation[animationIndex % 4];
    SpinnerIsNotBackspace(animationIndex);
    BarTextHasNoBackspace(Blocks(value), Percent(value), spin);
    FrameIsJoin(caption, value, animationIndex);
    JoinHasNoBackspace(caption, BarText(Blocks(value), Percent(value), spin));
  }

  lemma SpinnerIsNotBackspace(animationIndex: nat)
    ensures Animation[animationIndex % 4] != Backspace
  {
  }

  lemma FrameIsJoin(caption: string, value: real, animationIndex: nat)
    ensures Frame(caption, value, animationIndex) == caption + BarText(Blocks(value), Percent(value), Animation[animationIndex % 4])
  {
  }

  lemma JoinHasNoBackspace(a: string, b: string)
    requires forall i :: 0 <= i < |a| ==> a[i] != Backspace
    requires forall i :: 0 <= i < |b| ==> b[i] != Backspace
    ensures forall i :: 0 <= i < |a + b| ==> (a + b)[i] != Backspace
  {
  }

  lemma BarTextHasNoBackspace(k: nat, p: nat, spin: char)
    requires k <= BlockCount && p <= 100 && spin != Backspace
    ensures var g := BarText(k, p, spin);
      forall i :: 0 <= i < |g| ==> g[i] != Backspace
  {
    var g := BarText(k, p, spin);
    assert g[16] == g[16..18][0];
    assert g[17] == g[16..18][1];
  }

  /** A tick of a live bar, replayed from the end of the shown text, leaves
      the new frame on the line, blanks over the rest of the old text, and
      the cursor right after the frame. */
  lemma TickDrawsFrame(bar: Bar, caption: string, value: real)
    requires !bar.disposed
    requires forall i :: 0 <= i < |caption| ==> caption[i] != Backspace
    ensures var f := Frame(caption, value, bar.animationIndex);
      var k := if |bar.currentText| > |f| then |bar.currentText| - |f| else 0;
      Replay(Screen(bar.currentText, |bar.currentText|), Tick(bar, caption, value).written) == Screen(f + Spaces(k), |f|)
  {
    FrameHasNoBackspace(caption, value, bar.animationIndex);
    StepReplay(bar.currentText, Frame(caption, value, bar.animationIndex), Tick(bar, caption, value));
  }

  lemma StepReplay(current: string, text: string, r: Step)
    requires forall i :: 0 <= i < |text| ==> text[i] != Backspace
    requires r.written == Redraw(current, text)
    ensures var k := if |current| > |text| then |current| - |text| else 0;
      Replay(Screen(current, |current|), r.written) == Screen(text + Spaces(k), |text|)
  {
    RedrawReplay(current, text);
  }
}

=== FILE: results.dfy ===
/** The four outcomes of a parameter operation (`ParseParams.Result`) and the
    boolean classification the callers use on them (`ResultExtensions`). */
module Results {

  datatype Result = Good | Missing | UnParsable | MissingArgument

  predicate IsGood(r: Result) { r == Good }

  predicate IsBad(r: Result) { r != Good }

  predicate IsMissingArgument(r: Result) { r == MissingArgument }

  predicate IsUnParsable(r: Result) { r == UnParsable }

  predicate IsMissing(r: Result) { r == Missing }

  predicate IsInvalid(r: Result) { IsMissingArgument(r) || IsUnParsable(r) }

  /** Number of the four primary classifications that hold of `r`. */
  function ClassCount(r: Result): nat {
    (if IsGood(r) then 1 else 0) + (if IsMissing(r) then 1 else 0)
    + (if IsUnParsable(r) then 1 else 0) + (if IsMissingArgument(r) then 1 else 0)
  }

  /** Every result is classified by exactly one of the four primary predicates. */
  lemma ExactlyOneClass(r: Result)
    ensures ClassCount(r) == 1
  {
  }

  /** Bad is the complement of Good. */
  lemma BadIsNotGood(r: Result)
    ensures IsBad(r) <==> !IsGood(r)
  {
  }

  /** Invalid is exactly the two usage errors; it implies Bad, and Missing is
      the one Bad result that is not Invalid. */
  lemma InvalidClassification(r: Result)
    ensures IsInvalid(r) <==> r == MissingArgument || r == UnParsable
    ensures IsInvalid(r) ==> IsBad(r)
    ensures IsBad(r) && !IsInvalid(r) <==> IsMissing(r)
  {
  }
}

=== FILE: text.dfy ===
/** Character and string helpers shared by the parsers and the help printer:
    repeated characters, .NET white space, ASCII case folding and trimming. */
module Text {

  /** `n` copies of `c`, as `new string(c, n)` and `StringBuilder.Append(c, n)` build. */
  function Repeat(c: char, n: nat): (s: string)
    ensures |s| == n
    ensures forall i :: 0 <= i < n ==> s[i] == c
  {
    if n == 0 then [] else Repeat(c, n - 1) + [c]
  }

  function Spaces(n: nat): (s: string)
    ensures |s| == n
    ensures forall i :: 0 <= i < n ==> s[i] == ' '
  {
    Repeat(' ', n)
  }

  /** `char.IsWhiteSpace`: the Unicode separators and the control characters
      TAB, LF, VT, FF, CR, NEL. */
  predicate IsWhiteSpace(c: char) {
    || c == ' '
    || ('\t' <= c <= '\r')
    || c == '\U{85}'
    || c == '\U{A0}'
    || c == '\U{1680}'
    || ('\U{2000}' <= c <= '\U{200A}')
    || c == '\U{2028}'
    || c == '\U{2029}'
    || c == '\U{202F}'
    || c == '\U{205F}'
    || c == '\U{3000}'
  }

  /** The pieces one after another, with nothing between them. */
  function Concat(parts: seq<string>): string {
    if |parts| == 0 then [] else parts[0] + Concat(parts[1..])
  }

  /** `string.IsNullOrWhiteSpace` for a non-null string (the empty string included). */
  predicate IsBlank(s: string) {
    forall i :: 0 <= i < |s| ==> IsWhiteSpace(s[i])
  }

  /** ASCII lower-casing; the case-insensitive comparisons of the model fold
      only 'A'..'Z'. */
  function FoldCase(c: char): (d: char)
    ensures 'A' <= c <= 'Z' ==> 'a' <= d <= 'z' && d as int == c as int + 32
    ensures !('A' <= c <= 'Z') ==> d == c
  {
    if 'A' <= c <= 'Z' then (c as int + 32) as char else c
  }

  predicate EqualsIgnoreCase(a: string, b: string) {
    |a| == |b| && forall i :: 0 <= i < |a| ==> FoldCase(a[i]) == FoldCase(b[i])
  }

  /** Comparing ignoring case is an equivalence. */
  lemma EqualsIgnoreCaseEquivalence(a: string, b: string, c: string)
    ensures EqualsIgnoreCase(a, b) ==> EqualsIgnoreCase(b, a)
    ensures EqualsIgnoreCase(a, b) && EqualsIgnoreCase(b, c) ==> EqualsIgnoreCase(a, c)
  {
  }

  /** Folding changes only letters, so a comma is matched only by a comma. */
  lemma FoldKeepsComma(a: string, b: string)
    requires EqualsIgnoreCase(a, b)
    ensures ',' in a <==> ',' in b
  {
    if ',' in a {
      var i :| 0 <= i < |a| && a[i] == ',';
      assert FoldCase(b[i]) == ',';
    }
    if ',' in b {
      var i :| 0 <= i < |b| && b[i] == ',';
      assert FoldCase(a[i]) == ',';
    }
  }

  /** The white space `NumberStyles.AllowLeadingWhite`/`AllowTrailingWhite`
      skip: SPACE and TAB..CR. */
  predicate IsNumberWhite(c: char) {
    c == ' ' || ('\t' <= c <= '\r')
  }

  /** Which characters a trim removes: .NET white space, the white space
      the number parsers skip, white space and NUL, or NUL alone. */
  datatype Padding = White | NumberWhite | WhiteOrNull | Null

  predicate Drops(pad: Padding, c: char) {
    match pad
    case White => IsWhiteSpace(c)
    case NumberWhite => IsNumberWhite(c)
    case WhiteOrNull => IsWhiteSpace(c) || c == '\0'
    case Null => c == '\0'
  }

  /** The first position at or after `i` whose character `pad` keeps, or
      `|s|` when it drops all of them. */
  function SkipStart(s: string, pad: Padding, i: nat): (k: nat)
    requires i <= |s|
    ensures i <= k <= |s|
    ensures forall j :: i <= j < k ==> Drops(pad, s[j])
    ensures k < |s| ==> !Drops(pad, s[k])
    decreases |s| - i
  {
    if i < |s| && Drops(pad, s[i]) then SkipStart(s, pad, i + 1) else i
  }

  /** The end of `s[lo..j]` once the trailing characters `pad` drops are
      cut off: `lo` when it drops all of them. */
  function SkipEnd(s: string, pad: Padding, lo: nat, j: nat): (k: nat)
    requires lo <= j <= |s|
    ensures lo <= k <= j
    ensures forall m :: k <= m < j ==> Drops(pad, s[m])
    ensures lo < k ==> !Drops(pad, s[k - 1])
    decreases j
  {
    if lo < j && Drops(pad, s[j - 1]) then SkipEnd(s, pad, lo, j - 1) else j
  }

  /** `string.TrimStart`: removes the leading characters that `pad` drops. */
  function TrimStart(s: string, pad: Padding): (t: string)
    ensures |t| <= |s|
    ensures forall i :: 0 <= i < |s| - |t| ==> Drops(pad, s[i])
    ensures |t| > 0 ==> !Drops(pad, t[0])
  {
    s[SkipStart(s, pad, 0)..]
  }

  /** `string.TrimEnd`: removes the trailing characters that `pad` drops. */
  function TrimEnd(s: string, pad: Padding): (t: string)
    ensures |t| <= |s|
    ensures forall i :: |t| <= i < |s| ==> Drops(pad, s[i])
    ensures |t| > 0 ==> !Drops(pad, t[|t| - 1])
  {
    s[..SkipEnd(s, pad, 0, |s|)]
  }

  /** `string.Trim`: removes the leading and the trailing characters
      that `pad` drops. */
  function Trim(s: string, pad: Padding): (t: string)
    ensures |t| <= |s|
    ensures |t| > 0 ==> !Drops(pad, t[0]) && !Drops(pad, t[|t| - 1])
  {
    var a := SkipStart(s, pad, 0);
    s[a..SkipEnd(s, pad, a, |s|)]
  }

  /** A position is where the leading padding from `i` ends exactly when
      everything before it drops and its own character does not. */
  lemma SkipStartAt(s: string, pad: Padding, i: nat, n: nat)
    requires i <= n <= |s|
    requires forall j :: i <= j < n ==> Drops(pad, s[j])
    requires n < |s| ==> !Drops(pad, s[n])
    ensures SkipStart(s, pad, i) == n
  {
  }

  /** The same for the end of the trailing padding. */
  lemma SkipEndAt(s: string, pad: Padding, lo: nat, j: nat, n: nat)
    requires lo <= n <= j <= |s|
    requires forall m :: n <= m < j ==> Drops(pad, s[m])
    requires lo < n ==> !Drops(pad, s[n - 1])
    ensures SkipEnd(s, pad, lo, j) == n
  {
  }

  /** Trimming strips exactly the padding: a text whose ends are kept,
      surrounded by dropped characters, comes back unchanged. */
  lemma TrimPadded(p: string, t: string, q: string, pad: Padding)
    requires forall i :: 0 <= i < |p| ==> Drops(pad, p[i])
    requires forall i :: 0 <= i < |q| ==> Drops(pad, q[i])
    requires |t| > 0 ==> !Drops(pad, t[0]) && !Drops(pad, t[|t| - 1])
    ensures Trim(p + t + q, pad) == if |t| == 0 then [] else t
  {
    if |t| == 0 {
      assert p + t + q == p + q;
      TrimAllPadding(p, q, pad);
    } else {
      TrimAroundText(p, t, q, pad);
    }
  }

  lemma TrimAllPadding(p: string, q: string, pad: Padding)
    requires forall i :: 0 <= i < |p| ==> Drops(pad, p[i])
    requires forall i :: 0 <= i < |q| ==> Drops(pad, q[i])
    ensures Trim(p + q, pad) == []
  {
    var s := p + q;
    forall j | 0 <= j < |s|
      ensures Drops(pad, s[j])
    {
      if j < |p| { assert s[j] == p[j]; } else { assert s[j] == q[j - |p|]; }
    }
    SkipStartAt(s, pad, 0, |s|);
  }

  lemma TrimAroundText(p: string, t: string, q: string, pad: Padding)
    requires forall i :: 0 <= i < |p| ==> Drops(pad, p[i])
    requires forall i :: 0 <= i < |q| ==> Drops(pad, q[i])
    requires |t| > 0 && !Drops(pad, t[0]) && !Drops(pad, t[|t| - 1])
    ensures Trim(p + t + q, pad) == t
  {
    var s := p + t + q;
    var n := |p| + |t|;
    forall j | 0 <= j < |p|
      ensures Drops(pad, s[j])
    {
      assert s[j] == p[j];
    }
    assert s[|p|] == t[0];
    SkipStartAt(s, pad, 0, |p|);
    forall m | n <= m < |s|
      ensures Drops(pad, s[m])
    {
      assert s[m] == q[m - n];
    }
    assert s[n - 1] == t[|t| - 1];
    SkipEndAt(s, pad, |p|, |s|, n);
    assert s[|p|..n] == t;
  }

  /** Trimming never removes a character that is not to be dropped. */
  lemma TrimKeeps(s: string, pad: Padding, i: int)
    requires 0 <= i < |s| && !Drops(pad, s[i])
    ensures s[i] in Trim(s, pad)
  {
    var a := SkipStart(s, pad, 0);
    assert a <= i;
    var b := SkipEnd(s, pad, a, |s|);
    assert i < b;
    assert Trim(s, pad)[i - a] == s[i];
  }

  /** What the .NET integer parsers read digits from: leading number white
      space is skipped, and so is a tail of number white space followed by
      any NUL characters. */
  function NumberTrim(s: string): (t: string)
    ensures |t| <= |s|
  {
    Trim(TrimEnd(s, Null), NumberWhite)
  }

  /** The same tail removed from a text whose start is already skipped. */
  function NumberTrimEnd(s: string): (t: string)
    ensures |t| <= |s|
  {
    TrimEnd(TrimEnd(s, Null), NumberWhite)
  }

  /** Trimming the end strips exactly the trailing padding. */
  lemma TrimEndPadded(t: string, q: string, pad: Padding)
    requires forall i :: 0 <= i < |q| ==> Drops(pad, q[i])
    requires |t| > 0 && !Drops(pad, t[|t| - 1])
    ensures TrimEnd(t + q, pad) == t
  {
    var s := t + q;
    forall m | |t| <= m < |s|
      ensures Drops(pad, s[m])
    {
      assert s[m] == q[m - |t|];
    }
    assert s[|t| - 1] == t[|t| - 1];
    SkipEndAt(s, pad, 0, |s|, |t|);
    assert s[..|t|] == t;
  }

  /** Digits, then number white space, then NUL characters: only the
      digits are read. */
  lemma NumberTrimPadded(t: string, w: string, z: string)
    requires |t| > 0 && !IsNumberWhite(t[0]) && !IsNumberWhite(t[|t| - 1]) && t[|t| - 1] != '\0'
    requires forall i :: 0 <= i < |w| ==> IsNumberWhite(w[i])
    requires forall i :: 0 <= i < |z| ==> z[i] == '\0'
    ensures NumberTrim(t + w + z) == t
  {
    var tw := t + w;
    assert |tw| > 0 && tw[|tw| - 1] != '\0' by {
      if |w| > 0 { assert tw[|tw| - 1] == w[|w| - 1]; } else { assert tw == t; }
    }
    assert forall i :: 0 <= i < |z| ==> Drops(Null, z[i]);
    TrimEndPadded(tw, z, Null);
    assert tw + z == t + w + z;
    assert forall i :: 0 <= i < |w| ==> Drops(NumberWhite, w[i]);
    TrimPadded([], t, w, NumberWhite);
    assert [] + t + w == tw;
  }

  /** A character that is not number white space is read as part of the
      number, unless nothing but NUL characters comes from it on. */
  lemma NumberTrimKeeps(s: string, i: int, j: int)
    requires 0 <= i <= j < |s| && s[j] != '\0' && !IsNumberWhite(s[i])
    ensures s[i] in NumberTrim(s)
  {
    var u := TrimEnd(s, Null);
    assert !Drops(Null, s[j]);
    assert j < |u| && u[i] == s[i];
    TrimKeeps(u, NumberWhite, i);
  }
}

=== FILE: tokens.dfy ===
/** The list operations the engine performs on its token list:
    `List.IndexOf`, `List.RemoveAt`, and the removal of first occurrences. */
module Tokens {

  /** `List.IndexOf`: the first index holding `x`, or -1. */
  function IndexOf<T(==)>(s: seq<T>, x: T): (i: int)
    ensures -1 <= i < |s|
    ensures i == -1 <==> x !in s
    ensures 0 <= i ==> s[i] == x && x !in s[..i]
  {
    if |s| == 0 then -1
    else if s[0] == x then 0
    else
      var j := IndexOf(s[1..], x);
      assert j >= 0 ==> s[..j + 1] == [s[0]] + s[1..][..j];
      if j == -1 then -1 else j + 1
  }

  /** `List.RemoveAt`. */
  function RemoveAt<T>(s: seq<T>, i: nat): (r: seq<T>)
    requires i < |s|
    ensures |r| == |s| - 1
  {
    s[..i] + s[i + 1..]
  }

  /** Removes the first occurrence of `x`, if any. */
  function RemoveFirst<T(==)>(s: seq<T>, x: T): seq<T> {
    if |s| == 0 then []
    else if s[0] == x then s[1..]
    else [s[0]] + RemoveFirst(s[1..], x)
  }

  /** Removes, in one left-to-right pass, the first occurrence of every
      element of `xs`; everything else keeps its relative order. */
  function RemoveFirsts<T(==)>(s: seq<T>, xs: set<T>): seq<T> {
    if |s| == 0 then []
    else if s[0] in xs then RemoveFirsts(s[1..], xs - {s[0]})
    else [s[0]] + RemoveFirsts(s[1..], xs)
  }

  /** Removing the element `IndexOf` finds is removing its first occurrence. */
  lemma {:induction false} RemoveAtIndexOf<T>(s: seq<T>, x: T)
    requires x in s
    ensures RemoveAt(s, IndexOf(s, x)) == RemoveFirst(s, x)
    decreases |s|
  {
    if s[0] != x {
      RemoveAtIndexOf(s[1..], x);
      var j := IndexOf(s[1..], x);
      assert s[..j + 1] + s[j + 2..] == [s[0]] + (s[1..][..j] + s[1..][j + 1..]);
    }
  }

  lemma {:induction false} RemoveFirstAbsent<T>(s: seq<T>, x: T)
    requires x !in s
    ensures RemoveFirst(s, x) == s
    decreases |s|
  {
    if |s| > 0 {
      RemoveFirstAbsent(s[1..], x);
    }
  }

  /** Occurrence counts after `RemoveFirst`: one fewer `x` if it was there,
      every other element untouched. */
  lemma {:induction false} RemoveFirstCounts<T>(s: seq<T>, x: T)
    ensures multiset(RemoveFirst(s, x))[x] == if x in s then multiset(s)[x] - 1 else 0
    ensures forall y :: y != x ==> multiset(RemoveFirst(s, x))[y] == multiset(s)[y]
    decreases |s|
  {
    if |s| > 0 {
      assert s == [s[0]] + s[1..];
      if s[0] != x {
        RemoveFirstCounts(s[1..], x);
      }
    }
  }

  /** Taking one more element into the pass of `RemoveFirsts` is the same as
      removing its first occurrence afterwards. */
  lemma {:induction false} RemoveFirstsStep<T>(s: seq<T>, xs: set<T>, x: T)
    requires x !in xs
    ensures RemoveFirst(RemoveFirsts(s, xs), x) == RemoveFirsts(s, xs + {x})
    decreases |s|
  {
    if |s| > 0 {
      var h := s[0];
      if h in xs {
        RemoveFirstsStep(s[1..], xs - {h}, x);
        assert xs - {h} + {x} == xs + {x} - {h};
      } else if h == x {
        assert xs + {x} - {x} == xs;
      } else {
        RemoveFirstsStep(s[1..], xs, x);
      }
    }
  }

  lemma {:induction false} RemoveFirstsNone<T>(s: seq<T>)
    ensures RemoveFirsts(s, {}) == s
    decreases |s|
  {
    if |s| > 0 {
      RemoveFirstsNone(s[1..]);
    }
  }

  /** The source's run of `RemoveAt(i + k - 1)`, ..., `RemoveAt(i)`: removing
      from the back of the run keeps the earlier indices valid, so the `k`
      tokens starting at `i` are cut out. */
  function RemoveRun<T>(s: seq<T>, i: nat, k: nat): (r: seq<T>)
    requires i + k <= |s|
    ensures r == s[..i] + s[i + k..]
    decreases k
  {
    if k == 0 then s
    else
      var t := RemoveAt(s, i + k - 1);
      assert t[..i] == s[..i] && t[i + k - 1..] == s[i + k..];
      RemoveRun(t, i, k - 1)
  }
}

=== FILE: wrappers.dfy ===
/** The optional value used wherever the source throws, returns null or
    reports failure through a `bool`. */
module Wrappers {

  datatype Option<+T> = None | Some(value: T)
}
